=== FILE: README.md ===
# Coastline pipeline geometry, modelled in Dafny

Five downloader scripts produce coastline data for the chart renderer:

- `download_enc_direct.py` (ENC direct);
- `download_enc_data.py` (ENC data);
- `download_noaa_data.py` (NOAA);
- `download_osm_coastline.py` (OSM);
- `download_gshhg.py` (GSHHG).

They share one geometry pipeline, copied into each script with small differences:

- shapefile import: a bounding-box filter, clamping rings to a region, and splitting a shape's point list at its part offsets;
- the tile-boundary artifact test and the polygon merge shell (ENC direct);
- the Douglas-Peucker level-of-detail simplifier (`_perpendicular_distance`, `douglas_peucker`, `simplify_geojson`);
- the writer of the NVTL binary file (`geojson_to_binary`).

This project models that pipeline as pure functions over immutable datatypes and proves what each stage guarantees. It also proves how the tools' variants relate to one another.

Modules, in dependency order:

- `Wrappers`: `Option` and `Result`. A `None` result also stands for a Python exception that aborts the call.
- `Geometry`: points, rings, geometries and features. It also holds the list helpers that model the scripts' loops: `Filter` is a list comprehension, `FlatMap` a loop that extends an output list, and `Gather` such a loop that may raise.
- `Distance`: `_perpendicular_distance`, squared.
- `DouglasPeucker`: `_simplify` (both the plain and the length-guarded copies) and `douglas_peucker`.
- `RingPolicy`: what each tool keeps of a ring that simplifies below four points.
- `Artifacts`: `is_rectangular_feature` and the filter built on it.
- `Merge`: the shell of `merge_land_polygons`.
- `Nvtl`: the byte layout of the NVTL file, with a reference reader.
- `Encoders`: which features each tool's `geojson_to_binary` turns into polygon entries.
- `ShapeImport`: the shapefile helpers.
- One module per tool: `EncDirect`, `EncData`, `Noaa`, `Osm` and `Gshhg`. Each holds that tool's `shapes_to_geojson`/`shapefile_to_geojson` and `simplify_geojson`.

Modelling choices:

- Coordinates are reals.
- Distances are compared squared. `_perpendicular_distance` is the square root of `Distance.SegmentSqDist`. Both sides of each comparison are non-negative, and the scan's sentinel is -1, so every comparison `_simplify` makes comes out the same.
- `_simplify` is modelled on positions. Every segment it sees is a slice of the list `douglas_peucker` started from, so `DouglasPeucker.Kept` returns the positions it keeps.
- `struct.pack('<d', _)` is a parameter of the encoder: any map from doubles to 8 bytes.
- The bounds start at plus and minus infinity, so a double is a real or one of the two infinities.
- `struct.pack('<I', n)` raises for n ≥ 2^32. The encoder then returns `None`.

The project's documentation and its code differ in a few places; the model follows the code:

- The documentation says every tool replaces a ring that simplifies below four points by the original ring. The code varies by tool:
  - ENC direct keeps the original ring for a Polygon but drops the ring inside a MultiPolygon;
  - OSM keeps the original unless it is empty, and drops a Polygon left without rings;
  - ENC data keeps the original ring without closing it.
- The documentation says an empty collection gets zero bounds. The NOAA writer has no such guard: with no polygon it writes (+inf, +inf, -inf, -inf) (`Encoders.NoaaDiffersOnlyWhenEmpty`).
- The documentation counts artifact candidates' points after closure. `is_rectangular_feature` counts the exterior as given.
- The documentation says decoding tells error kinds apart. The tools contain no decoder. `Nvtl.Read` is a reference reader used only to state the round trip, and it returns `None` on any malformed input.

## Model

| member | source | states |
|---|---|---|
| Geometry.CloseRing | tools/download_noaa_data.py:198-200 | the result is closed and starts with the whole ring; an already closed ring is unchanged, any other gains exactly one point |
| Geometry.ClosingKeepsPoints | tools/download_osm_coastline.py:214-216 | closing a ring neither adds a new point nor loses one: the two lists hold the same points |
| Distance.SqDist | tools/download_enc_direct.py:724-726 | the squared distance is non-negative and zero exactly when the two points are equal |
| Distance.SegmentSqDist | tools/download_enc_direct.py:721-730 | `_perpendicular_distance`, squared: never negative, and for a zero-length segment the squared distance to its start |
| Distance.ZeroLengthSegment | tools/download_enc_data.py:236-238 | for a zero-length segment the distance is the distance to its start |
| Distance.SegmentSqDistAttained | tools/download_enc_direct.py:727-730 | the distance is attained at a point of the segment, the projection parameter being clamped to [0, 1] |
| Distance.SegmentSqDistIsMinimal | tools/download_enc_direct.py:721-730 | no point of the segment is closer than the returned distance, so it is the distance to the segment and not to the infinite line |
| Distance.EndpointsOnSegment | tools/download_enc_direct.py:721-730 | both endpoints of a segment lie at distance zero from it |
| DouglasPeucker.Farthest | tools/download_enc_direct.py:743-749 | the scan holds the largest chord distance seen and the first position attaining it, or the sentinel (-1, 0) when nothing was examined |
| DouglasPeucker.SplitIsInterior | tools/download_enc_direct.py:750-752 | a split happens only at a strictly interior position |
| DouglasPeucker.Kept | tools/download_enc_direct.py:741-755 | at least two and at most all positions are kept, the first and last of the segment among them, all within it |
| DouglasPeucker.KeptIncreasing | tools/download_enc_direct.py:750-753 | the kept positions are strictly increasing, so the joined halves never repeat or reorder a point |
| DouglasPeucker.CollapseIffAllNear | tools/download_enc_direct.py:750-755 | a segment collapses to its chord exactly when every interior point is within the tolerance of that chord |
| DouglasPeucker.SplitPointKeptOnce | tools/download_enc_data.py:264-267 | after a split the split point occurs exactly once in the joined result |
| DouglasPeucker.GuardIsRedundant | tools/download_enc_data.py:253-269 | the copy of `_simplify` that returns short segments unchanged keeps the same positions as the copy without the guard |
| DouglasPeucker.DouglasPeuckerGuarded | tools/download_enc_data.py:245-274 | the `douglas_peucker` of ENC data returns its input for at most two points or a non-positive tolerance, and otherwise at least two points |
| DouglasPeucker.KeptIsEmbedding | tools/download_enc_direct.py:741-757 | the simplified segment is the input with some points deleted, in order |
| DouglasPeucker.KeptStaysNear | tools/download_enc_direct.py:741-755 | every point of a segment, kept or dropped, lies within the tolerance of the edge joining the kept positions on either side of it, the chord it was dropped against |
| DouglasPeucker.DouglasPeucker | tools/download_enc_direct.py:733-761 | the input is returned for at most two points or a non-positive tolerance; otherwise the result is no longer than the input, has at least two points, keeps the first point, keeps the last point of open input, and is closed when the input is |
| DouglasPeucker.GuardedAgrees | tools/download_enc_data.py:245-274 | the `douglas_peucker` of ENC data (and its copy in OSM), with the extra length tests, computes the same polyline as the copy in ENC direct and NOAA |
| DouglasPeucker.DouglasPeuckerIsSubsequence | tools/download_enc_direct.py:733-761 | the result is a subsequence of the input: no point is invented or reordered |
| DouglasPeucker.DouglasPeuckerStaysNear | tools/download_enc_direct.py:733-761 | every input point, the closing point included, lies within the tolerance of some edge of the result |
| DouglasPeucker.DroppedNearItsChord | tools/download_enc_direct.py:733-761 | a point at a position `_simplify` worked on lies within the tolerance of the result edge j to j+1 whose kept positions enclose it |
| DouglasPeucker.ResultStartsWithKept | tools/download_enc_direct.py:757-761 | the result begins with the points at the kept positions, in order; re-closing only appends |
| RingPolicy.ClosedIfLong | tools/download_enc_direct.py:805-809 | a ring is kept exactly when at least four points survive `douglas_peucker`; what is kept is that simplified ring followed by at most one closing point, closed |
| RingPolicy.ClosedOrFallback | tools/download_enc_direct.py:777-782 | fails (the IndexError) exactly on an empty ring; otherwise the result is closed and at most one point longer than the ring; when at least four points survive it is the simplified ring followed by at most one closing point, and otherwise it starts with the original ring |
| RingPolicy.ClosedOrOriginal | tools/download_enc_data.py:290-296 | when at least four points survive, the simplified ring followed by at most one closing point, closed; otherwise exactly the original ring |
| RingPolicy.FallbackRings | tools/download_noaa_data.py:272-279 | the Polygon loop fails exactly when some ring is empty; otherwise it yields one ring per input ring, ring i being the fallback policy applied to input ring i |
| RingPolicy.PoliciesKeepPoints | tools/download_enc_direct.py:774-809 | none of the three policies puts a point in a ring that the input ring did not hold |
| RingPolicy.PoliciesStayNear | tools/download_enc_direct.py:774-809 | for rings of at least three points, every original point lies within the tolerance of an edge of the ring each policy keeps |
| RingPolicy.PolicyRingIsSimplification | tools/download_enc_direct.py:774-809 | when at least four points survive, each policy's ring without its closing point is an order-preserving selection of the ring's points, and every point of the ring lies within the tolerance of one of its edges |
| RingPolicy.NearChordCollapses | tools/download_enc_direct.py:733-782 | a ring whose interior points all lie within the tolerance of its chord keeps at most three points: ENC direct's MultiPolygon policy drops it, ENC direct's Polygon policy closes the original, the ENC data policy returns the original |
| Artifacts.Width | tools/download_enc_direct.py:356-362 | the bounding-box width is the largest longitude difference of two exterior points: no difference exceeds it and one attains it, so it is max minus min |
| Artifacts.Height | tools/download_enc_direct.py:356-363 | the bounding-box height is the largest latitude difference of two exterior points, attained |
| Artifacts.AxisAlignedCount | tools/download_enc_direct.py:387-396 | at most k of the first k edges count, and all k count exactly when every one of them is axis-aligned |
| Artifacts.IsRectangularFeature | tools/download_enc_direct.py:333-399 | false for non-Polygons, Polygons without rings and exteriors outside 4 to 10 points; true only for candidates with a large enough box; true exactly when the area ratio exceeds 0.95 or a 5-point exterior has four axis-aligned edges |
| Artifacts.FullBoxRatio | tools/download_enc_direct.py:379-380 | an area equal to that of a non-degenerate box gives ratio 1 |
| Artifacts.RectangleArea | tools/download_enc_direct.py:368-377 | the shoelace area of an axis-aligned rectangle ring is its width times its height |
| Artifacts.RectangleBox | tools/download_enc_direct.py:356-363 | the bounding box of a rectangle ring is the rectangle itself |
| Artifacts.RectangleFillsBox | tools/download_enc_direct.py:368-380 | a rectangle ring fills its bounding box exactly |
| Artifacts.RectangleIsArtifact | tools/download_enc_direct.py:333-384 | every axis-aligned rectangle at least 1e-4 degrees on each side is recognised, whatever its holes, properties and tolerance |
| Artifacts.ToleranceMonotone | tools/download_enc_direct.py:386-397 | a looser alignment tolerance never turns a recognised artifact back into coastline |
| Artifacts.FilterArtifacts | tools/download_enc_direct.py:556 | no recognised feature survives, and every unrecognised one does |
| Artifacts.FilterArtifactsExact | tools/download_enc_direct.py:556 | the filter keeps the order of the survivors and drops exactly the recognised features, counting duplicates |
| Merge.MergedFeature | tools/download_enc_direct.py:446-450 | the created feature's only property is `merged`, holding the boolean true, and its geometry is the given one |
| Merge.Others | tools/download_enc_direct.py:429-430 | none of the features that bypass the union is a polygon or multipolygon |
| Merge.Prepared | tools/download_enc_direct.py:416-428 | no more engine objects than features; none exactly when no feature is a polygon that parses and repairs |
| Merge.MergedFeatures | tools/download_enc_direct.py:443-465 | every created feature is polygonal and marked; a Polygon gives one feature, a MultiPolygon one Polygon per member in order, a GeometryCollection one marked feature per polygonal member, each once and in order, and anything else nothing |
| Merge.MergeLandPolygons | tools/download_enc_direct.py:402-475 | the input is returned when nothing can be merged or the union raises; otherwise the marked polygonal features come first and the non-polygon features form the tail |
| Merge.OthersKeptInOrder | tools/download_enc_direct.py:412-470 | after a union the output splits into the merged features followed by exactly the non-polygon features of the input, in input order, with their multiplicity; no polygon feature survives unmerged |
| Merge.NoPolygonsUnchanged | tools/download_enc_direct.py:432-434 | an input with no polygon feature comes back unchanged |
| Merge.SinglePolygonUnion | tools/download_enc_direct.py:445-450 | a union that is one Polygon leaves exactly one merged feature in front of the others |
| Nvtl.U16RoundTrip | tools/download_gshhg.py:229 | the two little-endian bytes of a u16 decode back to it |
| Nvtl.U32RoundTrip | tools/download_gshhg.py:230 | the four little-endian bytes of a u32 decode back to it |
| Nvtl.U32Surjective | tools/download_gshhg.py:230 | every four bytes are the encoding of the value they decode to |
| Nvtl.Lower | tools/download_gshhg.py:199-200 | Python `min` of a bound and a coordinate: the coordinate after +inf, the smaller value otherwise, -inf stays |
| Nvtl.Upper | tools/download_gshhg.py:201-202 | Python `max`, symmetrically |
| Nvtl.Extent | tools/download_gshhg.py:183-202 | the start values (+inf, +inf, -inf, -inf) for no point; otherwise finite bounds that hold every point and are each attained by some point |
| Nvtl.ExteriorPoints | tools/download_gshhg.py:198-218 | every exterior point of every entry is visited, and nothing else |
| Nvtl.Bounds | tools/download_gshhg.py:220-222 | an empty file gets zeros in the guarded writers and the start values in the unguarded one |
| Nvtl.BoundsIgnoreHoles | tools/download_gshhg.py:195-202 | the bounds depend on the exteriors alone; holes never move them |
| Nvtl.ExtentSamePoints | tools/download_enc_direct.py:643-647 | the bounds loop depends only on which points it visits, not on their order or repetition |
| Nvtl.BoundsAreTight | tools/download_gshhg.py:195-202 | every exterior point of every entry lies inside the written bounds, which are then finite |
| Nvtl.EncodePoints | tools/download_gshhg.py:243-245 | 16 bytes per point |
| Nvtl.EncodeHoles | tools/download_gshhg.py:247-251 | the hole section has the size of a count field plus 16 bytes per point, for each hole |
| Nvtl.EncodeRecord | tools/download_gshhg.py:239-251 | one polygon entry has 8 bytes of counts, 16 per exterior point and the hole section |
| Nvtl.EncodeHeader | tools/download_gshhg.py:227-236 | the header is 42 bytes and starts with `NVTL` |
| Nvtl.HeaderFields | tools/download_gshhg.py:227-236 | magic, version 1, the count and the four bounds sit at offsets 0, 4, 6, 10, 18, 26 and 34 |
| Nvtl.Encode | tools/download_gshhg.py:180-253 | the file is written exactly when every count fits a u32; it then has 42 bytes plus the entries' sizes and starts with `NVTL` |
| Nvtl.EmptyFile | tools/download_gshhg.py:220-236 | a file with no polygon is the header alone, with count 0 and zero or start-value bounds |
| Nvtl.GuardOnlyForEmpty | tools/download_gshhg.py:220-222 | once there is a polygon the empty-case guard changes nothing |
| Nvtl.HolesSizeCount | tools/download_gshhg.py:247-251 | the hole section takes 4 bytes per hole and 16 per hole point |
| Nvtl.RecordsSizeAppend | tools/download_gshhg.py:239-251 | the entries of two lists of polygons take the sum of their sizes |
| Nvtl.SizeFormula | tools/download_gshhg.py:239-251 | the entries take 8 bytes per polygon, 16 per exterior point and the hole sections |
| Nvtl.ReadRecordRoundTrip | tools/download_gshhg.py:239-251 | reading an encoded entry gives back its counts and every packed coordinate, and leaves the following bytes |
| Nvtl.ReadRecordsRoundTrip | tools/download_gshhg.py:239-251 | the same for a list of entries, in order |
| Nvtl.EncodeReadRoundTrip | tools/download_gshhg.py:180-253 | reading a written file recovers the polygon count, the four packed bounds and every ring's packed coordinates in order, with no byte left over |
| Encoders.PolygonRecord | tools/download_enc_data.py:337-350 | no entry for a polygon without rings; otherwise one entry, exterior first and the other rings as holes |
| Encoders.AreaRecords | tools/download_enc_data.py:352-364 | only Polygons and MultiPolygons give entries; a MultiPolygon gives one entry per non-empty member, in order, entry j holding that member's first ring as exterior and the rest as holes, and skips empty members |
| Encoders.LineRecord | tools/download_enc_direct.py:672-683 | a MultiLineString part gives an entry exactly when it has at least two points; the entry is closed, has no holes and starts with the part |
| Encoders.EncDirectBinary | tools/download_enc_direct.py:610-718 | the ENC direct file is written exactly when every count fits a u32, and reading it back gives the header and every entry of its area and line parts, in order |
| Encoders.AreaBinary | tools/download_enc_data.py:329-392 | the same for the ENC data and GSHHG writers over the Polygon and MultiPolygon entries, with zero bounds for an empty file |
| Encoders.NoaaBinary | tools/download_noaa_data.py:293-374 | the same for the NOAA writer, whose empty file keeps the infinite start bounds |
| Encoders.OsmBinary | tools/download_osm_coastline.py:313-366 | the same for the OSM writer over the Polygon entries alone |
| Encoders.EncDirectIgnoresLineStrings | tools/download_enc_direct.py:665-670 | removing the LineStrings leaves the ENC direct file unchanged |
| Encoders.EncDirectMatchesAreaEncoder | tools/download_enc_direct.py:633-718 | without MultiLineStrings the ENC direct file equals the ENC data and GSHHG file |
| Encoders.OsmIsAreaEncoderOnPolygons | tools/download_osm_coastline.py:321-339 | the OSM file is the area writer's file for the Polygon features alone |
| Encoders.NoaaDiffersOnlyWhenEmpty | tools/download_noaa_data.py:310-357 | the NOAA file equals the guarded writers' file unless no polygon is written; then it holds infinities where they hold zeros |
| Encoders.VisitedSameMembers | tools/download_enc_direct.py:672-683 | for one feature, the points the bounds loop visits and the exteriors of its entries are the same points |
| Encoders.EncDirectBoundsFromVisitedPoints | tools/download_enc_direct.py:672-687 | the ENC direct bounds, taken from the parts before closing, equal the bounds of the written entries |
| ShapeImport.IntersectsIffCommonPoint | tools/download_noaa_data.py:155-157 | for proper boxes the closed-interval test passes exactly when the boxes share a point |
| ShapeImport.FilterShapesByBounds | tools/download_noaa_data.py:140-160 | only polygon shapes whose box meets the region are kept, and every such shape is |
| ShapeImport.FilterShapesExact | tools/download_osm_coastline.py:162-175 | the kept shapes are in reading order, each selected shape with its multiplicity |
| ShapeImport.Clamp | tools/download_noaa_data.py:173-174 | the value clamped into [lo, hi]: unchanged inside, the nearer limit outside |
| ShapeImport.ClampIdempotent | tools/download_noaa_data.py:173-174 | clamping twice is clamping once |
| ShapeImport.ClipRing | tools/download_noaa_data.py:163-177 | clipping keeps the length, puts every point in a proper region and leaves points already inside unchanged |
| ShapeImport.ClipIdempotent | tools/download_osm_coastline.py:181-194 | clipping a clipped ring changes nothing |
| ShapeImport.PySlice | tools/download_noaa_data.py:192 | Python slicing: clamped to the list, empty when the bounds cross, the ordinary slice otherwise |
| ShapeImport.Rings | tools/download_noaa_data.py:189-192 | one ring per part, ring i being the slice between offsets i and i+1 of the parts followed by the point count |
| ShapeImport.RingsConcat | tools/download_gshhg.py:155-163 | for well-formed part offsets the rings put together are the shape's point list: no point is lost, duplicated or added |
| ShapeImport.ClippedRing | tools/download_noaa_data.py:195-200 | a part is kept exactly when it has at least three points; the kept ring is the clamped part followed by at most its closing point, closed, and inside a proper region |
| ShapeImport.ClippedRings | tools/download_osm_coastline.py:208-217 | exactly the parts of at least three points are kept, in order, kept ring j being the j-th such part clamped and closed |
| EncDirect.LongRings | tools/download_enc_direct.py:804-809 | a MultiPolygon member keeps exactly its rings that simplify to at least four points, in order, ring j being the j-th such ring simplified and closed |
| EncDirect.KeptPolygons | tools/download_enc_direct.py:802-811 | exactly the members that keep a ring survive, in order, each reduced to its long rings; none is empty |
| EncDirect.SimplifyFeature | tools/download_enc_direct.py:770-819 | fails exactly on a Polygon with an empty ring; a Polygon keeps its properties and gets ring i by the fallback policy from input ring i, all closed; a LineString is kept, simplified, exactly when two points survive; a MultiPolygon is kept exactly when a member keeps a ring, with its kept members; other kinds pass through |
| EncDirect.SimplifyGeojson | tools/download_enc_direct.py:764-821 | the input itself for a non-positive tolerance; otherwise failure exactly when some Polygon has an empty ring, and else output j is the simplified form of the j-th surviving input feature: every Polygon and unhandled kind, a LineString keeping two points, a MultiPolygon keeping a member, each once and in input order |
| EncDirect.SimplifiedRingsClosed | tools/download_enc_direct.py:774-817 | every output Polygon has closed rings and every output MultiPolygon closed rings of at least four points |
| EncDirect.OtherKindsPassThrough | tools/download_enc_direct.py:818-819 | features of other kinds come through unchanged |
| EncDirect.SimplifiedFeaturesKept | tools/download_enc_direct.py:774-817 | with a positive tolerance and no failure, every input Polygon, every LineString keeping two points and every MultiPolygon keeping a member is in the output, simplified, with its properties |
| EncDirect.PolygonPointsKept | tools/download_enc_direct.py:774-782 | ring i of a simplified Polygon holds only points of input ring i |
| Noaa.ShapeFeatures | tools/download_noaa_data.py:184-210 | a non-polygon shape gives nothing; a polygon shape gives one single-ring Polygon with empty properties per kept clipped part, in order |
| Noaa.ShapesToGeojson | tools/download_noaa_data.py:180-215 | one single-ring Polygon feature with empty properties per kept clipped part, shape after shape and part after part |
| Noaa.ImportedInPartOrder | tools/download_noaa_data.py:184-210 | the loop over shapes and their parts lays out the kept parts in that order, one feature each |
| Noaa.ImportedRingsClosed | tools/download_noaa_data.py:180-215 | every imported feature is a Polygon with one closed ring of at least three points, inside a proper region |
| Noaa.SimplifyFeature | tools/download_noaa_data.py:268-288 | a non-Polygon gives nothing; a Polygon gives its rings under the fallback policy, with its properties, and fails exactly when a ring is empty |
| Noaa.SimplifyGeojson | tools/download_noaa_data.py:262-290 | the input itself for a non-positive tolerance; otherwise failure exactly when some Polygon has an empty ring, and else output j is the j-th input Polygon with its properties and its rings under the fallback policy: every Polygon once, in input order, nothing else |
| Noaa.SimplifiedArePolygons | tools/download_noaa_data.py:268-290 | every output feature is a Polygon with closed rings and the ring count of an input Polygon |
| Noaa.SameAsEncDirectOnPolygons | tools/download_noaa_data.py:262-290 | the NOAA simplifier is the ENC direct simplifier applied to the Polygon features alone |
| Osm.ShapeFeature | tools/download_osm_coastline.py:201-229 | a shape gives a feature exactly when it is a polygon shape with a kept part; its Polygon holds between one ring and one ring per part, each closed with at least three points |
| Osm.ShapesToGeojson | tools/download_osm_coastline.py:197-234 | one feature per polygon shape that keeps a part, in reading order: a Polygon with empty properties holding that shape's kept clipped parts |
| Osm.SameRingsAsNoaa | tools/download_osm_coastline.py:197-234 | the OSM importer produces the same rings in the same order as the NOAA importer, grouped per shape instead of one per feature |
| Osm.KeptRing | tools/download_osm_coastline.py:294-301 | a ring is kept exactly when it is non-empty: the simplified ring followed by at most one closing point, closed, when at least four points survive, unchanged otherwise |
| Osm.KeptRings | tools/download_osm_coastline.py:293-301 | one ring per non-empty input ring, in order: the simplified ring, closed, when four points survive, otherwise the original; empty rings are dropped |
| Osm.KeptRingsEmpty | tools/download_osm_coastline.py:293-303 | a Polygon loses all its rings exactly when every ring is empty |
| Osm.SimplifyFeature | tools/download_osm_coastline.py:287-308 | non-Polygons pass through; a Polygon is dropped exactly when all its rings are empty, and otherwise becomes the Polygon of its kept rings, with its properties |
| Osm.KeptRingsKeepPoints | tools/download_osm_coastline.py:294-301 | ring j of a simplified Polygon holds only points of the j-th non-empty input ring |
| Osm.SimplifyGeojson | tools/download_osm_coastline.py:281-310 | the input itself for a non-positive tolerance; otherwise output j is the simplified form of the j-th surviving input feature (every non-Polygon, every Polygon with a non-empty ring), each once and in input order |
| Osm.PolygonWithRingKept | tools/download_osm_coastline.py:293-308 | a Polygon with a non-empty ring is in the output as the Polygon of its kept rings, with its properties |
| Osm.OtherFeaturesKept | tools/download_osm_coastline.py:289-291 | every non-Polygon feature survives simplification |
| Osm.SimplifiedPolygonsHaveRings | tools/download_osm_coastline.py:293-308 | every output Polygon has a ring and no empty ring, so the writer emits an entry for it |
| Osm.FileSize | tools/download_osm_coastline.py:313-377 | the OSM file has 42 bytes, plus 4 per entry and per ring, plus 16 per point counted by `count_points` |
| Osm.CountPoints | tools/download_osm_coastline.py:369-377 | `count_points` is the total length of all Polygon rings of the collection, the rings of every other kind of feature ignored |
| Osm.EntriesSize | tools/download_osm_coastline.py:354-364 | the entries take 4 bytes per entry and per Polygon ring and 16 per counted point |
| Osm.PolygonEntrySize | tools/download_osm_coastline.py:354-364 | the same for the entry of one Polygon |
| EncData.SimplifyRings | tools/download_enc_data.py:289-296 | one ring per input ring, in order: ring i is input ring i under the simplified-or-original policy |
| EncData.SimplifyFeature | tools/download_enc_data.py:283-324 | the properties and the layout are kept; a Polygon's rings and every MultiPolygon member's rings go through the simplified-or-original policy; other kinds are unchanged |
| EncData.SimplifyGeojson | tools/download_enc_data.py:277-326 | the input itself for a non-positive tolerance; otherwise feature k is input feature k simplified, with its properties and layout |
| EncData.RingsClosedOrOriginal | tools/download_enc_data.py:287-321 | when fewer than four points of an input ring survive simplification, the output ring at its position is the input ring; otherwise it is closed, has at least four of that ring's points and begins with the simplified ring |
| EncData.PolygonRingsApproximate | tools/download_enc_data.py:287-296 | every point of a simplified Polygon ring lies within the tolerance of the ring that replaces it, and a ring kept in simplified form is an order-preserving selection of the input ring's points |
| EncData.AgreesWithEncDirectOnClosedRings | tools/download_enc_data.py:287-302 | on a Polygon whose rings are all closed, the ENC data and ENC direct simplifiers give the same feature |
| EncData.SameEntryCount | tools/download_enc_data.py:287-364 | simplification never changes the number of polygon entries the writer emits |
| Gshhg.ShapeFeature | tools/download_gshhg.py:153-172 | a shape gives a feature exactly when it is a polygon shape: a Polygon with empty properties and one ring per part |
| Gshhg.ShapefileToGeojson | tools/download_gshhg.py:145-172 | exactly one feature per polygon shape, in reading order, feature j a Polygon with empty properties holding the parts of the j-th polygon shape |
| Gshhg.FeatureKeepsAllPoints | tools/download_gshhg.py:155-163 | a feature's rings put together are its shape's point list: nothing is clipped, closed or lost |

## Left out

- Floating point: coordinates are reals, and `math.hypot` rounding, NaN and overflow are not modelled. Distances are compared squared, which gives the same comparisons on exact values.
- `struct.pack('<d', _)` is an arbitrary function parameter. Nothing is assumed about its bit pattern, including injectivity. The round trip therefore recovers the packed 8-byte fields rather than the coordinates.
- Nvtl.Encode: a count of 2^32 or more makes the source raise; the model returns `None` instead of an exception value.
- The fallback in the ENC direct and NOAA simplifiers appends the closing point to the caller's own ring list. The model is pure and does not show that mutation of the input.
- `_simplify` is recursive. Python's recursion limit on very long rings is not modelled.
- The geometry engine: shapely's parsing, `make_valid` and `unary_union` become the parameters `prepare` and `union` of `Merge.MergeLandPolygons`. The shapes of the union are not modelled, only the shell around it.
- The shapefile reader: a shape is its type code, box, point list and part offsets, with offsets as naturals. Negative offsets are not modelled. GSHHG reads every shape of the file, which the model takes as its input list.
- GDAL/OGR S-57 extraction, downloads, zip extraction, caching, GeoJSON and binary file writing, manifest updates, statistics printing, argument parsing and `main` (with its loop over the levels of detail) are I/O.
- `scripts/*.py` draw icons with PIL and cairosvg; they have nothing to do with coastline geometry.
- Coordinates with a third component: the tools copy `(p[0], p[1])`, except where a ring is kept as given. The model's points have two coordinates.
- Features always carry a property bag. A missing or unknown geometry is the `Unsupported` kind, which every stage treats as a non-polygon.
- A feature whose geometry is JSON `null`: `feature.get("geometry", {})` then yields `None` and the following `.get` raises (tools/download_enc_direct.py:771-772, tools/download_enc_data.py:353-354). Every model feature has a geometry, so that crash is not modelled.
- DouglasPeucker.DouglasPeuckerStaysNear and RingPolicy.PoliciesStayNear: stated for a positive tolerance and rings of more than two points, where simplification actually runs.
- Property values: a property bag maps keys to JSON values (text, boolean, number, null, or a structured value). Nested arrays and objects are not modelled further, because no tool looks inside them.
- Monotonicity of the point count in the tolerance is not stated: the code makes no such promise.

=== FILE: artifacts.dfy ===
/**
 The tile-boundary artifact test of the ENC downloader
 (`is_rectangular_feature`) and the filter that removes such features.

 Land areas are delivered clipped to rectangular chart cells; a small
 Polygon whose exterior nearly fills its own bounding box, or whose four
 edges all run along the axes, is taken to be a cell boundary rather than
 coastline.
 */
module Artifacts {
  import opened Geometry
  import opened Distance

  /** Exteriors with fewer points cannot be rectangles. */
  const MinPoints: nat := 4
  /** Exteriors with more points are treated as real coastline. */
  const MaxPoints: nat := 10
  /** The smallest bounding-box width and height of a candidate, in degrees. */
  const MinExtent: real := 0.0001
  /** Area ratio above which a polygon counts as filling its bounding box. */
  const FillRatio: real := 0.95
  /** The default `tolerance` of the axis-alignment test, in degrees. */
  const DefaultTolerance: real := 0.001

  function Abs(x: real): (r: real)
    ensures r >= 0.0 && (r == x || r == -x)
  {
    if x < 0.0 then -x else x
  }

  /** Width of the bounding box of a non-empty ring. */
  function Width(ext: Ring): (r: real)
    requires |ext| > 0
    ensures r >= 0.0
    ensures forall k, l :: 0 <= k < |ext| && 0 <= l < |ext| ==> ext[k].lon - ext[l].lon <= r
    ensures exists k, l :: 0 <= k < |ext| && 0 <= l < |ext| && r == ext[k].lon - ext[l].lon
  {
    Max(Lons(ext)) - Min(Lons(ext))
  }

  /** Height of the bounding box of a non-empty ring. */
  function Height(ext: Ring): (r: real)
    requires |ext| > 0
    ensures r >= 0.0
    ensures forall k, l :: 0 <= k < |ext| && 0 <= l < |ext| ==> ext[k].lat - ext[l].lat <= r
    ensures exists k, l :: 0 <= k < |ext| && 0 <= l < |ext| && r == ext[k].lat - ext[l].lat
  {
    Max(Lats(ext)) - Min(Lats(ext))
  }

  /** The shoelace sum over edges 0 .. k-1 of the first `n` points taken as
      a cycle (edge i runs from point i to point (i + 1) % n): twice the
      signed area once k == n. */
  function ShoelaceSum(ext: Ring, n: nat, k: nat): real
    requires 0 < n <= |ext| && k <= n
    decreases k
  {
    if k == 0 then 0.0
    else
      var i := k - 1;
      var j := (i + 1) % n;
      ShoelaceSum(ext, n, i) + ext[i].lon * ext[j].lat - ext[j].lon * ext[i].lat
  }

  /** The area of a closed exterior, its closing point excluded. */
  function PolygonArea(ext: Ring): (r: real)
    requires |ext| >= 2
    ensures r >= 0.0
  {
    Abs(ShoelaceSum(ext, |ext| - 1, |ext| - 1)) / 2.0
  }

  /** Polygon area over bounding-box area, 0 for a degenerate box. */
  function AreaRatio(ext: Ring): real
    requires |ext| >= 2
  {
    BoxRatio(PolygonArea(ext), Width(ext), Height(ext))
  }

  /** `area / (width * height)`, or 0 when the box has no area. */
  function BoxRatio(area: real, width: real, height: real): real {
    var boxArea := width * height;
    if boxArea > 0.0 then area / boxArea else 0.0
  }

  /** A polygon whose area equals that of its (non-degenerate) box has
      ratio 1. */
  lemma FullBoxRatio(area: real, width: real, height: real)
    requires width > 0.0 && height > 0.0 && area == width * height
    ensures BoxRatio(area, width, height) == 1.0
  {
    ProductPositive(width, height, area);
    assert area / area == 1.0;
  }

  /** Edge i (from point i to point i + 1) is axis-aligned when it moves less
      than `tolerance` along one of the axes. */
  predicate EdgeIsAxisAligned(ext: Ring, i: nat, tolerance: real)
    requires i + 1 < |ext|
  {
    Abs(ext[i].lon - ext[i + 1].lon) < tolerance || Abs(ext[i].lat - ext[i + 1].lat) < tolerance
  }

  /** How many of the edges 0 .. k-1 are axis-aligned. */
  function AxisAlignedCount(ext: Ring, k: nat, tolerance: real): (c: nat)
    requires k < |ext|
    ensures c <= k
    ensures c == k <==> forall i :: 0 <= i < k ==> EdgeIsAxisAligned(ext, i, tolerance)
  {
    if k == 0 then 0
    else AxisAlignedCount(ext, k - 1, tolerance) + (if EdgeIsAxisAligned(ext, k - 1, tolerance) then 1 else 0)
  }

  /** The preconditions of both rectangle tests: a Polygon whose exterior has
      4 to 10 points and a bounding box at least `MinExtent` wide and high. */
  predicate IsCandidate(f: Feature) {
    && f.geometry.Polygon?
    && |f.geometry.rings| > 0
    && MinPoints <= |f.geometry.rings[0]| <= MaxPoints
    && Width(f.geometry.rings[0]) >= MinExtent
    && Height(f.geometry.rings[0]) >= MinExtent
  }

  /** `is_rectangular_feature`: a candidate whose exterior fills more than 95%
      of its bounding box, or a 5-point candidate whose four edges are all
      axis-aligned. */
  function IsRectangularFeature(f: Feature, tolerance: real): (r: bool)
    ensures !f.geometry.Polygon? ==> !r
    ensures f.geometry.Polygon? && |f.geometry.rings| == 0 ==> !r
    ensures (f.geometry.Polygon? && |f.geometry.rings| > 0
             && (|f.geometry.rings[0]| < MinPoints || |f.geometry.rings[0]| > MaxPoints)) ==> !r
    ensures r ==> IsCandidate(f)
    ensures IsCandidate(f) && AreaRatio(f.geometry.rings[0]) > FillRatio ==> r
    ensures (IsCandidate(f) && |f.geometry.rings[0]| == 5
             && forall i :: 0 <= i < 4 ==> EdgeIsAxisAligned(f.geometry.rings[0], i, tolerance)) ==> r
    ensures r ==> AreaRatio(f.geometry.rings[0]) > FillRatio
                  || (|f.geometry.rings[0]| == 5 && forall i :: 0 <= i < 4 ==> EdgeIsAxisAligned(f.geometry.rings[0], i, tolerance))
  {
    match f.geometry
    case Polygon(rings) =>
      if |rings| == 0 then false
      else
        var ext := rings[0];
        if |ext| < MinPoints || |ext| > MaxPoints then false
        else if Width(ext) < MinExtent || Height(ext) < MinExtent then false
        else if AreaRatio(ext) > FillRatio then true
        else |ext| == 5 && AxisAlignedCount(ext, 4, tolerance) == 4
    case _ => false
  }

  /** The closed axis-aligned rectangle with corners (west, south) and
      (east, north), counter-clockwise from the south-west corner. */
  function RectangleRing(west: real, south: real, east: real, north: real): (r: Ring)
    ensures |r| == 5 && IsClosed(r)
  {
    [Point(west, south), Point(east, south), Point(east, north), Point(west, north), Point(west, south)]
  }

  /** The shoelace area of a rectangle is its width times its height. */
  lemma RectangleArea(west: real, south: real, east: real, north: real)
    requires west <= east && south <= north
    ensures PolygonArea(RectangleRing(west, south, east, north)) == (east - west) * (north - south)
  {
    var ext := RectangleRing(west, south, east, north);
    assert ShoelaceSum(ext, 4, 1) == west * south - east * south;
    assert ShoelaceSum(ext, 4, 2) == ShoelaceSum(ext, 4, 1) + east * north - east * south;
    assert ShoelaceSum(ext, 4, 3) == ShoelaceSum(ext, 4, 2) + east * north - west * north;
    assert ShoelaceSum(ext, 4, 4) == ShoelaceSum(ext, 4, 3) + west * south - west * north;
    assert ShoelaceSum(ext, 4, 4) == 2.0 * ((east - west) * (north - south));
    assert (east - west) * (north - south) >= 0.0;
  }

  /** The bounding box of a rectangle ring is the rectangle. */
  lemma RectangleBox(west: real, south: real, east: real, north: real)
    requires west <= east && south <= north
    ensures Width(RectangleRing(west, south, east, north)) == east - west
    ensures Height(RectangleRing(west, south, east, north)) == north - south
  {
    var ext := RectangleRing(west, south, east, north);
    var lons := Lons(ext);
    var lats := Lats(ext);
    assert lons[0] == west && lons[1] == east;
    assert lats[0] == south && lats[2] == north;
  }

  /** Every axis-aligned rectangle at least `MinExtent` on each side is
      recognised as a cell boundary, whatever its holes and properties and
      whatever the alignment tolerance: it fills its bounding box exactly. */
  lemma RectangleIsArtifact(west: real, south: real, east: real, north: real,
                            holes: seq<Ring>, props: Properties, tolerance: real)
    requires east - west >= MinExtent && north - south >= MinExtent
    ensures IsRectangularFeature(Feature(props, Polygon([RectangleRing(west, south, east, north)] + holes)), tolerance)
  {
    var ext := RectangleRing(west, south, east, north);
    var f := Feature(props, Polygon([ext] + holes));
    assert f.geometry.rings[0] == ext;
    RectangleBox(west, south, east, north);
    RectangleFillsBox(west, south, east, north);
    assert IsCandidate(f);
  }

  /** A rectangle ring fills its bounding box exactly. */
  lemma RectangleFillsBox(west: real, south: real, east: real, north: real)
    requires east - west >= MinExtent && north - south >= MinExtent
    ensures AreaRatio(RectangleRing(west, south, east, north)) == 1.0
  {
    var ext := RectangleRing(west, south, east, north);
    RectangleArea(west, south, east, north);
    FullBoxRatio(PolygonArea(ext), east - west, north - south);
    RectangleBox(west, south, east, north);
  }

  /** A looser alignment tolerance never turns a boundary back into
      coastline. */
  lemma ToleranceMonotone(f: Feature, tight: real, loose: real)
    requires tight <= loose
    requires IsRectangularFeature(f, tight)
    ensures IsRectangularFeature(f, loose)
  {
    var ext := f.geometry.rings[0];
    if AreaRatio(ext) <= FillRatio {
      forall i | 0 <= i < 4
        ensures EdgeIsAxisAligned(ext, i, loose)
      {
        assert EdgeIsAxisAligned(ext, i, tight);
      }
    }
  }

  /** The artifact filter of the ENC downloader: drop every feature
      recognised at the default tolerance, keep the others in order. */
  function FilterArtifacts(features: Collection): (r: Collection)
    ensures forall k :: 0 <= k < |r| ==> !IsRectangularFeature(r[k], DefaultTolerance)
    ensures forall k :: 0 <= k < |features| && !IsRectangularFeature(features[k], DefaultTolerance) ==> features[k] in r
  {
    Filter(features, f => !IsRectangularFeature(f, DefaultTolerance))
  }

  /** The filter drops exactly the recognised features, keeping the order
      and multiplicity of the others. */
  lemma FilterArtifactsExact(features: Collection)
    ensures IsSubsequence(FilterArtifacts(features), features)
    ensures forall f :: multiset(FilterArtifacts(features))[f]
                        == if IsRectangularFeature(f, DefaultTolerance) then 0 else multiset(features)[f]
  {
    FilterIsSubsequence(features, f => !IsRectangularFeature(f, DefaultTolerance));
    FilterCounts(features, f => !IsRectangularFeature(f, DefaultTolerance));
  }
}

=== FILE: distance.dfy ===
/**
 Point-to-segment distance (`_perpendicular_distance`, identical in all four
 simplifying tools). Reals have no square root, so the model works with
 SQUARED distances: the source's `math.hypot(...)` is the square root of
 `SegmentSqDist`, and because every distance and every tolerance that reaches
 a comparison is non-negative, comparing squares decides the same way.
 */
module Distance {
  import opened Geometry

  /** The dot product of (ax, ay) and (cx, cy). */
  function Dot(ax: real, ay: real, cx: real, cy: real): real {
    ax * cx + ay * cy
  }

  /** `x` squared. Sign facts about products are stated on named terms such
      as this one, so that every inequality the solver sees stays linear. */
  function Sq(x: real): real {
    x * x
  }

  /** A product of two positive factors is positive. This models nothing in
      the tools: it exists only as a hint for the solver, which does not find
      this nonlinear step on its own. */
  lemma ProductPositive(a: real, b: real, c: real)
    requires a > 0.0 && b > 0.0 && c == a * b
    ensures c > 0.0
  {
  }

  lemma SquarePositive(x: real)
    requires x != 0.0
    ensures Sq(x) > 0.0
  {
    if x > 0.0 {
      ProductPositive(x, x, Sq(x));
    } else {
      ProductPositive(-x, -x, Sq(x));
    }
  }

  lemma SquareNonNegative(x: real)
    ensures Sq(x) >= 0.0
  {
    if x != 0.0 {
      SquarePositive(x);
    }
  }

  /** A vector's squared length is non-negative, and zero exactly for the
      zero vector. */
  lemma DotSelf(x: real, y: real)
    ensures Dot(x, y, x, y) >= 0.0
    ensures Dot(x, y, x, y) == 0.0 <==> x == 0.0 && y == 0.0
  {
    assert Dot(x, y, x, y) == Sq(x) + Sq(y);
    SquareNonNegative(x);
    SquareNonNegative(y);
    if x != 0.0 {
      SquarePositive(x);
    } else if y != 0.0 {
      SquarePositive(y);
    }
  }

  /** Squared Euclidean distance between two points. */
  function SqDist(p: Point, q: Point): (r: real)
    ensures r >= 0.0
    ensures r == 0.0 <==> p == q
  {
    DotSelf(p.lon - q.lon, p.lat - q.lat);
    Dot(p.lon - q.lon, p.lat - q.lat, p.lon - q.lon, p.lat - q.lat)
  }

  /** The point at parameter `u` along the segment from `s` to `e`. */
  function Lerp(s: Point, e: Point, u: real): Point {
    Point(s.lon + u * (e.lon - s.lon), s.lat + u * (e.lat - s.lat))
  }

  /** `max(0.0, min(1.0, x))`. */
  function Clamp01(x: real): (r: real)
    ensures 0.0 <= r <= 1.0
    ensures 0.0 <= x <= 1.0 ==> r == x
  {
    if x < 0.0 then 0.0 else if x > 1.0 then 1.0 else x
  }

  /** Squared distance from `p` to the segment `s`-`e`: the projection
      parameter is clamped to [0, 1]; a zero-length segment falls back to the
      distance to `s`. */
  function SegmentSqDist(p: Point, s: Point, e: Point): (r: real)
    ensures r >= 0.0
    ensures s == e ==> r == SqDist(p, s)
  {
    var dx := e.lon - s.lon;
    var dy := e.lat - s.lat;
    var len2 := Dot(dx, dy, dx, dy);
    if len2 == 0.0 then
      assert Lerp(s, e, 0.0) == s;
      SqDist(p, s)
    else
      var u := Clamp01(Dot(p.lon - s.lon, p.lat - s.lat, dx, dy) / len2);
      SqDist(p, Lerp(s, e, u))
  }

  /** The distance to the segment is attained at some point of it. */
  lemma SegmentSqDistAttained(p: Point, s: Point, e: Point)
    ensures exists u :: 0.0 <= u <= 1.0 && SegmentSqDist(p, s, e) == SqDist(p, Lerp(s, e, u))
  {
    var dx := e.lon - s.lon;
    var dy := e.lat - s.lat;
    var len2 := Dot(dx, dy, dx, dy);
    if len2 == 0.0 {
      assert Lerp(s, e, 0.0) == s;
    } else {
      var u := Clamp01(Dot(p.lon - s.lon, p.lat - s.lat, dx, dy) / len2);
      assert SegmentSqDist(p, s, e) == SqDist(p, Lerp(s, e, u));
    }
  }

  /** What the simplifier relies on of a squared segment distance: it is
      never negative and is zero at both endpoints. */
  ghost predicate IsSegmentDistance(dist: (Point, Point, Point) -> real) {
    && (forall p, s, e :: dist(p, s, e) >= 0.0)
    && (forall s, e :: dist(s, s, e) == 0.0)
    && (forall s, e :: dist(e, s, e) == 0.0)
  }

  /** `_perpendicular_distance` (squared) is such a distance. */
  lemma SegmentSqDistIsSegmentDistance()
    ensures IsSegmentDistance(SegmentSqDist)
  {
    forall s, e
      ensures SegmentSqDist(s, s, e) == 0.0 && SegmentSqDist(e, s, e) == 0.0
    {
      EndpointsOnSegment(s, e);
    }
  }

  /** A zero-length segment measures the distance to its start point. */
  lemma ZeroLengthSegment(p: Point, s: Point)
    ensures SegmentSqDist(p, s, s) == SqDist(p, s)
  {
  }

  /** `w2 - 2 x dot + x^2 len2`: the squared distance from a point to the
      point at parameter `x` of a segment, as a quadratic in `x`. */
  function Quadratic(w2: real, dot: real, len2: real, x: real): real {
    w2 - 2.0 * x * dot + x * x * len2
  }

  lemma ExpandSquare(w: real, d: real, x: real)
    ensures (w - x * d) * (w - x * d) == w * w - 2.0 * x * (w * d) + x * x * (d * d)
  {
  }

  lemma ExpandDot(wx: real, wy: real, dx: real, dy: real, x: real)
    ensures Dot(wx - x * dx, wy - x * dy, wx - x * dx, wy - x * dy)
         == Quadratic(Dot(wx, wy, wx, wy), Dot(wx, wy, dx, dy), Dot(dx, dy, dx, dy), x)
  {
    ExpandSquare(wx, dx, x);
    ExpandSquare(wy, dy, x);
    assert 2.0 * x * Dot(wx, wy, dx, dy) == 2.0 * x * (wx * dx) + 2.0 * x * (wy * dy);
    assert x * x * Dot(dx, dy, dx, dy) == x * x * (dx * dx) + x * x * (dy * dy);
  }

  /** The squared distance from `p` to the point at parameter `x` of the
      segment, expanded as a quadratic in `x`. */
  lemma ExpandAlongSegment(p: Point, s: Point, e: Point, x: real)
    ensures var dx, dy := e.lon - s.lon, e.lat - s.lat;
            var wx, wy := p.lon - s.lon, p.lat - s.lat;
            SqDist(p, Lerp(s, e, x))
              == Quadratic(Dot(wx, wy, wx, wy), Dot(wx, wy, dx, dy), Dot(dx, dy, dx, dy), x)
  {
    var dx, dy := e.lon - s.lon, e.lat - s.lat;
    var wx, wy := p.lon - s.lon, p.lat - s.lat;
    var q := Lerp(s, e, x);
    assert p.lon - q.lon == wx - x * dx;
    assert p.lat - q.lat == wy - x * dy;
    ExpandDot(wx, wy, dx, dy, x);
  }

  /** `x^2 - 2 x t`, the part of `Quadratic` that depends on `x`, per unit of
      `len2`. */
  function Shifted(t: real, x: real): real {
    x * x - 2.0 * x * t
  }

  /** On [0, 1] the quadratic x^2 - 2 x t is smallest at the clamped t. */
  lemma ClampedQuadraticMinimum(t: real, v: real)
    requires 0.0 <= v <= 1.0
    ensures Shifted(t, Clamp01(t)) <= Shifted(t, v)
  {
    var u := Clamp01(t);
    var gap := Shifted(t, v) - Shifted(t, u);
    if t < 0.0 {
      assert gap == v * (v - 2.0 * t);
      if v > 0.0 {
        ProductPositive(v, v - 2.0 * t, gap);
      }
    } else if t > 1.0 {
      assert gap == (1.0 - v) * (2.0 * t - v - 1.0);
      if v < 1.0 {
        ProductPositive(1.0 - v, 2.0 * t - v - 1.0, gap);
      }
    } else {
      assert gap == Sq(v - t);
      SquareNonNegative(v - t);
    }
  }

  /** Scaling by a positive factor keeps an inequality. */
  lemma ScaleMonotone(k: real, a: real, b: real, ka: real, kb: real)
    requires k > 0.0 && a <= b && ka == k * a && kb == k * b
    ensures ka <= kb
  {
    if a < b {
      ProductPositive(k, b - a, kb - ka);
    }
  }

  /** The quadratic step of `SegmentSqDistIsMinimal`: with `dot = t * len2`
      and `len2 > 0`, the quadratic at the clamped `t` is no larger than at
      any `v` in [0, 1]. */
  lemma QuadraticAtClampIsSmallest(w2: real, dot: real, len2: real, t: real, v: real)
    requires len2 > 0.0 && dot == t * len2 && 0.0 <= v <= 1.0
    ensures Quadratic(w2, dot, len2, Clamp01(t)) <= Quadratic(w2, dot, len2, v)
  {
    var u := Clamp01(t);
    ClampedQuadraticMinimum(t, v);
    var gu := Shifted(t, u);
    var gv := Shifted(t, v);
    assert Quadratic(w2, dot, len2, u) == w2 + len2 * gu;
    assert Quadratic(w2, dot, len2, v) == w2 + len2 * gv;
    ScaleMonotone(len2, gu, gv, len2 * gu, len2 * gv);
  }

  /** The clamped projection is the closest point of the segment: no point of
      the segment is nearer to `p`. */
  lemma SegmentSqDistIsMinimal(p: Point, s: Point, e: Point, v: real)
    requires 0.0 <= v <= 1.0
    ensures SegmentSqDist(p, s, e) <= SqDist(p, Lerp(s, e, v))
  {
    var dx := e.lon - s.lon;
    var dy := e.lat - s.lat;
    DotSelf(dx, dy);
    if Dot(dx, dy, dx, dy) == 0.0 {
      DegenerateSegment(s, e, v);
    } else {
      ProperSegmentIsMinimal(p, s, e, v);
    }
  }

  /** A segment of length zero is the single point `s`. */
  lemma DegenerateSegment(s: Point, e: Point, v: real)
    requires e == s
    ensures Lerp(s, e, v) == s
  {
  }

  /** The minimality of `SegmentSqDist` for a segment of positive length. */
  lemma ProperSegmentIsMinimal(p: Point, s: Point, e: Point, v: real)
    requires 0.0 <= v <= 1.0
    requires Dot(e.lon - s.lon, e.lat - s.lat, e.lon - s.lon, e.lat - s.lat) > 0.0
    ensures SegmentSqDist(p, s, e) <= SqDist(p, Lerp(s, e, v))
  {
    var dx := e.lon - s.lon;
    var dy := e.lat - s.lat;
    var wx := p.lon - s.lon;
    var wy := p.lat - s.lat;
    var len2 := Dot(dx, dy, dx, dy);
    var dot := Dot(wx, wy, dx, dy);
    DivideThenScale(dot, len2);
    ProperSegmentSqDist(p, s, e);
    ExpandAlongSegment(p, s, e, v);
    QuadraticAtClampIsSmallest(Dot(wx, wy, wx, wy), dot, len2, dot / len2, v);
  }

  /** `(a / b) * b == a` for a non-zero divisor. */
  lemma DivideThenScale(a: real, b: real)
    requires b != 0.0
    ensures a / b * b == a
  {
  }

  /** On a segment of positive length, `SegmentSqDist` is the quadratic of
      the clamped projection parameter. */
  lemma ProperSegmentSqDist(p: Point, s: Point, e: Point)
    requires Dot(e.lon - s.lon, e.lat - s.lat, e.lon - s.lon, e.lat - s.lat) > 0.0
    ensures var dx := e.lon - s.lon;
            var dy := e.lat - s.lat;
            var wx := p.lon - s.lon;
            var wy := p.lat - s.lat;
            var len2 := Dot(dx, dy, dx, dy);
            var dot := Dot(wx, wy, dx, dy);
            SegmentSqDist(p, s, e) == Quadratic(Dot(wx, wy, wx, wy), dot, len2, Clamp01(dot / len2))
  {
    var dx := e.lon - s.lon;
    var dy := e.lat - s.lat;
    var u := Clamp01(Dot(p.lon - s.lon, p.lat - s.lat, dx, dy) / Dot(dx, dy, dx, dy));
    assert SegmentSqDist(p, s, e) == SqDist(p, Lerp(s, e, u));
    ExpandAlongSegment(p, s, e, u);
  }

  /** Both endpoints lie on their own segment at distance zero. */
  lemma EndpointsOnSegment(s: Point, e: Point)
    ensures SegmentSqDist(s, s, e) == 0.0
    ensures SegmentSqDist(e, s, e) == 0.0
  {
    assert Lerp(s, e, 0.0) == s;
    SegmentSqDistIsMinimal(s, s, e, 0.0);
    assert Lerp(s, e, 1.0) == e;
    SegmentSqDistIsMinimal(e, s, e, 1.0);
  }
}

=== FILE: douglas_peucker.dfy ===
/**
 The Douglas-Peucker simplifier shared by the four simplifying tools
 (`douglas_peucker` and its inner `_simplify`).

 `_simplify` keeps the two endpoints of a segment, finds the FIRST interior
 point farthest from the chord between them, and, when that point is farther
 than the tolerance, splits there and simplifies both halves; otherwise it
 collapses the segment to its chord. `douglas_peucker` drops the closing point
 of a closed ring before simplifying and puts it back afterwards.

 Every segment `_simplify` ever sees is a slice `points[lo..hi+1]` of the one
 list `douglas_peucker` started from (the halves of a slice are slices), so
 the model names a segment by the positions `lo < hi` of its endpoints and
 returns the positions it keeps; the simplified polyline is the points at
 those positions.

 Distances are compared squared (see module Distance): the scan's sentinel is
 -1, and the squared tolerance `tol2` is non-negative, so every comparison
 decides as it does on the source's square-rooted values.
 */
module DouglasPeucker {
  import opened Geometry
  import opened Distance

  /** A squared point-to-segment distance: `_simplify` closes over
      `_perpendicular_distance`, which every tool passes as
      `Distance.SegmentSqDist`. */
  type SegmentDistance = (Point, Point, Point) -> real

  /** The loop state of the farthest-point scan: the largest squared chord
      distance seen so far and the position where it was first seen. */
  datatype Split = Split(maxSqDist: real, index: nat)

  /** Squared distance from `seg[k]` to the chord `seg[lo]`-`seg[hi]`. */
  function Chord(seg: seq<Point>, lo: nat, hi: nat, k: nat, dist: SegmentDistance): real
    requires lo < |seg| && hi < |seg| && k < |seg|
  {
    dist(seg[k], seg[lo], seg[hi])
  }

  /** The scan state after the loop has examined positions lo+1 .. n-1 of
      the segment `lo..hi`. It starts from the sentinel (-1, lo), `lo` being
      the segment's own index 0, and is replaced only on a strictly larger
      distance, so it holds the maximum over the examined positions and the
      FIRST position attaining it. */
  function Farthest(seg: seq<Point>, lo: nat, hi: nat, n: nat, dist: SegmentDistance): (r: Split)
    requires lo < n <= hi < |seg|
    ensures n == lo + 1 ==> r == Split(-1.0, lo)
    ensures lo <= r.index < n
    ensures r.index == lo ==> r.maxSqDist == -1.0
    ensures r.index > lo ==> r.maxSqDist == Chord(seg, lo, hi, r.index, dist)
    ensures forall k :: lo < k < n ==> Chord(seg, lo, hi, k, dist) <= r.maxSqDist
    ensures forall k :: lo < k < r.index ==> Chord(seg, lo, hi, k, dist) < r.maxSqDist
    decreases n
  {
    if n == lo + 1 then Split(-1.0, lo)
    else
      var prev := Farthest(seg, lo, hi, n - 1, dist);
      var d := Chord(seg, lo, hi, n - 1, dist);
      if d > prev.maxSqDist then Split(d, n - 1) else prev
  }

  /** The scan over every interior position of the segment `lo..hi`. */
  function FarthestInterior(seg: seq<Point>, lo: nat, hi: nat, dist: SegmentDistance): Split
    requires lo < hi < |seg|
  {
    Farthest(seg, lo, hi, hi, dist)
  }

  /** A split happens when the farthest interior point lies farther than
      the tolerance; the split position is then strictly interior. */
  lemma SplitIsInterior(seg: seq<Point>, lo: nat, hi: nat, tol2: real, dist: SegmentDistance)
    requires lo < hi < |seg| && tol2 >= 0.0
    requires FarthestInterior(seg, lo, hi, dist).maxSqDist > tol2
    ensures lo < FarthestInterior(seg, lo, hi, dist).index < hi
  {
  }

  /** Positions in strictly increasing order. */
  ghost predicate Increasing(ix: seq<nat>) {
    forall a, b :: 0 <= a < b < |ix| ==> ix[a] < ix[b]
  }

  /** The join `left[:-1] + right` of two halves that meet at the split
      position keeps strictly increasing order. */
  lemma JoinIncreasing(left: seq<nat>, right: seq<nat>)
    requires |left| >= 1 && |right| >= 1 && left[|left| - 1] == right[0]
    requires Increasing(left) && Increasing(right)
    ensures Increasing(left[..|left| - 1] + right)
  {
    var ix := left[..|left| - 1] + right;
    forall a, b | 0 <= a < b < |ix|
      ensures ix[a] < ix[b]
    {
      if a < |left| - 1 && b >= |left| - 1 {
        assert ix[a] == left[a] < left[|left| - 1] == right[0] <= right[b - (|left| - 1)] == ix[b];
      }
    }
  }

  /** `_simplify` (of the tools without a length guard) on the segment
      `seg[lo..hi+1]`: the positions it keeps, in order, from `lo` to `hi`. */
  function Kept(seg: seq<Point>, lo: nat, hi: nat, tol2: real, dist: SegmentDistance): (ix: seq<nat>)
    requires lo < hi < |seg| && tol2 >= 0.0
    ensures 2 <= |ix| <= hi - lo + 1
    ensures ix[0] == lo && ix[|ix| - 1] == hi
    ensures forall k :: 0 <= k < |ix| ==> lo <= ix[k] <= hi
    decreases hi - lo
  {
    var sp := FarthestInterior(seg, lo, hi, dist);
    if sp.maxSqDist > tol2 then
      SplitIsInterior(seg, lo, hi, tol2, dist);
      var left := Kept(seg, lo, sp.index, tol2, dist);
      var right := Kept(seg, sp.index, hi, tol2, dist);
      left[..|left| - 1] + right
    else
      [lo, hi]
  }

  /** The kept positions are strictly increasing: the halves are, and they
      meet at the split position. */
  lemma {:induction false} KeptIncreasing(seg: seq<Point>, lo: nat, hi: nat, tol2: real, dist: SegmentDistance)
    requires lo < hi < |seg| && tol2 >= 0.0
    ensures Increasing(Kept(seg, lo, hi, tol2, dist))
    decreases hi - lo
  {
    var sp := FarthestInterior(seg, lo, hi, dist);
    if sp.maxSqDist > tol2 {
      SplitIsInterior(seg, lo, hi, tol2, dist);
      KeptIncreasing(seg, lo, sp.index, tol2, dist);
      KeptIncreasing(seg, sp.index, hi, tol2, dist);
      JoinIncreasing(Kept(seg, lo, sp.index, tol2, dist), Kept(seg, sp.index, hi, tol2, dist));
    }
  }

  /** `_simplify` of the tools that return a segment of at most two points
      unchanged before scanning it. */
  function KeptGuarded(seg: seq<Point>, lo: nat, hi: nat, tol2: real, dist: SegmentDistance): (ix: seq<nat>)
    requires lo < hi < |seg| && tol2 >= 0.0
    ensures |ix| >= 2
    ensures forall k :: 0 <= k < |ix| ==> lo <= ix[k] <= hi
    decreases hi - lo
  {
    if hi - lo + 1 <= 2 then [lo, hi]
    else
      var sp := FarthestInterior(seg, lo, hi, dist);
      if sp.maxSqDist > tol2 then
        SplitIsInterior(seg, lo, hi, tol2, dist);
        var left := KeptGuarded(seg, lo, sp.index, tol2, dist);
        var right := KeptGuarded(seg, sp.index, hi, tol2, dist);
        left[..|left| - 1] + right
      else
        [lo, hi]
  }

  /** The length guard changes nothing: every segment `_simplify` is given
      has at least two points, and on those both forms agree. */
  lemma {:induction false} GuardIsRedundant(seg: seq<Point>, lo: nat, hi: nat, tol2: real, dist: SegmentDistance)
    requires lo < hi < |seg| && tol2 >= 0.0
    ensures KeptGuarded(seg, lo, hi, tol2, dist) == Kept(seg, lo, hi, tol2, dist)
    decreases hi - lo
  {
    var sp := FarthestInterior(seg, lo, hi, dist);
    if hi - lo + 1 <= 2 {
      assert sp == Split(-1.0, lo);
    } else if sp.maxSqDist > tol2 {
      SplitIsInterior(seg, lo, hi, tol2, dist);
      GuardIsRedundant(seg, lo, sp.index, tol2, dist);
      GuardIsRedundant(seg, sp.index, hi, tol2, dist);
    }
  }

  /** The points of `seg` at the positions `ix`. */
  function Points(seg: seq<Point>, ix: seq<nat>): (r: seq<Point>)
    requires forall k :: 0 <= k < |ix| ==> ix[k] < |seg|
    ensures |r| == |ix|
    ensures forall k :: 0 <= k < |ix| ==> r[k] == seg[ix[k]]
  {
    seq(|ix|, k requires 0 <= k < |ix| => seg[ix[k]])
  }

  /** The simplified segment deletes points and adds none. */
  lemma KeptIsEmbedding(seg: seq<Point>, lo: nat, hi: nat, tol2: real, dist: SegmentDistance)
    requires lo < hi < |seg| && tol2 >= 0.0
    ensures var ix := Kept(seg, lo, hi, tol2, dist);
            IsEmbedding(ix, Points(seg, ix), seg)
  {
    KeptIncreasing(seg, lo, hi, tol2, dist);
  }

  /** A segment collapses to its chord exactly when every interior point lies
      within the tolerance of that chord. */
  lemma CollapseIffAllNear(seg: seq<Point>, lo: nat, hi: nat, tol2: real, dist: SegmentDistance)
    requires lo < hi < |seg| && tol2 >= 0.0
    ensures Kept(seg, lo, hi, tol2, dist) == [lo, hi]
            <==> forall k :: lo < k < hi ==> Chord(seg, lo, hi, k, dist) <= tol2
  {
    var sp := FarthestInterior(seg, lo, hi, dist);
    if sp.maxSqDist > tol2 {
      SplitIsInterior(seg, lo, hi, tol2, dist);
      var left := Kept(seg, lo, sp.index, tol2, dist);
      var right := Kept(seg, sp.index, hi, tol2, dist);
      assert Chord(seg, lo, hi, sp.index, dist) > tol2;
      assert |Kept(seg, lo, hi, tol2, dist)| == |left| - 1 + |right|;
    }
  }

  /** `m` sits at exactly one position of `ix`. */
  ghost predicate OccursOnce(ix: seq<nat>, m: nat) {
    exists j :: 0 <= j < |ix| && ix[j] == m && forall j' :: 0 <= j' < |ix| && ix[j'] == m ==> j' == j
  }

  /** When the segment is split, the split position is kept, and kept
      exactly once: the join neither loses nor duplicates the split point. */
  lemma SplitPointKeptOnce(seg: seq<Point>, lo: nat, hi: nat, tol2: real, dist: SegmentDistance)
    requires lo < hi < |seg| && tol2 >= 0.0
    requires FarthestInterior(seg, lo, hi, dist).maxSqDist > tol2
    ensures OccursOnce(Kept(seg, lo, hi, tol2, dist), FarthestInterior(seg, lo, hi, dist).index)
  {
    SplitIsInterior(seg, lo, hi, tol2, dist);
    var m := FarthestInterior(seg, lo, hi, dist).index;
    var left := Kept(seg, lo, m, tol2, dist);
    var right := Kept(seg, m, hi, tol2, dist);
    var ix := Kept(seg, lo, hi, tol2, dist);
    KeptIncreasing(seg, lo, hi, tol2, dist);
    assert ix == left[..|left| - 1] + right;
    var j := |left| - 1;
    assert ix[j] == right[0] == m;
    forall j' | 0 <= j' < |ix| && ix[j'] == m
      ensures j' == j
    {
    }
    assert 0 <= j < |ix| && ix[j] == m;
  }

  /** `seg[k]` lies within squared distance `tol2` of the edge of the
      polyline through the positions `ix` that spans position `k`: the chord
      it was dropped against, or an edge it ends. */
  ghost predicate NearSomeEdge(seg: seq<Point>, k: nat, ix: seq<nat>, tol2: real, dist: SegmentDistance)
    requires k < |seg|
    requires forall j :: 0 <= j < |ix| ==> ix[j] < |seg|
  {
    exists j: nat :: j + 1 < |ix| && ix[j] <= k <= ix[j + 1] && dist(seg[k], seg[ix[j]], seg[ix[j + 1]]) <= tol2
  }

  /** Edges of either half survive the join `left[:-1] + right`. */
  lemma NearAfterJoin(seg: seq<Point>, k: nat, left: seq<nat>, right: seq<nat>, ix: seq<nat>, tol2: real, dist: SegmentDistance)
    requires k < |seg|
    requires forall j :: 0 <= j < |left| ==> left[j] < |seg|
    requires forall j :: 0 <= j < |right| ==> right[j] < |seg|
    requires |left| >= 1 && |right| >= 1 && left[|left| - 1] == right[0]
    requires ix == left[..|left| - 1] + right
    requires NearSomeEdge(seg, k, left, tol2, dist) || NearSomeEdge(seg, k, right, tol2, dist)
    ensures NearSomeEdge(seg, k, ix, tol2, dist)
  {
    if NearSomeEdge(seg, k, left, tol2, dist) {
      var j: nat :| j + 1 < |left| && left[j] <= k <= left[j + 1] && dist(seg[k], seg[left[j]], seg[left[j + 1]]) <= tol2;
      if j + 1 < |left| - 1 {
        assert ix[j] == left[j] && ix[j + 1] == left[j + 1];
      } else {
        assert ix[j] == left[j] && ix[j + 1] == right[0];
      }
    } else {
      var j: nat :| j + 1 < |right| && right[j] <= k <= right[j + 1] && dist(seg[k], seg[right[j]], seg[right[j + 1]]) <= tol2;
      var j' := |left| - 1 + j;
      assert ix[j'] == right[j] && ix[j' + 1] == right[j + 1];
    }
  }

  /** The Douglas-Peucker guarantee: every point of the segment, kept or
      dropped, lies within the tolerance of the edge between the kept
      positions on either side of it. */
  lemma {:induction false} KeptStaysNear(seg: seq<Point>, lo: nat, hi: nat, tol2: real, dist: SegmentDistance, k: nat)
    requires IsSegmentDistance(dist)
    requires lo < hi < |seg| && tol2 >= 0.0 && lo <= k <= hi
    ensures NearSomeEdge(seg, k, Kept(seg, lo, hi, tol2, dist), tol2, dist)
    decreases hi - lo
  {
    var sp := FarthestInterior(seg, lo, hi, dist);
    if sp.maxSqDist > tol2 {
      KeptSplit(seg, lo, hi, tol2, dist);
      if k <= sp.index {
        KeptStaysNear(seg, lo, sp.index, tol2, dist, k);
      } else {
        KeptStaysNear(seg, sp.index, hi, tol2, dist, k);
      }
      NearAfterJoin(seg, k, Kept(seg, lo, sp.index, tol2, dist), Kept(seg, sp.index, hi, tol2, dist), Kept(seg, lo, hi, tol2, dist), tol2, dist);
    } else {
      UnsplitStaysNear(seg, lo, hi, tol2, dist, k);
    }
  }

  /** A split segment keeps the join of its two halves. */
  lemma KeptSplit(seg: seq<Point>, lo: nat, hi: nat, tol2: real, dist: SegmentDistance)
    requires lo < hi < |seg| && tol2 >= 0.0
    requires FarthestInterior(seg, lo, hi, dist).maxSqDist > tol2
    ensures var m := FarthestInterior(seg, lo, hi, dist).index;
            && lo < m < hi
            && var left := Kept(seg, lo, m, tol2, dist);
               Kept(seg, lo, hi, tol2, dist) == left[..|left| - 1] + Kept(seg, m, hi, tol2, dist)
  {
    SplitIsInterior(seg, lo, hi, tol2, dist);
  }

  /** When the segment is not split, every point of it is near its chord. */
  lemma UnsplitStaysNear(seg: seq<Point>, lo: nat, hi: nat, tol2: real, dist: SegmentDistance, k: nat)
    requires IsSegmentDistance(dist)
    requires lo < hi < |seg| && tol2 >= 0.0 && lo <= k <= hi
    requires FarthestInterior(seg, lo, hi, dist).maxSqDist <= tol2
    ensures NearSomeEdge(seg, k, Kept(seg, lo, hi, tol2, dist), tol2, dist)
  {
    ChordStaysNear(seg, lo, hi, tol2, dist, k);
    var ix := Kept(seg, lo, hi, tol2, dist);
    assert ix == [lo, hi];
    assert dist(seg[k], seg[ix[0]], seg[ix[1]]) <= tol2;
  }

  /** A segment that is not split is near each of its points: interior
      points by the scan, the endpoints by `IsSegmentDistance`. */
  lemma ChordStaysNear(seg: seq<Point>, lo: nat, hi: nat, tol2: real, dist: SegmentDistance, k: nat)
    requires IsSegmentDistance(dist)
    requires lo < hi < |seg| && tol2 >= 0.0 && lo <= k <= hi
    requires FarthestInterior(seg, lo, hi, dist).maxSqDist <= tol2
    ensures dist(seg[k], seg[lo], seg[hi]) <= tol2
  {
    if lo < k < hi {
      assert Chord(seg, lo, hi, k, dist) <= FarthestInterior(seg, lo, hi, dist).maxSqDist;
    }
  }

  /** The last position `_simplify` works on: a closed input loses its
      closing point. */
  function WorkingEnd(points: seq<Point>): nat
    requires |points| > 2
  {
    if points[0] == points[|points| - 1] then |points| - 2 else |points| - 1
  }

  /** The last step of `douglas_peucker`: a simplified closed ring whose
      ends differ gets its first point appended. */
  function Reclose(isClosed: bool, simplified: seq<Point>): seq<Point>
    requires |simplified| > 0
  {
    if isClosed && simplified[0] != simplified[|simplified| - 1] then simplified + [simplified[0]]
    else simplified
  }

  /** `douglas_peucker`: the input is returned unchanged when it has at most
      two points or the tolerance is not positive. Otherwise a closed input
      (first point == last point) is simplified without its closing point,
      which is appended again if the result does not already end with the
      first point. */
  function DouglasPeucker(points: seq<Point>, tol: real, dist: SegmentDistance): (r: seq<Point>)
    ensures |points| <= 2 || tol <= 0.0 ==> r == points
    ensures |r| <= |points|
    ensures |points| > 0 ==> |r| > 0 && r[0] == points[0]
    ensures IsClosed(points) ==> IsClosed(r)
    ensures |points| > 2 && tol > 0.0 ==> |r| >= 2
    ensures !IsClosed(points) && |points| > 0 ==> r[|r| - 1] == points[|points| - 1]
  {
    if |points| <= 2 || tol <= 0.0 then points
    else
      SquareNonNegative(tol);
      Reclose(points[0] == points[|points| - 1], Points(points, Kept(points, 0, WorkingEnd(points), Sq(tol), dist)))
  }

  /** `douglas_peucker` over the guarded `_simplify`, whose closed-ring test
      also asks for more than two points. */
  function DouglasPeuckerGuarded(points: seq<Point>, tol: real, dist: SegmentDistance): (r: seq<Point>)
    ensures |points| <= 2 || tol <= 0.0 ==> r == points
    ensures |points| > 2 && tol > 0.0 ==> |r| >= 2
  {
    if |points| <= 2 || tol <= 0.0 then points
    else
      var isClosed := |points| > 2 && points[0] == points[|points| - 1];
      var hi := if isClosed then |points| - 2 else |points| - 1;
      SquareNonNegative(tol);
      Reclose(isClosed, Points(points, KeptGuarded(points, 0, hi, Sq(tol), dist)))
  }

  /** Both forms of `douglas_peucker` compute the same polyline. */
  lemma GuardedAgrees(points: seq<Point>, tol: real, dist: SegmentDistance)
    ensures DouglasPeuckerGuarded(points, tol, dist) == DouglasPeucker(points, tol, dist)
  {
    if |points| > 2 && tol > 0.0 {
      SquareNonNegative(tol);
      var hi := WorkingEnd(points);
      GuardIsRedundant(points, 0, hi, Sq(tol), dist);
    }
  }

  /** The result of `douglas_peucker` only deletes points of its input. */
  lemma DouglasPeuckerIsSubsequence(points: seq<Point>, tol: real, dist: SegmentDistance)
    ensures IsSubsequence(DouglasPeucker(points, tol, dist), points)
  {
    if |points| <= 2 || tol <= 0.0 {
      SubsequenceReflexive(points);
    } else {
      SquareNonNegative(tol);
      var hi := WorkingEnd(points);
      var ix := Kept(points, 0, hi, Sq(tol), dist);
      KeptIsEmbedding(points, 0, hi, Sq(tol), dist);
      RecloseIsSubsequence(points[0] == points[|points| - 1], Points(points, ix), points, ix);
    }
  }

  /** Re-closing appends the closing point, which lies after every position
      `_simplify` worked on. */
  lemma RecloseIsSubsequence(isClosed: bool, simplified: seq<Point>, points: seq<Point>, ix: seq<nat>)
    requires IsEmbedding(ix, simplified, points) && |simplified| > 0
    requires isClosed ==> ix[|ix| - 1] < |points| - 1 && simplified[0] == points[|points| - 1]
    ensures IsSubsequence(Reclose(isClosed, simplified), points)
  {
    if isClosed && simplified[0] != simplified[|simplified| - 1] {
      SubsequenceAppend(simplified, points, ix, |points| - 1);
    }
  }

  /** Every input point lies within the tolerance of some edge of the
      result, the closing point included. A point `_simplify` worked on lies
      within the tolerance of the edge between the kept positions around it:
      the chord it was dropped against (`DroppedNearItsChord`). */
  lemma DouglasPeuckerStaysNear(points: seq<Point>, tol: real, dist: SegmentDistance, k: nat)
    requires IsSegmentDistance(dist)
    requires |points| > 2 && tol > 0.0 && k < |points|
    ensures NearPolyline(points[k], DouglasPeucker(points, tol, dist), Sq(tol), dist)
  {
    SquareNonNegative(tol);
    var hi := WorkingEnd(points);
    var ix := Kept(points, 0, hi, Sq(tol), dist);
    var k' := if k > hi then 0 else k;
    assert points[k] == points[k'];
    KeptStaysNear(points, 0, hi, Sq(tol), dist, k');
    EdgesOfPoints(points, k', ix, Sq(tol), dist);
    RecloseStaysNear(points[0] == points[|points| - 1], Points(points, ix), points[k], Sq(tol), dist);
  }

  /** A point `_simplify` worked on, kept or dropped, lies within the
      tolerance of the edge of the result between the kept positions around
      it: for a dropped point, the chord it was dropped against. */
  lemma DroppedNearItsChord(points: seq<Point>, tol: real, dist: SegmentDistance, k: nat)
    requires IsSegmentDistance(dist)
    requires |points| > 2 && tol > 0.0 && k <= WorkingEnd(points)
    ensures var ix := Kept(points, 0, WorkingEnd(points), Sq(tol), dist);
            var r := DouglasPeucker(points, tol, dist);
            exists j: nat :: && j + 1 < |ix| && j + 1 < |r| && ix[j] <= k <= ix[j + 1]
                             && r[j] == points[ix[j]] && r[j + 1] == points[ix[j + 1]]
                             && dist(points[k], r[j], r[j + 1]) <= Sq(tol)
  {
    SquareNonNegative(tol);
    var ix := Kept(points, 0, WorkingEnd(points), Sq(tol), dist);
    KeptStaysNear(points, 0, WorkingEnd(points), Sq(tol), dist, k);
    ResultStartsWithKept(points, tol, dist);
    var j: nat :| j + 1 < |ix| && ix[j] <= k <= ix[j + 1] && dist(points[k], points[ix[j]], points[ix[j + 1]]) <= Sq(tol);
  }

  /** The result begins with the points at the kept positions; re-closing
      only appends. */
  lemma ResultStartsWithKept(points: seq<Point>, tol: real, dist: SegmentDistance)
    requires |points| > 2 && tol > 0.0
    ensures var ix := Kept(points, 0, WorkingEnd(points), Sq(tol), dist);
            var r := DouglasPeucker(points, tol, dist);
            |ix| <= |r| && forall j :: 0 <= j < |ix| ==> r[j] == points[ix[j]]
  {
    SquareNonNegative(tol);
  }

  /** An edge between kept positions is an edge of the simplified
      polyline. */
  lemma EdgesOfPoints(seg: seq<Point>, k: nat, ix: seq<nat>, tol2: real, dist: SegmentDistance)
    requires k < |seg| && forall j :: 0 <= j < |ix| ==> ix[j] < |seg|
    requires NearSomeEdge(seg, k, ix, tol2, dist)
    ensures NearPolyline(seg[k], Points(seg, ix), tol2, dist)
  {
    var j: nat :| j + 1 < |ix| && ix[j] <= k <= ix[j + 1] && dist(seg[k], seg[ix[j]], seg[ix[j + 1]]) <= tol2;
    var r := Points(seg, ix);
    assert r[j] == seg[ix[j]] && r[j + 1] == seg[ix[j + 1]];
  }

  /** `p` lies within squared distance `tol2` of some edge of the polyline
      `r`. */
  ghost predicate NearPolyline(p: Point, r: seq<Point>, tol2: real, dist: SegmentDistance) {
    exists j: nat :: j + 1 < |r| && dist(p, r[j], r[j + 1]) <= tol2
  }

  /** Re-closing only adds an edge. */
  lemma RecloseStaysNear(isClosed: bool, simplified: seq<Point>, p: Point, tol2: real, dist: SegmentDistance)
    requires |simplified| > 0 && NearPolyline(p, simplified, tol2, dist)
    ensures NearPolyline(p, Reclose(isClosed, simplified), tol2, dist)
  {
    var j: nat :| j + 1 < |simplified| && dist(p, simplified[j], simplified[j + 1]) <= tol2;
    var r := Reclose(isClosed, simplified);
    assert r[j] == simplified[j] && r[j + 1] == simplified[j + 1];
  }
}

=== FILE: enc_data.dfy ===
/**
 `simplify_geojson` of the ENC data downloader. With a positive tolerance
 every ring of every Polygon and MultiPolygon is simplified; a ring that keeps
 at least four points is closed, any other ring is kept exactly as it was.
 No feature, polygon or ring is ever dropped, and every other feature is
 passed through. Its file writer is `Encoders.AreaBinary`.
 */
module EncData {
  import opened Wrappers
  import opened Geometry
  import opened RingPolicy
  import opened Distance
  import opened DouglasPeucker
  import opened Encoders
  import EncDirect

  /** Every ring of one polygon through `ClosedOrOriginal`, in order. */
  function SimplifyRings(rings: seq<Ring>, tol: real): (r: seq<Ring>)
    ensures |r| == |rings|
    ensures forall i :: 0 <= i < |rings| ==> (IsClosed(r[i]) && 4 <= |r[i]| <= |rings[i]| + 1) || r[i] == rings[i]
    ensures forall i :: 0 <= i < |rings| ==> r[i] == ClosedOrOriginal(rings[i], tol)
  {
    seq(|rings|, i requires 0 <= i < |rings| => ClosedOrOriginal(rings[i], tol))
  }

  /** `b` has the shape of `a`: the same kind, the same number of polygons
      and of rings per polygon for the area kinds, and equal otherwise. */
  predicate SameLayout(a: Geometry, b: Geometry) {
    match a
    case Polygon(rings) => b.Polygon? && |b.rings| == |rings|
    case MultiPolygon(polygons) =>
      && b.MultiPolygon? && |b.polygons| == |polygons|
      && forall p :: 0 <= p < |polygons| ==> |b.polygons[p]| == |polygons[p]|
    case _ => b == a
  }

  /** One feature of the loop: total, it never raises and never drops. */
  function SimplifyFeature(f: Feature, tol: real): (r: Feature)
    ensures r.properties == f.properties
    ensures SameLayout(f.geometry, r.geometry)
    ensures f.geometry.Polygon? ==> r.geometry == Polygon(SimplifyRings(f.geometry.rings, tol))
    ensures f.geometry.MultiPolygon? ==>
              forall p :: 0 <= p < |f.geometry.polygons| ==> r.geometry.polygons[p] == SimplifyRings(f.geometry.polygons[p], tol)
    ensures !IsPolygonal(f.geometry) ==> r == f
  {
    match f.geometry
    case Polygon(rings) => Feature(f.properties, Polygon(SimplifyRings(rings, tol)))
    case MultiPolygon(polygons) =>
      Feature(f.properties, MultiPolygon(seq(|polygons|, p requires 0 <= p < |polygons| => SimplifyRings(polygons[p], tol))))
    case _ => f
  }

  /** `simplify_geojson`: the input itself for a non-positive tolerance;
      otherwise one simplified feature per input feature, in order. */
  function SimplifyGeojson(features: Collection, tol: real): (r: Collection)
    ensures tol <= 0.0 ==> r == features
    ensures |r| == |features|
    ensures forall k :: 0 <= k < |r| ==>
              r[k].properties == features[k].properties && SameLayout(features[k].geometry, r[k].geometry)
    ensures tol > 0.0 ==> forall k :: 0 <= k < |r| ==> r[k] == SimplifyFeature(features[k], tol)
  {
    if tol <= 0.0 then features
    else seq(|features|, k requires 0 <= k < |features| => SimplifyFeature(features[k], tol))
  }

  /** Every output ring is either closed with at least four points, all of
      them points of the input ring at the same position, or that input
      ring itself; which of the two is decided by how many points survive
      `douglas_peucker` (`RingFrom`). */
  lemma RingsClosedOrOriginal(f: Feature, tol: real)
    ensures var g := SimplifyFeature(f, tol).geometry;
            && (g.Polygon? ==> forall i :: 0 <= i < |g.rings| ==> RingFrom(g.rings[i], f.geometry.rings[i], tol))
            && (g.MultiPolygon? ==>
                  forall p, i :: 0 <= p < |g.polygons| && 0 <= i < |g.polygons[p]| ==>
                    RingFrom(g.polygons[p][i], f.geometry.polygons[p][i], tol))
  {
    var g := SimplifyFeature(f, tol).geometry;
    if f.geometry.Polygon? {
      forall i | 0 <= i < |g.rings|
        ensures RingFrom(g.rings[i], f.geometry.rings[i], tol)
      {
        RingPolicyFrom(f.geometry.rings[i], tol);
      }
    } else if f.geometry.MultiPolygon? {
      forall p, i | 0 <= p < |g.polygons| && 0 <= i < |g.polygons[p]|
        ensures RingFrom(g.polygons[p][i], f.geometry.polygons[p][i], tol)
      {
        RingPolicyFrom(f.geometry.polygons[p][i], tol);
      }
    }
  }

  /** `kept` is what the loop makes of `ring`: `ring` itself when fewer than
      four points survive simplification, and otherwise a closed ring of at
      least four of its points that begins with the simplified ring. */
  ghost predicate RingFrom(kept: Ring, ring: Ring, tol: real) {
    var s := Simplify(ring, tol);
    && (|s| < 4 ==> kept == ring)
    && (|s| >= 4 ==>
          && IsClosed(kept) && 4 <= |kept| && |s| <= |kept| <= |s| + 1 && kept[..|s|] == s
          && forall k :: 0 <= k < |kept| ==> kept[k] in ring)
  }

  /** Every point of an input Polygon ring of at least three points lies
      within the tolerance of an edge of the ring that replaces it, and a
      ring kept in simplified form is, up to its closing point, an
      order-preserving selection of the input ring's points. */
  lemma PolygonRingsApproximate(f: Feature, tol: real, i: nat, k: nat)
    requires tol > 0.0 && f.geometry.Polygon?
    requires i < |f.geometry.rings| && 2 < |f.geometry.rings[i]| && k < |f.geometry.rings[i]|
    ensures var ring := f.geometry.rings[i];
            var kept := SimplifyFeature(f, tol).geometry.rings[i];
            && NearPolyline(ring[k], kept, Sq(tol), SegmentSqDist)
            && (|Simplify(ring, tol)| >= 4 ==> IsSubsequence(kept[..|Simplify(ring, tol)|], ring))
  {
    var ring := f.geometry.rings[i];
    PoliciesStayNear(ring, tol, k);
    if |Simplify(ring, tol)| >= 4 {
      PolicyRingIsSimplification(ring, tol, k);
    }
  }

  lemma RingPolicyFrom(ring: Ring, tol: real)
    ensures RingFrom(ClosedOrOriginal(ring, tol), ring, tol)
  {
    PoliciesKeepPoints(ring, tol);
  }

  /** On a Polygon whose rings are all closed the ENC data and ENC direct
      simplifiers agree: closing the original ring is a no-op there. */
  lemma AgreesWithEncDirectOnClosedRings(f: Feature, tol: real)
    requires f.geometry.Polygon?
    requires forall i :: 0 <= i < |f.geometry.rings| ==> |f.geometry.rings[i]| > 0 && IsClosed(f.geometry.rings[i])
    ensures EncDirect.SimplifyFeature(f, tol) == Some([SimplifyFeature(f, tol)])
  {
    var rings := f.geometry.rings;
    var closed := FallbackRings(rings, tol);
    forall i | 0 <= i < |rings|
      ensures closed.value[i] == SimplifyRings(rings, tol)[i]
    {
      assert closed.value[i] == ClosedOrFallback(rings[i], tol).value;
    }
    assert closed.value == SimplifyRings(rings, tol);
  }

  /** Simplifying never changes the number of polygons the writer emits:
      every Polygon and MultiPolygon member keeps its rings. */
  lemma SameEntryCount(features: Collection, tol: real)
    ensures |FlatMap(SimplifyGeojson(features, tol), AreaRecords)| == |FlatMap(features, AreaRecords)|
  {
    var out := SimplifyGeojson(features, tol);
    forall k | 0 <= k < |out|
      ensures |AreaRecords(out[k])| == |AreaRecords(features[k])|
    {
      var g := features[k].geometry;
      if g.MultiPolygon? {
        FlatMapSameSizes(out[k].geometry.polygons, PolygonRecord, g.polygons, PolygonRecord);
      }
    }
    FlatMapSameSizes(out, AreaRecords, features, AreaRecords);
  }
}

=== FILE: enc_direct.dfy ===
/**
 `simplify_geojson` of the ENC direct downloader. With a positive tolerance
 every Polygon ring is simplified and closed (falling back to the original
 ring when fewer than four points survive), LineStrings of fewer than two
 simplified points are dropped, MultiPolygons keep only rings of at least
 four simplified points and only polygons that keep a ring, and every other
 feature is passed through as it is.
 */
module EncDirect {
  import opened Wrappers
  import opened Geometry
  import opened RingPolicy

  /** Closed rings of at least four points each. */
  predicate LongClosedRings(rings: seq<Ring>) {
    forall i :: 0 <= i < |rings| ==> IsClosed(rings[i]) && |rings[i]| >= 4
  }

  /** A ring that keeps at least four points when simplified. */
  function IsLong(tol: real): Ring -> bool {
    ring => |Simplify(ring, tol)| >= 4
  }

  /** One ring of the MultiPolygon loop: the simplified ring, closed, or
      nothing. */
  function LongRingStep(tol: real): Ring -> seq<Ring> {
    ring => var long := ClosedIfLong(ring, tol); if long.Some? then [long.value] else []
  }

  /** The rings of one MultiPolygon member after the loop: the rings that
      keep at least four simplified points, each simplified and closed, in
      their order. */
  function LongRings(polygon: seq<Ring>, tol: real): (r: seq<Ring>)
    ensures var long := Filter(polygon, IsLong(tol));
            && |r| == |long|
            && forall j :: 0 <= j < |r| ==> r[j] == ClosedIfLong(long[j], tol).value
    ensures LongClosedRings(r)
  {
    FlatMapOfKept(polygon, LongRingStep(tol), IsLong(tol));
    FlatMap(polygon, LongRingStep(tol))
  }

  /** A MultiPolygon member that keeps a ring. */
  function KeepsARing(tol: real): seq<Ring> -> bool {
    polygon => |LongRings(polygon, tol)| > 0
  }

  /** One member of the MultiPolygon loop: its long rings, or nothing. */
  function KeptPolygonStep(tol: real): seq<Ring> -> seq<seq<Ring>> {
    polygon => var long := LongRings(polygon, tol); if |long| > 0 then [long] else []
  }

  /** The members of a MultiPolygon after the loop: those that keep a ring,
      each with its long rings, in their order. */
  function KeptPolygons(polygons: seq<seq<Ring>>, tol: real): (r: seq<seq<Ring>>)
    ensures var kept := Filter(polygons, KeepsARing(tol));
            && |r| == |kept|
            && forall j :: 0 <= j < |r| ==> r[j] == LongRings(kept[j], tol)
    ensures forall j :: 0 <= j < |r| ==> |r[j]| > 0 && LongClosedRings(r[j])
  {
    FlatMapOfKept(polygons, KeptPolygonStep(tol), KeepsARing(tol));
    FlatMap(polygons, KeptPolygonStep(tol))
  }

  /** One feature of the loop: no feature (dropped), one feature, or None
      where closing an empty Polygon ring raises. */
  function SimplifyFeature(f: Feature, tol: real): (r: Option<Collection>)
    ensures r.None? <==> f.geometry.Polygon? && exists i :: 0 <= i < |f.geometry.rings| && |f.geometry.rings[i]| == 0
    ensures r.Some? ==> |r.value| <= 1 && forall j :: 0 <= j < |r.value| ==> r.value[j].properties == f.properties
    ensures r.Some? && f.geometry.Polygon? ==>
              && |r.value| == 1 && r.value[0].geometry == Polygon(FallbackRings(f.geometry.rings, tol).value)
              && forall i :: 0 <= i < |f.geometry.rings| ==> IsClosed(r.value[0].geometry.rings[i])
    ensures r.Some? && f.geometry.LineString? ==> (|r.value| == 1 <==> |Simplify(f.geometry.line, tol)| >= 2)
    ensures r.Some? && f.geometry.LineString? && |r.value| == 1 ==>
              r.value[0].geometry == LineString(Simplify(f.geometry.line, tol)) && |r.value[0].geometry.line| <= |f.geometry.line|
    ensures r.Some? && f.geometry.MultiPolygon? ==> (|r.value| == 1 <==> |KeptPolygons(f.geometry.polygons, tol)| > 0)
    ensures r.Some? && f.geometry.MultiPolygon? && |r.value| == 1 ==>
              && r.value[0].geometry == MultiPolygon(KeptPolygons(f.geometry.polygons, tol))
              && 0 < |r.value[0].geometry.polygons| <= |f.geometry.polygons|
              && forall j :: 0 <= j < |r.value[0].geometry.polygons| ==> LongClosedRings(r.value[0].geometry.polygons[j])
    ensures !(f.geometry.Polygon? || f.geometry.LineString? || f.geometry.MultiPolygon?) ==> r == Some([f])
  {
    match f.geometry
    case Polygon(rings) =>
      var closed := FallbackRings(rings, tol);
      if closed.None? then None else Some([Feature(f.properties, Polygon(closed.value))])
    case LineString(line) =>
      var simplified := Simplify(line, tol);
      if |simplified| >= 2 then Some([Feature(f.properties, LineString(simplified))]) else Some([])
    case MultiPolygon(polygons) =>
      var kept := KeptPolygons(polygons, tol);
      if |kept| > 0 then Some([Feature(f.properties, MultiPolygon(kept))]) else Some([])
    case _ => Some([f])
  }

  function SimplifyStep(tol: real): Feature -> Option<Collection> {
    f => SimplifyFeature(f, tol)
  }

  /** A feature the loop emits, once it does not raise: every Polygon and
      unhandled kind, a LineString keeping two points, a MultiPolygon keeping
      a member. */
  predicate SurvivesSimplify(f: Feature, tol: real) {
    match f.geometry
    case LineString(line) => |Simplify(line, tol)| >= 2
    case MultiPolygon(polygons) => |KeptPolygons(polygons, tol)| > 0
    case _ => true
  }

  function Survives(tol: real): Feature -> bool {
    f => SurvivesSimplify(f, tol)
  }

  /** `simplify_geojson`: the input itself for a non-positive tolerance;
      otherwise the simplified features in input order, or None when some
      Polygon has an empty ring. Output j is the simplified form of the j-th
      surviving input feature: each survivor once, in input order. */
  function SimplifyGeojson(features: Collection, tol: real): (r: Option<Collection>)
    ensures tol <= 0.0 ==> r == Some(features)
    ensures tol > 0.0 ==>
              (r.None? <==> exists k, i :: 0 <= k < |features| && features[k].geometry.Polygon?
                                           && 0 <= i < |features[k].geometry.rings| && |features[k].geometry.rings[i]| == 0)
    ensures r.Some? ==> |r.value| <= |features|
    ensures tol > 0.0 && r.Some? ==>
              var survivors := Filter(features, Survives(tol));
              && |r.value| == |survivors|
              && forall j :: 0 <= j < |r.value| ==> SimplifyFeature(survivors[j], tol) == Some([r.value[j]])
  {
    if tol <= 0.0 then Some(features)
    else
      var r := Gather(features, SimplifyStep(tol));
      assert forall k :: 0 <= k < |features| ==> SimplifyStep(tol)(features[k]) == SimplifyFeature(features[k], tol);
      if r.Some? then
        GatherOfKept(features, SimplifyStep(tol), Survives(tol));
        r
      else r
  }

  /** Every Polygon that comes out has closed rings, and every MultiPolygon
      closed rings of at least four points. */
  lemma SimplifiedRingsClosed(features: Collection, tol: real, j: nat)
    requires tol > 0.0
    requires SimplifyGeojson(features, tol).Some? && j < |SimplifyGeojson(features, tol).value|
    ensures var g := SimplifyGeojson(features, tol).value[j].geometry;
            && (g.Polygon? ==> forall i :: 0 <= i < |g.rings| ==> IsClosed(g.rings[i]))
            && (g.MultiPolygon? ==> forall p :: 0 <= p < |g.polygons| ==> LongClosedRings(g.polygons[p]))
  {
    var out := SimplifyGeojson(features, tol).value;
    GatherSource(features, SimplifyStep(tol), j);
    var k :| 0 <= k < |features| && SimplifyStep(tol)(features[k]).Some? && out[j] in SimplifyStep(tol)(features[k]).value;
    assert SimplifyStep(tol)(features[k]) == SimplifyFeature(features[k], tol);
    FeatureRingsClosed(features[k], tol, out[j]);
  }

  /** The same for the output of one feature. */
  lemma FeatureRingsClosed(f: Feature, tol: real, g: Feature)
    requires SimplifyFeature(f, tol).Some? && g in SimplifyFeature(f, tol).value
    ensures && (g.geometry.Polygon? ==> forall i :: 0 <= i < |g.geometry.rings| ==> IsClosed(g.geometry.rings[i]))
            && (g.geometry.MultiPolygon? ==> forall p :: 0 <= p < |g.geometry.polygons| ==> LongClosedRings(g.geometry.polygons[p]))
  {
    var out := SimplifyFeature(f, tol).value;
    if f.geometry.Polygon? || f.geometry.MultiPolygon? || f.geometry.LineString? {
      assert g == out[0];
    } else {
      assert g == f;
    }
  }

  /** Features of the kinds the loop does not handle (MultiLineStrings,
      collections, points, ...) come through unsimplified. */
  lemma OtherKindsPassThrough(features: Collection, tol: real, k: nat)
    requires SimplifyGeojson(features, tol).Some? && k < |features|
    requires !(features[k].geometry.Polygon? || features[k].geometry.LineString? || features[k].geometry.MultiPolygon?)
    ensures features[k] in SimplifyGeojson(features, tol).value
  {
    if tol > 0.0 {
      assert SimplifyStep(tol)(features[k]) == Some([features[k]]);
      GatherIncludes(features, SimplifyStep(tol), k, 0);
    }
  }

  /** Every Polygon, every LineString that keeps two points and every
      MultiPolygon that keeps a member comes out simplified, with its
      properties: a Polygon with ring i the fallback policy applied to input
      ring i, a MultiPolygon with its kept members. */
  lemma SimplifiedFeaturesKept(features: Collection, tol: real, k: nat)
    requires tol > 0.0 && SimplifyGeojson(features, tol).Some? && k < |features|
    ensures var f := features[k];
            var out := SimplifyGeojson(features, tol).value;
            && (f.geometry.Polygon? ==>
                  && FallbackRings(f.geometry.rings, tol).Some?
                  && Feature(f.properties, Polygon(FallbackRings(f.geometry.rings, tol).value)) in out)
            && (f.geometry.LineString? && |Simplify(f.geometry.line, tol)| >= 2 ==>
                  Feature(f.properties, LineString(Simplify(f.geometry.line, tol))) in out)
            && (f.geometry.MultiPolygon? && |KeptPolygons(f.geometry.polygons, tol)| > 0 ==>
                  Feature(f.properties, MultiPolygon(KeptPolygons(f.geometry.polygons, tol))) in out)
  {
    var f := features[k];
    assert SimplifyStep(tol)(f) == SimplifyFeature(f, tol);
    if f.geometry.Polygon? || (f.geometry.LineString? && |Simplify(f.geometry.line, tol)| >= 2)
       || (f.geometry.MultiPolygon? && |KeptPolygons(f.geometry.polygons, tol)| > 0) {
      GatherIncludes(features, SimplifyStep(tol), k, 0);
    }
  }

  /** A simplified Polygon keeps its number of rings, and ring i holds only
      points of the original ring i. */
  lemma PolygonPointsKept(f: Feature, tol: real)
    requires f.geometry.Polygon? && SimplifyFeature(f, tol).Some?
    ensures var g := SimplifyFeature(f, tol).value[0].geometry;
            forall i, p :: 0 <= i < |g.rings| && 0 <= p < |g.rings[i]| ==> g.rings[i][p] in f.geometry.rings[i]
  {
    var rings := f.geometry.rings;
    forall i | 0 <= i < |rings|
      ensures var r := ClosedOrFallback(rings[i], tol);
              r.Some? ==> forall p :: 0 <= p < |r.value| ==> r.value[p] in rings[i]
    {
      PoliciesKeepPoints(rings[i], tol);
    }
  }
}

=== FILE: encoders.dfy ===
/**
 The collecting half of the tools' `geojson_to_binary`: which features become
 `(exterior, interiors)` entries of the NVTL file, and whether an empty file
 gets zero bounds. The byte layout itself is `Nvtl.Encode`.

 - ENC direct: Polygon, MultiPolygon and (closed) MultiLineString parts;
   LineStrings are skipped; zero bounds when empty.
 - ENC data and GSHHG: Polygon and MultiPolygon; zero bounds when empty.
 - NOAA: Polygon and MultiPolygon; no empty-case guard.
 - OSM: Polygon only; zero bounds when empty.
 */
module Encoders {
  import opened Wrappers
  import opened Geometry
  import opened Nvtl

  /** The entry of one polygon: exterior first, the rest as holes; nothing
      for a polygon without rings (`if coords:`). */
  function PolygonRecord(rings: seq<Ring>): (r: seq<Record>)
    ensures |rings| == 0 <==> r == []
    ensures |rings| > 0 ==> |r| == 1 && [r[0].exterior] + r[0].interiors == rings
  {
    if |rings| == 0 then [] else [Record(rings[0], rings[1..])]
  }

  /** The entries of a Polygon or MultiPolygon feature, none for any other. */
  function AreaRecords(f: Feature): (r: seq<Record>)
    ensures !IsPolygonal(f.geometry) ==> r == []
    ensures f.geometry.Polygon? ==> r == PolygonRecord(f.geometry.rings)
    ensures f.geometry.MultiPolygon? ==>
              var members := Filter(f.geometry.polygons, NonEmpty);
              && |r| == |members|
              && forall j :: 0 <= j < |r| ==> r[j] == Record(members[j][0], members[j][1..])
    ensures f.geometry.MultiPolygon? ==>
              (|r| == |f.geometry.polygons| <==> forall k :: 0 <= k < |f.geometry.polygons| ==> |f.geometry.polygons[k]| > 0)
  {
    match f.geometry
    case Polygon(rings) => PolygonRecord(rings)
    case MultiPolygon(polygons) =>
      FlatMapOfKept(polygons, PolygonRecord, NonEmpty);
      FlatMap(polygons, PolygonRecord)
    case _ => []
  }

  /** A MultiLineString part as the ENC direct tool writes it: closed, with
      no holes, when it has at least two points; dropped otherwise. */
  function LineRecord(line: Ring): (r: seq<Record>)
    ensures |line| < 2 <==> r == []
    ensures |line| >= 2 ==> |r| == 1 && IsClosed(r[0].exterior) && r[0].interiors == []
    ensures |line| >= 2 ==> |line| <= |r[0].exterior| <= |line| + 1 && r[0].exterior[..|line|] == line
  {
    if |line| < 2 then [] else [Record(CloseRing(line), [])]
  }

  function LineRecords(f: Feature): seq<Record> {
    if f.geometry.MultiLineString? then FlatMap(f.geometry.lines, LineRecord) else []
  }

  function EncDirectRecords(f: Feature): seq<Record> {
    AreaRecords(f) + LineRecords(f)
  }

  /** `geojson_to_binary` of the ENC direct tool: written exactly when every
      count fits a u32, and read back it gives its entries' packed fields. */
  function EncDirectBinary(features: Collection, enc: Float64Encoder): (r: Option<seq<Byte>>)
    ensures var records := FlatMap(features, EncDirectRecords);
            && (r.Some? <==> Fits(records))
            && (r.Some? ==> Read(r.value) == Some(ImageOf(records, Bounds(records, true), enc)))
  {
    EncodedReadsBack(FlatMap(features, EncDirectRecords), true, enc);
    Encode(FlatMap(features, EncDirectRecords), true, enc)
  }

  /** `geojson_to_binary` of the ENC data and GSHHG tools, with the same
      read-back guarantee over the area entries. */
  function AreaBinary(features: Collection, enc: Float64Encoder): (r: Option<seq<Byte>>)
    ensures var records := FlatMap(features, AreaRecords);
            && (r.Some? <==> Fits(records))
            && (r.Some? ==> Read(r.value) == Some(ImageOf(records, Bounds(records, true), enc)))
  {
    EncodedReadsBack(FlatMap(features, AreaRecords), true, enc);
    Encode(FlatMap(features, AreaRecords), true, enc)
  }

  /** `geojson_to_binary` of the NOAA tool: the same, with unguarded
      bounds for an empty file. */
  function NoaaBinary(features: Collection, enc: Float64Encoder): (r: Option<seq<Byte>>)
    ensures var records := FlatMap(features, AreaRecords);
            && (r.Some? <==> Fits(records))
            && (r.Some? ==> Read(r.value) == Some(ImageOf(records, Bounds(records, false), enc)))
  {
    EncodedReadsBack(FlatMap(features, AreaRecords), false, enc);
    Encode(FlatMap(features, AreaRecords), false, enc)
  }

  function OsmRecords(f: Feature): seq<Record> {
    if f.geometry.Polygon? then PolygonRecord(f.geometry.rings) else []
  }

  /** `geojson_to_binary` of the OSM tool: the same over the Polygon
      entries. */
  function OsmBinary(features: Collection, enc: Float64Encoder): (r: Option<seq<Byte>>)
    ensures var records := FlatMap(features, OsmRecords);
            && (r.Some? <==> Fits(records))
            && (r.Some? ==> Read(r.value) == Some(ImageOf(records, Bounds(records, true), enc)))
  {
    EncodedReadsBack(FlatMap(features, OsmRecords), true, enc);
    Encode(FlatMap(features, OsmRecords), true, enc)
  }

  predicate IsLineString(f: Feature) {
    f.geometry.LineString?
  }

  predicate NotLineString(f: Feature) {
    !f.geometry.LineString?
  }

  /** The ENC direct encoder ignores LineStrings: removing them from the
      input leaves the file unchanged. */
  lemma EncDirectIgnoresLineStrings(features: Collection, enc: Float64Encoder)
    ensures EncDirectBinary(Filter(features, NotLineString), enc) == EncDirectBinary(features, enc)
  {
    FlatMapSkipsSilent(features, EncDirectRecords, NotLineString);
  }

  /** Without MultiLineStrings, the ENC direct encoder writes what the ENC
      data encoder writes. */
  lemma EncDirectMatchesAreaEncoder(features: Collection, enc: Float64Encoder)
    requires forall k :: 0 <= k < |features| ==> !features[k].geometry.MultiLineString?
    ensures EncDirectBinary(features, enc) == AreaBinary(features, enc)
  {
    forall k | 0 <= k < |features|
      ensures EncDirectRecords(features[k]) == AreaRecords(features[k])
    {
      assert LineRecords(features[k]) == [];
    }
    FlatMapAgree(features, EncDirectRecords, AreaRecords);
  }

  /** The OSM encoder is the area encoder applied to the Polygon features
      alone. */
  lemma OsmIsAreaEncoderOnPolygons(features: Collection, enc: Float64Encoder)
    ensures OsmBinary(features, enc) == AreaBinary(Filter(features, IsPolygonFeature), enc)
  {
    var polygons := Filter(features, IsPolygonFeature);
    FlatMapSkipsSilent(features, OsmRecords, IsPolygonFeature);
    FlatMapAgree(polygons, OsmRecords, AreaRecords);
  }

  /** The NOAA encoder differs from the guarded ones only for a file with no
      polygon: there it writes the loop's start values (+inf, +inf, -inf,
      -inf) where the others write zeros. */
  lemma NoaaDiffersOnlyWhenEmpty(features: Collection, enc: Float64Encoder)
    ensures |FlatMap(features, AreaRecords)| > 0 ==> NoaaBinary(features, enc) == AreaBinary(features, enc)
    ensures |FlatMap(features, AreaRecords)| == 0 ==>
              && NoaaBinary(features, enc) == Some(EncodeHeader(0, Unbounded, enc))
              && AreaBinary(features, enc) == Some(EncodeHeader(0, ZeroBox, enc))
  {
    var records := FlatMap(features, AreaRecords);
    if |records| == 0 {
      EmptyFile(records, false, enc);
      EmptyFile(records, true, enc);
    } else {
      GuardOnlyForEmpty(records, enc);
    }
  }

  /** The points the ENC direct bounds loop visits for one feature: the
      exterior of every area entry, then every MultiLineString part of at
      least two points as it was before closing. */
  function VisitedPoints(f: Feature): seq<Point> {
    ExteriorPoints(AreaRecords(f)) + (if f.geometry.MultiLineString? then FlatMap(f.geometry.lines, LineVisit) else [])
  }

  function LineVisit(line: Ring): seq<Point> {
    if |line| < 2 then [] else line
  }

  /** The exterior points of the entries `step` builds for each input. */
  function ExteriorsOf<T>(step: T -> seq<Record>): T -> seq<Point> {
    x => ExteriorPoints(step(x))
  }

  lemma {:induction false} ExteriorPointsFlatMap<T>(s: seq<T>, step: T -> seq<Record>)
    ensures ExteriorPoints(FlatMap(s, step)) == FlatMap(s, ExteriorsOf(step))
  {
    if |s| > 0 {
      var init := s[..|s| - 1];
      ExteriorPointsFlatMap(init, step);
      ExteriorPointsAppend(FlatMap(init, step), step(s[|s| - 1]));
    }
  }

  /** Closing a part adds a copy of its first point and nothing else. */
  lemma LinePointsSame(line: Ring)
    ensures forall i :: 0 <= i < |ExteriorsOf(LineRecord)(line)| ==> ExteriorsOf(LineRecord)(line)[i] in LineVisit(line)
    ensures forall i :: 0 <= i < |LineVisit(line)| ==> LineVisit(line)[i] in ExteriorsOf(LineRecord)(line)
  {
    assert ExteriorsOf(LineRecord)(line) == ExteriorPoints(LineRecord(line));
    if |line| >= 2 {
      SingleExterior(CloseRing(line));
      ClosingKeepsPoints(line);
    } else {
      assert ExteriorPoints(LineRecord(line)) == [];
    }
  }

  lemma SingleExterior(ring: Ring)
    ensures ExteriorPoints([Record(ring, [])]) == ring
  {
    assert [Record(ring, [])][..0] == [];
  }

  /** All parts of a MultiLineString: closed or not, the same points. */
  lemma LinePartsSameMembers(lines: seq<Ring>)
    ensures var closed := FlatMap(lines, ExteriorsOf(LineRecord));
            var raw := FlatMap(lines, LineVisit);
            && (forall i :: 0 <= i < |closed| ==> closed[i] in raw)
            && (forall i :: 0 <= i < |raw| ==> raw[i] in closed)
  {
    forall k | 0 <= k < |lines|
      ensures forall i :: 0 <= i < |ExteriorsOf(LineRecord)(lines[k])| ==> ExteriorsOf(LineRecord)(lines[k])[i] in LineVisit(lines[k])
      ensures forall i :: 0 <= i < |LineVisit(lines[k])| ==> LineVisit(lines[k])[i] in ExteriorsOf(LineRecord)(lines[k])
    {
      LinePointsSame(lines[k]);
    }
    FlatMapSameMembers(lines, ExteriorsOf(LineRecord), LineVisit);
    FlatMapSameMembers(lines, LineVisit, ExteriorsOf(LineRecord));
  }

  /** A common prefix keeps two lists with the same points so. */
  lemma PrefixSameMembers(area: seq<Point>, a: seq<Point>, b: seq<Point>)
    requires forall i :: 0 <= i < |a| ==> a[i] in b
    ensures forall i :: 0 <= i < |area + a| ==> (area + a)[i] in area + b
  {
    forall i | 0 <= i < |area + a|
      ensures (area + a)[i] in area + b
    {
      if i >= |area| {
        assert (area + a)[i] == a[i - |area|];
      }
    }
  }

  /** For one feature, the entries' exteriors and the visited points are
      the same points. */
  lemma VisitedSameMembers(f: Feature)
    ensures var pts := ExteriorPoints(EncDirectRecords(f));
            && (forall i :: 0 <= i < |pts| ==> pts[i] in VisitedPoints(f))
            && (forall i :: 0 <= i < |VisitedPoints(f)| ==> VisitedPoints(f)[i] in pts)
  {
    if f.geometry.MultiLineString? {
      var area := ExteriorPoints(AreaRecords(f));
      var closed := FlatMap(f.geometry.lines, ExteriorsOf(LineRecord));
      var raw := FlatMap(f.geometry.lines, LineVisit);
      LineExteriors(f);
      LinePartsSameMembers(f.geometry.lines);
      PrefixSameMembers(area, closed, raw);
      PrefixSameMembers(area, raw, closed);
    } else {
      AreaExteriors(f);
    }
  }

  /** The exteriors of a MultiLineString feature's entries: those of its
      (absent) area entries, then those of its closed parts. */
  lemma LineExteriors(f: Feature)
    requires f.geometry.MultiLineString?
    ensures ExteriorPoints(EncDirectRecords(f))
            == ExteriorPoints(AreaRecords(f)) + FlatMap(f.geometry.lines, ExteriorsOf(LineRecord))
    ensures VisitedPoints(f) == ExteriorPoints(AreaRecords(f)) + FlatMap(f.geometry.lines, LineVisit)
  {
    ExteriorPointsAppend(AreaRecords(f), LineRecords(f));
    ExteriorPointsFlatMap(f.geometry.lines, LineRecord);
  }

  /** Any other feature visits exactly the exteriors of its entries. */
  lemma AreaExteriors(f: Feature)
    requires !f.geometry.MultiLineString?
    ensures ExteriorPoints(EncDirectRecords(f)) == VisitedPoints(f)
  {
    ExteriorPointsAppend(AreaRecords(f), LineRecords(f));
    assert ExteriorPoints(LineRecords(f)) == [];
    assert ExteriorPoints(AreaRecords(f)) + [] == ExteriorPoints(AreaRecords(f));
  }

  /** Closing the MultiLineString parts before the bounds are taken from the
      entries does not change the bounds the ENC direct tool computes from
      the parts as they were. */
  lemma EncDirectBoundsFromVisitedPoints(features: Collection)
    ensures var records := FlatMap(features, EncDirectRecords);
            |records| > 0 ==> Bounds(records, true) == Extent(FlatMap(features, VisitedPoints))
  {
    var records := FlatMap(features, EncDirectRecords);
    ExteriorPointsFlatMap(features, EncDirectRecords);
    forall k | 0 <= k < |features|
      ensures forall i :: 0 <= i < |ExteriorsOf(EncDirectRecords)(features[k])| ==> ExteriorsOf(EncDirectRecords)(features[k])[i] in VisitedPoints(features[k])
      ensures forall i :: 0 <= i < |VisitedPoints(features[k])| ==> VisitedPoints(features[k])[i] in ExteriorsOf(EncDirectRecords)(features[k])
    {
      assert ExteriorsOf(EncDirectRecords)(features[k]) == ExteriorPoints(EncDirectRecords(features[k]));
      VisitedSameMembers(features[k]);
    }
    FlatMapSameMembers(features, ExteriorsOf(EncDirectRecords), VisitedPoints);
    FlatMapSameMembers(features, VisitedPoints, ExteriorsOf(EncDirectRecords));
    ExtentSamePoints(ExteriorPoints(records), FlatMap(features, VisitedPoints));
  }
}

=== FILE: geometry.dfy ===
/**
 The shared geometry model of the coastline tools: points, rings, GeoJSON-like
 geometries and features. Every tool script builds and consumes these values
 as nested Python lists and dicts; here they are immutable datatypes.
 */
module Geometry {
  import opened Wrappers

  /** A longitude/latitude pair in degrees. */
  datatype Point = Point(lon: real, lat: real)

  /** An ordered point list: a polygon boundary or a polyline. */
  type Ring = seq<Point>

  /** A JSON value in a property bag, kept apart by kind so that a boolean
      such as `True` is not confused with the string "true". Nested arrays
      and objects are `Structured`. */
  datatype PropertyValue =
    | Text(text: string)
    | Flag(flag: bool)
    | Number(number: real)
    | Null
    | Structured

  /** The opaque property bag of a feature (provenance only). */
  type Properties = map<string, PropertyValue>

  /** The geometry member of a GeoJSON feature. `Unsupported` covers every
      other or missing `type` tag (Point, absent geometry, ...). */
  datatype Geometry =
    | Polygon(rings: seq<Ring>)
    | MultiPolygon(polygons: seq<seq<Ring>>)
    | LineString(line: Ring)
    | MultiLineString(lines: seq<Ring>)
    | GeometryCollection(members: seq<Geometry>)
    | Unsupported(kind: string)

  datatype Feature = Feature(properties: Properties, geometry: Geometry)

  /** The `features` list of a FeatureCollection. */
  type Collection = seq<Feature>

  /** The property bag the tools attach to features they create themselves. */
  const EmptyProperties: Properties := map[]

  /** Polygon or MultiPolygon: the kinds the merger and most encoders treat as area. */
  predicate IsPolygonal(g: Geometry) {
    g.Polygon? || g.MultiPolygon?
  }

  predicate IsPolygonFeature(f: Feature) {
    f.geometry.Polygon?
  }

  /** A ring is closed when its first and last points are equal. */
  predicate IsClosed(ring: Ring) {
    |ring| > 0 && ring[0] == ring[|ring| - 1]
  }

  /** Appends the first point unless the ring already ends with it
      (`if pts[0] != pts[-1]: pts.append(pts[0])`). An empty ring has no first
      point; every caller either rules that out or models the IndexError. */
  function CloseRing(ring: Ring): (r: Ring)
    requires |ring| > 0
    ensures IsClosed(r)
    ensures |ring| <= |r| && r[..|ring|] == ring
    ensures IsClosed(ring) ==> r == ring
    ensures !IsClosed(ring) ==> |r| == |ring| + 1
  {
    if ring[0] != ring[|ring| - 1] then ring + [ring[0]] else ring
  }

  /** A ring and its closed form hold the same points. */
  lemma ClosingKeepsPoints(ring: Ring)
    requires |ring| > 0
    ensures forall i :: 0 <= i < |CloseRing(ring)| ==> CloseRing(ring)[i] in ring
    ensures forall i :: 0 <= i < |ring| ==> ring[i] in CloseRing(ring)
  {
    var closed := CloseRing(ring);
    forall i | 0 <= i < |closed|
      ensures closed[i] in ring
    {
      if i >= |ring| {
        assert closed[i] == ring[0];
      } else {
        assert closed[..|ring|][i] == ring[i];
      }
    }
    forall i | 0 <= i < |ring|
      ensures ring[i] in closed
    {
      assert closed[..|ring|][i] == ring[i];
    }
  }

  /** `ix` maps every position of `sub` to a position of `s` holding the same
      value, strictly increasing: `sub` is `s` with some entries deleted. */
  ghost predicate IsEmbedding<T>(ix: seq<nat>, sub: seq<T>, s: seq<T>) {
    && |ix| == |sub|
    && (forall k :: 0 <= k < |ix| ==> ix[k] < |s| && sub[k] == s[ix[k]])
    && (forall a, b :: 0 <= a < b < |ix| ==> ix[a] < ix[b])
  }

  /** `sub` keeps some of the entries of `s`, in their order, and adds none. */
  ghost predicate IsSubsequence<T>(sub: seq<T>, s: seq<T>) {
    exists ix :: IsEmbedding(ix, sub, s)
  }

  /** Every sequence is a subsequence of itself. */
  lemma SubsequenceReflexive<T>(s: seq<T>)
    ensures IsSubsequence(s, s)
  {
    var ix := seq(|s|, k requires 0 <= k < |s| => k as nat);
    assert IsEmbedding(ix, s, s);
  }

  /** Appending an entry of `s` that sits after everything `sub` used. */
  lemma SubsequenceAppend<T>(sub: seq<T>, s: seq<T>, ix: seq<nat>, j: nat)
    requires IsEmbedding(ix, sub, s)
    requires j < |s|
    requires |ix| > 0 ==> ix[|ix| - 1] < j
    ensures IsEmbedding(ix + [j], sub + [s[j]], s)
  {
    var ix' := ix + [j];
    forall a, b | 0 <= a < b < |ix'|
      ensures ix'[a] < ix'[b]
    {
      if b == |ix| {
        assert ix'[a] == ix[a] <= ix[|ix| - 1];
      }
    }
  }

  /** The entries of `s` that satisfy `keep`, in order: a Python list
      comprehension `[x for x in s if keep(x)]`. */
  function Filter<T>(s: seq<T>, keep: T -> bool): (r: seq<T>)
    ensures |r| <= |s|
    ensures forall k :: 0 <= k < |r| ==> r[k] in s && keep(r[k])
    ensures forall k :: 0 <= k < |s| && keep(s[k]) ==> s[k] in r
  {
    if |s| == 0 then []
    else if keep(s[|s| - 1]) then Filter(s[..|s| - 1], keep) + [s[|s| - 1]]
    else Filter(s[..|s| - 1], keep)
  }

  /** Filtering keeps every accepted entry with its multiplicity and drops
      every rejected one. */
  lemma {:induction false} FilterCounts<T>(s: seq<T>, keep: T -> bool)
    ensures forall x :: multiset(Filter(s, keep))[x] == if keep(x) then multiset(s)[x] else 0
  {
    if |s| > 0 {
      var init := s[..|s| - 1];
      FilterCounts(init, keep);
      assert s == init + [s[|s| - 1]];
    }
  }

  /** Filtering keeps the order of what it keeps. */
  lemma {:induction false} FilterIsSubsequence<T>(s: seq<T>, keep: T -> bool)
    ensures IsSubsequence(Filter(s, keep), s)
  {
    if |s| == 0 {
      assert IsEmbedding([], Filter(s, keep), s);
    } else {
      var init := s[..|s| - 1];
      FilterIsSubsequence(init, keep);
      var ix :| IsEmbedding(ix, Filter(init, keep), init);
      assert IsEmbedding(ix, Filter(init, keep), s);
      if keep(s[|s| - 1]) {
        SubsequenceAppend(Filter(init, keep), s, ix, |s| - 1);
      }
    }
  }

  /** The outputs of `step` for every entry of `s`, concatenated in order: a
      loop that extends one output list per input entry. */
  function FlatMap<T, U>(s: seq<T>, step: T -> seq<U>): (r: seq<U>)
    ensures (forall k :: 0 <= k < |s| ==> |step(s[k])| <= 1) ==> |r| <= |s|
    ensures (forall k :: 0 <= k < |s| ==> |step(s[k])| == 1) ==> |r| == |s|
    ensures (forall k :: 0 <= k < |s| ==> |step(s[k])| <= 1) && (exists k :: 0 <= k < |s| && |step(s[k])| == 0) ==> |r| < |s|
  {
    if |s| == 0 then []
    else
      var init := s[..|s| - 1];
      var r := FlatMap(init, step) + step(s[|s| - 1]);
      assert forall k :: 0 <= k < |init| ==> init[k] == s[k];
      r
  }

  /** Every output entry comes from the step of some input entry. */
  lemma {:induction false} FlatMapSource<T, U>(s: seq<T>, step: T -> seq<U>, j: nat)
    requires j < |FlatMap(s, step)|
    ensures exists k :: 0 <= k < |s| && FlatMap(s, step)[j] in step(s[k])
  {
    var init := s[..|s| - 1];
    var head := FlatMap(init, step);
    if j < |head| {
      FlatMapSource(init, step, j);
      var k :| 0 <= k < |init| && head[j] in step(init[k]);
      assert init[k] == s[k];
    } else {
      assert FlatMap(s, step)[j] == step(s[|s| - 1])[j - |head|];
    }
  }

  /** Every output of the step of an input entry is an output entry. */
  lemma {:induction false} FlatMapIncludes<T, U>(s: seq<T>, step: T -> seq<U>, k: nat, i: nat)
    requires k < |s| && i < |step(s[k])|
    ensures step(s[k])[i] in FlatMap(s, step)
  {
    var init := s[..|s| - 1];
    var head := FlatMap(init, step);
    if k < |init| {
      assert init[k] == s[k];
      FlatMapIncludes(init, step, k, i);
      var j :| 0 <= j < |head| && head[j] == step(s[k])[i];
      assert FlatMap(s, step)[j] == head[j];
    } else {
      assert FlatMap(s, step)[|head| + i] == step(s[k])[i];
    }
  }

  /** The loop over `a + b` produces the output for `a`, then that for `b`. */
  lemma {:induction false} FlatMapAppend<T, U>(a: seq<T>, b: seq<T>, step: T -> seq<U>)
    ensures FlatMap(a + b, step) == FlatMap(a, step) + FlatMap(b, step)
  {
    if |b| > 0 {
      var init := b[..|b| - 1];
      FlatMapAppend(a, init, step);
      assert (a + b)[..|a + b| - 1] == a + init;
    } else {
      assert a + b == a;
    }
  }

  /** Two steps that agree on every entry build the same output. */
  lemma {:induction false} FlatMapAgree<T, U>(s: seq<T>, step: T -> seq<U>, other: T -> seq<U>)
    requires forall k :: 0 <= k < |s| ==> step(s[k]) == other(s[k])
    ensures FlatMap(s, step) == FlatMap(s, other)
  {
    if |s| > 0 {
      FlatMapAgree(s[..|s| - 1], step, other);
    }
  }

  /** Two loops whose steps output lists of the same lengths, entry by
      entry, output lists of the same length. */
  lemma {:induction false} FlatMapSameSizes<T, U, V, W>(s: seq<T>, step: T -> seq<U>, t: seq<V>, other: V -> seq<W>)
    requires |s| == |t|
    requires forall k :: 0 <= k < |s| ==> |step(s[k])| == |other(t[k])|
    ensures |FlatMap(s, step)| == |FlatMap(t, other)|
  {
    if |s| > 0 {
      FlatMapSameSizes(s[..|s| - 1], step, t[..|t| - 1], other);
    }
  }

  /** Entries whose step outputs nothing can be filtered out beforehand. */
  lemma {:induction false} FlatMapSkipsSilent<T, U>(s: seq<T>, step: T -> seq<U>, keep: T -> bool)
    requires forall k :: 0 <= k < |s| && !keep(s[k]) ==> step(s[k]) == []
    ensures FlatMap(Filter(s, keep), step) == FlatMap(s, step)
  {
    if |s| > 0 {
      var init := s[..|s| - 1];
      FlatMapSkipsSilent(init, step, keep);
      if keep(s[|s| - 1]) {
        assert Filter(s, keep)[..|Filter(s, keep)| - 1] == Filter(init, keep);
      }
    }
  }

  /** When every output of `step` occurs among the outputs of `other` for
      the same entry, every entry of the whole output occurs in the other
      whole output. */
  lemma FlatMapSameMembers<T, U>(s: seq<T>, step: T -> seq<U>, other: T -> seq<U>)
    requires forall k, i :: 0 <= k < |s| && 0 <= i < |step(s[k])| ==> step(s[k])[i] in other(s[k])
    ensures forall j :: 0 <= j < |FlatMap(s, step)| ==> FlatMap(s, step)[j] in FlatMap(s, other)
  {
    var r := FlatMap(s, step);
    forall j | 0 <= j < |r|
      ensures r[j] in FlatMap(s, other)
    {
      FlatMapSource(s, step, j);
      var k :| 0 <= k < |s| && r[j] in step(s[k]);
      var i :| 0 <= i < |step(s[k])| && step(s[k])[i] == r[j];
      var i' :| 0 <= i' < |other(s[k])| && other(s[k])[i'] == r[j];
      FlatMapIncludes(s, other, k, i');
    }
  }

  /** The same loop when a step may raise: None as soon as one entry fails,
      otherwise the concatenated outputs. */
  function Gather<T, U>(s: seq<T>, step: T -> Option<seq<U>>): (r: Option<seq<U>>)
    ensures r.Some? <==> forall k :: 0 <= k < |s| ==> step(s[k]).Some?
    ensures r.Some? && (forall k :: 0 <= k < |s| ==> |step(s[k]).value| <= 1) ==> |r.value| <= |s|
  {
    if forall k :: 0 <= k < |s| ==> step(s[k]).Some? then
      assert forall k :: 0 <= k < |s| ==> Outputs(step)(s[k]) == step(s[k]).value;
      Some(FlatMap(s, Outputs(step)))
    else None
  }

  /** The outputs of a step that may fail, with a failure counted as no
      output. */
  function Outputs<T, U>(step: T -> Option<seq<U>>): T -> seq<U> {
    x => if step(x).Some? then step(x).value else []
  }

  /** Every entry of a successful loop comes from the step of some input
      entry. */
  lemma GatherSource<T, U>(s: seq<T>, step: T -> Option<seq<U>>, j: nat)
    requires Gather(s, step).Some? && j < |Gather(s, step).value|
    ensures exists k :: 0 <= k < |s| && step(s[k]).Some? && Gather(s, step).value[j] in step(s[k]).value
  {
    FlatMapSource(s, Outputs(step), j);
    var k :| 0 <= k < |s| && Gather(s, step).value[j] in Outputs(step)(s[k]);
    assert Outputs(step)(s[k]) == step(s[k]).value;
  }

  /** Every output of a step of a successful loop is an entry of its
      result. */
  lemma GatherIncludes<T, U>(s: seq<T>, step: T -> Option<seq<U>>, k: nat, i: nat)
    requires Gather(s, step).Some? && k < |s| && i < |step(s[k]).value|
    ensures step(s[k]).value[i] in Gather(s, step).value
  {
    assert Outputs(step)(s[k]) == step(s[k]).value;
    FlatMapIncludes(s, Outputs(step), k, i);
  }

  /** Two failing-step loops whose steps agree on every entry agree. */
  lemma GatherAgree<T, U>(s: seq<T>, step: T -> Option<seq<U>>, other: T -> Option<seq<U>>)
    requires forall k :: 0 <= k < |s| ==> step(s[k]) == other(s[k])
    ensures Gather(s, step) == Gather(s, other)
  {
    if forall k :: 0 <= k < |s| ==> step(s[k]).Some? {
      FlatMapAgree(s, Outputs(step), Outputs(other));
    }
  }

  /** Entries whose step succeeds with no output can be filtered out
      beforehand. */
  lemma GatherSkipsSilent<T, U>(s: seq<T>, step: T -> Option<seq<U>>, keep: T -> bool)
    requires forall k :: 0 <= k < |s| && !keep(s[k]) ==> step(s[k]) == Some([])
    ensures Gather(Filter(s, keep), step) == Gather(s, step)
  {
    var kept := Filter(s, keep);
    var allKept := forall k :: 0 <= k < |kept| ==> step(kept[k]).Some?;
    var allInput := forall k :: 0 <= k < |s| ==> step(s[k]).Some?;
    if allKept {
      forall k | 0 <= k < |s| && keep(s[k])
        ensures step(s[k]).Some?
      {
        var j :| 0 <= j < |kept| && kept[j] == s[k];
      }
      assert allInput;
      FlatMapSkipsSilent(s, Outputs(step), keep);
    } else {
      var j :| 0 <= j < |kept| && step(kept[j]).None?;
      assert kept[j] in s;
      assert !allInput;
    }
  }

  /** A step that maps each entry to a single value builds the list of
      those values. */
  lemma {:induction false} FlatMapSingletons<T, U>(s: seq<T>, step: T -> seq<U>, t: seq<U>)
    requires |t| == |s| && forall k :: 0 <= k < |s| ==> step(s[k]) == [t[k]]
    ensures FlatMap(s, step) == t
  {
    if |s| > 0 {
      var init := s[..|s| - 1];
      assert forall k :: 0 <= k < |init| ==> step(init[k]) == [t[..|t| - 1][k]];
      FlatMapSingletons(init, step, t[..|t| - 1]);
      assert FlatMap(s, step) == FlatMap(init, step) + step(s[|s| - 1]);
      assert t == t[..|t| - 1] + [t[|t| - 1]];
    }
  }

  /** A non-empty list. */
  predicate NonEmpty<T>(s: seq<T>) {
    |s| > 0
  }

  /** A loop that adds exactly one output for each entry it keeps and
      nothing for the others builds the outputs of the kept entries, one
      each, in order. */
  lemma FlatMapOfKept<T, U>(s: seq<T>, step: T -> seq<U>, keep: T -> bool)
    requires forall k :: 0 <= k < |s| ==> if keep(s[k]) then |step(s[k])| == 1 else step(s[k]) == []
    ensures var kept := Filter(s, keep);
            && |FlatMap(s, step)| == |kept|
            && forall j :: 0 <= j < |kept| ==> FlatMap(s, step)[j] == step(kept[j])[0]
  {
    var kept := Filter(s, keep);
    FlatMapSkipsSilent(s, step, keep);
    forall j | 0 <= j < |kept|
      ensures step(kept[j]) == [step(kept[j])[0]]
    {
      var k :| 0 <= k < |s| && s[k] == kept[j];
    }
    var t := seq(|kept|, j requires 0 <= j < |kept| => step(kept[j])[0]);
    FlatMapSingletons(kept, step, t);
  }

  /** A successful loop whose step yields one output for the kept entries
      and nothing for the others builds the outputs of the kept entries,
      one each, in order. */
  lemma GatherOfKept<T, U>(s: seq<T>, step: T -> Option<seq<U>>, keep: T -> bool)
    requires forall k :: 0 <= k < |s| ==> step(s[k]).Some?
    requires forall k :: 0 <= k < |s| ==> if keep(s[k]) then |step(s[k]).value| == 1 else step(s[k]).value == []
    ensures var kept := Filter(s, keep);
            && Gather(s, step).Some? && |Gather(s, step).value| == |kept|
            && forall j :: 0 <= j < |kept| ==> step(kept[j]) == Some([Gather(s, step).value[j]])
  {
    var kept := Filter(s, keep);
    var out := Outputs(step);
    var r := FlatMap(s, out);
    assert Gather(s, step) == Some(r);
    assert |r| == |kept| && forall j :: 0 <= j < |kept| ==> r[j] == out(kept[j])[0] by {
      forall k | 0 <= k < |s|
        ensures if keep(s[k]) then |out(s[k])| == 1 else out(s[k]) == []
      {
        assert out(s[k]) == step(s[k]).value;
      }
      FlatMapOfKept(s, out, keep);
    }
    forall j | 0 <= j < |kept|
      ensures step(kept[j]) == Some([r[j]])
    {
      var k :| 0 <= k < |s| && s[k] == kept[j];
      assert keep(s[k]) && out(s[k]) == step(s[k]).value;
      assert step(s[k]).value == [step(s[k]).value[0]];
    }
  }

  /** The outputs of one step applied after another. */
  function Then<T, U, V>(first: T -> seq<U>, second: U -> seq<V>): T -> seq<V> {
    x => FlatMap(first(x), second)
  }

  /** Two nested loops flatten into one: a loop over the output of a loop
      builds what the inner loop builds for each input entry in turn. */
  lemma {:induction false} FlatMapFlatten<T, U, V>(s: seq<T>, first: T -> seq<U>, second: U -> seq<V>)
    ensures FlatMap(FlatMap(s, first), second) == FlatMap(s, Then(first, second))
  {
    if |s| > 0 {
      var init := s[..|s| - 1];
      FlatMapFlatten(init, first, second);
      FlatMapAppend(FlatMap(init, first), first(s[|s| - 1]), second);
      assert Then(first, second)(s[|s| - 1]) == FlatMap(first(s[|s| - 1]), second);
    }
  }

  /** The number of points in a list of rings. */
  function PointCount(rings: seq<Ring>): nat {
    if |rings| == 0 then 0 else |rings[0]| + PointCount(rings[1..])
  }

  /** Counting the points of two lists of rings one after the other. */
  lemma {:induction false} PointCountAppend(a: seq<Ring>, b: seq<Ring>)
    ensures PointCount(a + b) == PointCount(a) + PointCount(b)
  {
    if |a| > 0 {
      assert (a + b)[1..] == a[1..] + b;
      PointCountAppend(a[1..], b);
    } else {
      assert a + b == b;
    }
  }

  /** The smallest entry of a non-empty list (Python `min`). */
  function Min(xs: seq<real>): (m: real)
    requires |xs| > 0
    ensures forall k :: 0 <= k < |xs| ==> m <= xs[k]
    ensures exists k :: 0 <= k < |xs| && m == xs[k]
  {
    if |xs| == 1 then xs[0]
    else
      var rest := Min(xs[..|xs| - 1]);
      if xs[|xs| - 1] < rest then xs[|xs| - 1] else rest
  }

  /** The largest entry of a non-empty list (Python `max`). */
  function Max(xs: seq<real>): (m: real)
    requires |xs| > 0
    ensures forall k :: 0 <= k < |xs| ==> xs[k] <= m
    ensures exists k :: 0 <= k < |xs| && m == xs[k]
  {
    if |xs| == 1 then xs[0]
    else
      var rest := Max(xs[..|xs| - 1]);
      if xs[|xs| - 1] > rest then xs[|xs| - 1] else rest
  }

  /** The longitudes of a ring, `[p[0] for p in ring]`. */
  function Lons(ring: Ring): (r: seq<real>)
    ensures |r| == |ring| && forall k :: 0 <= k < |ring| ==> r[k] == ring[k].lon
  {
    seq(|ring|, k requires 0 <= k < |ring| => ring[k].lon)
  }

  /** The latitudes of a ring, `[p[1] for p in ring]`. */
  function Lats(ring: Ring): (r: seq<real>)
    ensures |r| == |ring| && forall k :: 0 <= k < |ring| ==> r[k] == ring[k].lat
  {
    seq(|ring|, k requires 0 <= k < |ring| => ring[k].lat)
  }
}

=== FILE: gshhg.dfy ===
/**
 `shapefile_to_geojson` of the GSHHG downloader: every polygon shape of the
 shapefile, wherever it lies, becomes one Polygon feature whose rings are the
 shape's parts, neither clipped nor closed. Its file writer is
 `Encoders.AreaBinary`.
 */
module Gshhg {
  import opened Geometry
  import opened ShapeImport

  /** The feature of one shape: its parts as the rings of a Polygon with
      empty properties, or nothing for a shape of another type. */
  function ShapeFeature(shape: Shape): (r: Collection)
    ensures |r| == 1 <==> IsPolygonShape(shape)
    ensures !IsPolygonShape(shape) ==> r == []
    ensures |r| == 1 ==>
              && r[0].properties == EmptyProperties && r[0].geometry.Polygon?
              && |r[0].geometry.rings| == |shape.parts|
  {
    if IsPolygonShape(shape) then [Feature(EmptyProperties, Polygon(Rings(shape)))] else []
  }

  /** `shapefile_to_geojson`: exactly one feature per polygon shape, in
      reading order, each a Polygon with empty properties holding that
      shape's parts; other shapes give nothing. */
  function ShapefileToGeojson(shapes: seq<Shape>): (r: Collection)
    ensures |r| <= |shapes|
    ensures var polygons := Filter(shapes, IsPolygonShape);
            && |r| == |polygons|
            && forall j :: 0 <= j < |r| ==> r[j] == Feature(EmptyProperties, Polygon(Rings(polygons[j])))
  {
    FlatMapOfKept(shapes, ShapeFeature, IsPolygonShape);
    var r := FlatMap(shapes, ShapeFeature);
    assert forall j :: 0 <= j < |r| ==> IsPolygonShape(Filter(shapes, IsPolygonShape)[j]);
    r
  }

  /** A feature of a well-formed shape holds every point of the shape
      exactly once, in order: its rings put together are the point list. */
  lemma FeatureKeepsAllPoints(shape: Shape)
    requires IsPolygonShape(shape) && WellFormed(shape)
    ensures Concat(ShapeFeature(shape)[0].geometry.rings) == shape.points
  {
    RingsConcat(shape);
  }
}

=== FILE: merge.dfy ===
/**
 The shell of `merge_land_polygons` in the ENC downloader: it unions every
 Polygon and MultiPolygon feature into one landmass and keeps the other
 features after the merged ones.

 The geometry engine is left uninterpreted. `prepare` stands for parsing a
 geometry into an engine object and repairing it when invalid; it yields
 None when parsing fails or the repaired geometry is still invalid or empty.
 `union` stands for the union of all prepared polygons; it yields a Failure
 when the engine raises. Only the partition of the input, the order of the
 output and the fallbacks are modelled.
 */
module Merge {
  import opened Wrappers
  import opened Geometry

  /** The property bag of every feature the merger creates: the single key
      `merged` holding the JSON boolean true. */
  const MergedProperties: Properties := map["merged" := Flag(true)]

  function MergedFeature(g: Geometry): (f: Feature)
    ensures f.properties == MergedProperties && f.geometry == g
    ensures f.properties.Keys == {"merged"} && f.properties["merged"] == Flag(true)
  {
    Feature(MergedProperties, g)
  }

  /** A feature the union does not touch. */
  predicate IsOther(f: Feature) {
    !IsPolygonal(f.geometry)
  }

  /** The features that are not polygons, in input order: these bypass the
      union. */
  function Others(features: Collection): (r: Collection)
    ensures forall k :: 0 <= k < |r| ==> !IsPolygonal(r[k].geometry)
  {
    Filter(features, IsOther)
  }

  /** The engine objects of the polygon features that could be prepared, in
      input order. */
  function Prepared(features: Collection, prepare: Geometry -> Option<Geometry>): (r: seq<Geometry>)
    ensures |r| <= |features|
    ensures |r| == 0 <==> forall k :: 0 <= k < |features| ==> !IsPolygonal(features[k].geometry) || prepare(features[k].geometry).None?
  {
    if |features| == 0 then []
    else
      var rest := Prepared(features[..|features| - 1], prepare);
      var g := features[|features| - 1].geometry;
      if IsPolygonal(g) && prepare(g).Some? then rest + [prepare(g).value] else rest
  }

  /** The features built from the union's result: one for a Polygon, one per
      member polygon for a MultiPolygon, one per polygonal member for a
      GeometryCollection, and none for anything else. */
  function MergedFeatures(merged: Geometry): (r: Collection)
    ensures forall k :: 0 <= k < |r| ==> r[k].properties == MergedProperties && IsPolygonal(r[k].geometry)
    ensures merged.Polygon? ==> r == [MergedFeature(merged)]
    ensures merged.MultiPolygon? ==>
              |r| == |merged.polygons| && forall k :: 0 <= k < |r| ==> r[k].geometry == Polygon(merged.polygons[k])
    ensures merged.GeometryCollection? ==>
              var kept := Filter(merged.members, IsPolygonal);
              && |r| == |kept|
              && forall k :: 0 <= k < |r| ==> r[k] == MergedFeature(kept[k])
    ensures !IsPolygonal(merged) && !merged.GeometryCollection? ==> r == []
  {
    match merged
    case Polygon(_) => [MergedFeature(merged)]
    case MultiPolygon(polygons) => seq(|polygons|, k requires 0 <= k < |polygons| => MergedFeature(Polygon(polygons[k])))
    case GeometryCollection(members) =>
      var kept := Filter(members, IsPolygonal);
      seq(|kept|, k requires 0 <= k < |kept| => MergedFeature(kept[k]))
    case _ => []
  }

  /** `merge_land_polygons`. */
  function MergeLandPolygons(features: Collection, prepare: Geometry -> Option<Geometry>,
                             union: seq<Geometry> -> Result<Geometry, string>): (r: Collection)
    ensures |Prepared(features, prepare)| == 0 ==> r == features
    ensures union(Prepared(features, prepare)).Failure? ==> r == features
    ensures |Prepared(features, prepare)| > 0 && union(Prepared(features, prepare)).Success? ==>
              var others := Others(features);
              && |others| <= |r|
              && r[|r| - |others|..] == others
              && forall k :: 0 <= k < |r| - |others| ==> r[k].properties == MergedProperties && IsPolygonal(r[k].geometry)
  {
    var polygons := Prepared(features, prepare);
    if |polygons| == 0 then features
    else
      match union(polygons)
      case Failure(_) => features
      case Success(merged) => MergedFeatures(merged) + Others(features)
  }

  /** When the union succeeds, every non-polygon feature comes through once
      per occurrence and in order, and no polygon feature of the input
      survives unmerged. */
  lemma OthersKeptInOrder(features: Collection, prepare: Geometry -> Option<Geometry>,
                          union: seq<Geometry> -> Result<Geometry, string>)
    requires |Prepared(features, prepare)| > 0 && union(Prepared(features, prepare)).Success?
    ensures var r := MergeLandPolygons(features, prepare, union);
            var merged := union(Prepared(features, prepare)).value;
            var others := Others(features);
            && |others| <= |r|
            && r[..|r| - |others|] == MergedFeatures(merged) && r[|r| - |others|..] == others
            && IsSubsequence(Others(features), features)
            && forall f :: multiset(Others(features))[f] == if IsPolygonal(f.geometry) then 0 else multiset(features)[f]
  {
    FilterIsSubsequence(features, IsOther);
    FilterCounts(features, IsOther);
  }

  /** An input without any preparable polygon, for instance one of lines
      only, comes back as it was. */
  lemma NoPolygonsUnchanged(features: Collection, prepare: Geometry -> Option<Geometry>,
                            union: seq<Geometry> -> Result<Geometry, string>)
    requires forall k :: 0 <= k < |features| ==> !IsPolygonal(features[k].geometry)
    ensures MergeLandPolygons(features, prepare, union) == features
  {
  }

  /** A union that yields a single Polygon leaves exactly one merged feature
      in front of the others. */
  lemma SinglePolygonUnion(features: Collection, prepare: Geometry -> Option<Geometry>,
                           union: seq<Geometry> -> Result<Geometry, string>)
    requires |Prepared(features, prepare)| > 0
    requires union(Prepared(features, prepare)).Success? && union(Prepared(features, prepare)).value.Polygon?
    ensures var r := MergeLandPolygons(features, prepare, union);
            |r| == 1 + |Others(features)| && r[0] == MergedFeature(union(Prepared(features, prepare)).value)
  {
  }
}

=== FILE: noaa.dfy ===
/**
 The geometry steps of the NOAA downloader: `shapes_to_geojson` turns every
 clipped shape part of at least three points into a Polygon feature of its
 own, and `simplify_geojson` keeps only Polygon features, simplifying each
 ring and falling back to the original ring when fewer than four points
 survive. Its file writer is `Encoders.NoaaBinary`.
 */
module Noaa {
  import opened Wrappers
  import opened Geometry
  import opened RingPolicy
  import opened ShapeImport
  import EncDirect

  /** The features of one shape: one single-ring Polygon per clipped part
      that keeps at least three points, with empty properties. */
  function ShapeFeatures(shape: Shape, region: BBox): (r: Collection)
    ensures !IsPolygonShape(shape) ==> r == []
    ensures IsPolygonShape(shape) ==> |r| == |ClippedRings(Rings(shape), region)|
    ensures forall j :: 0 <= j < |r| ==>
              && r[j].properties == EmptyProperties && r[j].geometry.Polygon?
              && r[j].geometry.rings == [ClippedRings(Rings(shape), region)[j]]
  {
    if !IsPolygonShape(shape) then []
    else
      var rings := ClippedRings(Rings(shape), region);
      seq(|rings|, j requires 0 <= j < |rings| => Feature(EmptyProperties, Polygon([rings[j]])))
  }

  function ShapeStep(region: BBox): Shape -> Collection {
    shape => ShapeFeatures(shape, region)
  }

  /** The kept parts of one shape, clamped and closed; none for a shape
      that is not a polygon. */
  function ShapeRings(region: BBox): Shape -> seq<Ring> {
    shape => if IsPolygonShape(shape) then ClippedRings(Rings(shape), region) else []
  }

  /** The feature made of one kept part. */
  function RingFeature(ring: Ring): Collection {
    [Feature(EmptyProperties, Polygon([ring]))]
  }

  /** `shapes_to_geojson`: one single-ring Polygon feature with empty
      properties for every kept part of every polygon shape, in reading
      order of shapes and of parts. */
  function ShapesToGeojson(shapes: seq<Shape>, region: BBox): (r: Collection)
    ensures var rings := FlatMap(shapes, ShapeRings(region));
            && |r| == |rings|
            && forall j :: 0 <= j < |r| ==> r[j] == Feature(EmptyProperties, Polygon([rings[j]]))
  {
    ImportedInPartOrder(shapes, region);
    FlatMap(shapes, ShapeStep(region))
  }

  /** The importer's loop over shapes and parts lays out one feature per
      kept part, shape after shape and part after part. */
  lemma ImportedInPartOrder(shapes: seq<Shape>, region: BBox)
    ensures var rings := FlatMap(shapes, ShapeRings(region));
            var r := FlatMap(shapes, ShapeStep(region));
            && |r| == |rings|
            && forall j :: 0 <= j < |r| ==> r[j] == Feature(EmptyProperties, Polygon([rings[j]]))
  {
    var perPart := Then(ShapeRings(region), RingFeature);
    var rings := FlatMap(shapes, ShapeRings(region));
    var t := seq(|rings|, j requires 0 <= j < |rings| => Feature(EmptyProperties, Polygon([rings[j]])));
    assert FlatMap(shapes, ShapeStep(region)) == FlatMap(shapes, perPart) by {
      forall k | 0 <= k < |shapes|
        ensures ShapeStep(region)(shapes[k]) == perPart(shapes[k])
      {
        ShapeStepIsPerPart(shapes[k], region);
      }
      FlatMapAgree(shapes, ShapeStep(region), perPart);
    }
    assert FlatMap(shapes, perPart) == FlatMap(rings, RingFeature) by {
      FlatMapFlatten(shapes, ShapeRings(region), RingFeature);
    }
    assert FlatMap(rings, RingFeature) == t by {
      FlatMapSingletons(rings, RingFeature, t);
    }
  }

  /** The features of one shape are those of its kept parts, one each. */
  lemma ShapeStepIsPerPart(shape: Shape, region: BBox)
    ensures ShapeStep(region)(shape) == Then(ShapeRings(region), RingFeature)(shape)
  {
    var parts := ShapeRings(region)(shape);
    var fs := ShapeFeatures(shape, region);
    assert ShapeStep(region)(shape) == fs;
    assert Then(ShapeRings(region), RingFeature)(shape) == FlatMap(parts, RingFeature);
    FlatMapSingletons(parts, RingFeature, fs);
  }

  /** Every imported feature is a Polygon with a single closed ring of at
      least three points, inside the region when the region is a proper box. */
  lemma ImportedRingsClosed(shapes: seq<Shape>, region: BBox, j: nat)
    requires j < |ShapesToGeojson(shapes, region)|
    ensures var f := ShapesToGeojson(shapes, region)[j];
            && f.properties == EmptyProperties && f.geometry.Polygon? && |f.geometry.rings| == 1
            && IsClosed(f.geometry.rings[0]) && |f.geometry.rings[0]| >= 3
            && (IsProper(region) ==> forall k :: 0 <= k < |f.geometry.rings[0]| ==> Contains(region, f.geometry.rings[0][k]))
  {
    var rings := FlatMap(shapes, ShapeRings(region));
    FlatMapSource(shapes, ShapeRings(region), j);
    var k :| 0 <= k < |shapes| && rings[j] in ShapeRings(region)(shapes[k]);
    assert IsPolygonShape(shapes[k]);
  }

  /** One feature of the loop: Polygons come out simplified, everything else
      is dropped; None where closing an empty ring raises. */
  function SimplifyFeature(f: Feature, tol: real): (r: Option<Collection>)
    ensures r.None? <==> f.geometry.Polygon? && exists i :: 0 <= i < |f.geometry.rings| && |f.geometry.rings[i]| == 0
    ensures !f.geometry.Polygon? ==> r == Some([])
    ensures f.geometry.Polygon? && r.Some? ==>
              && |r.value| == 1 && r.value[0].properties == f.properties
              && r.value[0].geometry == Polygon(FallbackRings(f.geometry.rings, tol).value)
  {
    if !f.geometry.Polygon? then Some([])
    else
      var closed := FallbackRings(f.geometry.rings, tol);
      if closed.None? then None else Some([Feature(f.properties, Polygon(closed.value))])
  }

  function SimplifyStep(tol: real): Feature -> Option<Collection> {
    f => SimplifyFeature(f, tol)
  }

  /** `simplify_geojson`: the input itself for a non-positive tolerance;
      otherwise the simplified Polygon features, in input order, or None when
      one of them has an empty ring. Output j is the j-th input Polygon with
      its properties and its rings under the fallback policy. */
  function SimplifyGeojson(features: Collection, tol: real): (r: Option<Collection>)
    ensures tol <= 0.0 ==> r == Some(features)
    ensures tol > 0.0 ==>
              (r.None? <==> exists k, i :: 0 <= k < |features| && features[k].geometry.Polygon?
                                           && 0 <= i < |features[k].geometry.rings| && |features[k].geometry.rings[i]| == 0)
    ensures r.Some? ==> |r.value| <= |features|
    ensures tol > 0.0 && r.Some? ==>
              var polygons := Filter(features, IsPolygonFeature);
              && |r.value| == |polygons|
              && forall j :: 0 <= j < |r.value| ==>
                   && r.value[j].properties == polygons[j].properties && r.value[j].geometry.Polygon?
                   && FallbackRings(polygons[j].geometry.rings, tol) == Some(r.value[j].geometry.rings)
  {
    if tol <= 0.0 then Some(features)
    else
      var r := Gather(features, SimplifyStep(tol));
      assert forall k :: 0 <= k < |features| ==> SimplifyStep(tol)(features[k]) == SimplifyFeature(features[k], tol);
      if r.Some? then
        GatherOfKept(features, SimplifyStep(tol), IsPolygonFeature);
        assert forall j :: 0 <= j < |r.value| ==> IsPolygonFeature(Filter(features, IsPolygonFeature)[j]);
        r
      else r
  }

  /** With a positive tolerance the result holds Polygons only, each with as
      many rings as a Polygon of the input, all of them closed. */
  lemma SimplifiedArePolygons(features: Collection, tol: real, j: nat)
    requires tol > 0.0
    requires SimplifyGeojson(features, tol).Some? && j < |SimplifyGeojson(features, tol).value|
    ensures var g := SimplifyGeojson(features, tol).value[j].geometry;
            && g.Polygon?
            && (forall i :: 0 <= i < |g.rings| ==> IsClosed(g.rings[i]))
            && exists k :: 0 <= k < |features| && features[k].geometry.Polygon? && |features[k].geometry.rings| == |g.rings|
  {
    var out := SimplifyGeojson(features, tol).value;
    GatherSource(features, SimplifyStep(tol), j);
    var k :| 0 <= k < |features| && SimplifyStep(tol)(features[k]).Some? && out[j] in SimplifyStep(tol)(features[k]).value;
    assert SimplifyStep(tol)(features[k]) == SimplifyFeature(features[k], tol);
    assert out[j] == SimplifyFeature(features[k], tol).value[0];
  }

  /** The NOAA simplifier is the ENC direct one run on the Polygon features
      alone: both treat a Polygon the same way, and NOAA drops the rest. */
  lemma SameAsEncDirectOnPolygons(features: Collection, tol: real)
    requires tol > 0.0
    ensures SimplifyGeojson(features, tol) == EncDirect.SimplifyGeojson(Filter(features, IsPolygonFeature), tol)
  {
    forall k | 0 <= k < |features| && !IsPolygonFeature(features[k])
      ensures SimplifyStep(tol)(features[k]) == Some([])
    {
    }
    GatherSkipsSilent(features, SimplifyStep(tol), IsPolygonFeature);
    var polygons := Filter(features, IsPolygonFeature);
    forall k | 0 <= k < |polygons|
      ensures SimplifyStep(tol)(polygons[k]) == EncDirect.SimplifyStep(tol)(polygons[k])
    {
      assert IsPolygonFeature(polygons[k]);
    }
    GatherAgree(polygons, SimplifyStep(tol), EncDirect.SimplifyStep(tol));
    assert forall k :: 0 <= k < |features| ==> SimplifyStep(tol)(features[k]) == SimplifyFeature(features[k], tol);
    assert forall k :: 0 <= k < |polygons| ==>
             EncDirect.SimplifyStep(tol)(polygons[k]) == EncDirect.SimplifyFeature(polygons[k], tol);
  }
}

=== FILE: nvtl.dfy ===
/**
 The NVTL binary coastline format written by every tool's
 `geojson_to_binary`, all integers little-endian:

   magic "NVTL" (4 bytes) | version u16 = 1 | polygon count u32 |
   min lon, min lat, max lon, max lat as float64   -- 42 bytes in all
   per polygon: exterior point count u32 | hole count u32 |
                exterior points (lon, lat float64 each) |
                per hole: point count u32 | its points

 The float64 encoding (`struct.pack('<d', x)`) is a parameter of the model:
 any function from doubles to 8 bytes. The bounds start at +inf/-inf, so a
 double is a real or one of the two infinities.
 */
module Nvtl {
  import opened Wrappers
  import opened Geometry

  type Byte = b: int | 0 <= b < 256

  /** Eight bytes: one packed float64. */
  type F64 = s: seq<Byte> | |s| == 8 witness [0, 0, 0, 0, 0, 0, 0, 0]

  /** The values the encoder packs as float64. */
  datatype Double = Finite(value: real) | PosInf | NegInf

  /** `struct.pack('<d', _)`. */
  type Float64Encoder = Double -> F64

  /** `struct.pack('<I', n)` raises for n at or above this bound. */
  const Two32: nat := 0x1_0000_0000

  /** The bytes of "NVTL". */
  const Magic: seq<Byte> := [0x4E, 0x56, 0x54, 0x4C]
  const FormatVersion: nat := 1
  /** Magic, version, count and four bounds. */
  const HeaderSize: nat := 42

  /** `struct.pack('<H', n)`. */
  function U16(n: nat): (r: seq<Byte>)
    requires n < 0x1_0000
    ensures |r| == 2
  {
    [n % 256, n / 256]
  }

  function DecodeU16(b: seq<Byte>): (n: nat)
    requires |b| == 2
    ensures n < 0x1_0000
  {
    b[0] as int + 256 * b[1] as int
  }

  /** `struct.pack('<I', n)`. */
  function U32(n: nat): (r: seq<Byte>)
    requires n < Two32
    ensures |r| == 4
  {
    [n % 256, (n / 0x100) % 256, (n / 0x1_0000) % 256, n / 0x100_0000]
  }

  function DecodeU32(b: seq<Byte>): (n: nat)
    requires |b| == 4
    ensures n < Two32
  {
    b[0] as int + 0x100 * b[1] as int + 0x1_0000 * b[2] as int + 0x100_0000 * b[3] as int
  }

  /** Reading back a packed u16 gives the number packed. */
  lemma U16RoundTrip(n: nat)
    requires n < 0x1_0000
    ensures DecodeU16(U16(n)) == n
  {
  }

  /** Reading back a packed u32 gives the number packed. */
  lemma U32RoundTrip(n: nat)
    requires n < Two32
    ensures DecodeU32(U32(n)) == n
  {
    var q1 := n / 0x100;
    var q2 := q1 / 0x100;
    var q3 := q2 / 0x100;
    assert n == n % 256 + 0x100 * q1;
    assert q1 == q1 % 256 + 0x100 * q2;
    assert q2 == q2 % 256 + 0x100 * q3;
    assert q2 == n / 0x1_0000;
    assert q3 == n / 0x100_0000;
  }

  /** Every 4 bytes are the packing of the number they decode to: the u32
      field is a bijection between numbers below 2^32 and 4-byte strings. */
  lemma U32Surjective(b: seq<Byte>)
    requires |b| == 4
    ensures U32(DecodeU32(b)) == b
  {
    var n := DecodeU32(b);
    assert n / 0x100 == b[1] as int + 0x100 * b[2] as int + 0x1_0000 * b[3] as int;
    assert n / 0x1_0000 == b[2] as int + 0x100 * b[3] as int;
    assert n / 0x100_0000 == b[3];
  }

  /** One `(exterior, interiors)` entry of the tools' `polygons` list. */
  datatype Record = Record(exterior: Ring, interiors: seq<Ring>)

  /** Every count the record writes fits a u32 field. */
  predicate RecordFits(rec: Record) {
    && |rec.exterior| < Two32
    && |rec.interiors| < Two32
    && forall h :: 0 <= h < |rec.interiors| ==> |rec.interiors[h]| < Two32
  }

  /** Every count the file writes fits a u32 field. */
  predicate Fits(records: seq<Record>) {
    |records| < Two32 && forall k :: 0 <= k < |records| ==> RecordFits(records[k])
  }

  /** The bounds fields: min lon, min lat, max lon, max lat. */
  datatype Box = Box(minLon: Double, minLat: Double, maxLon: Double, maxLat: Double)

  /** The initial bounds, (+inf, +inf, -inf, -inf). */
  const Unbounded := Box(PosInf, PosInf, NegInf, NegInf)

  /** The bounds written for an empty file by the tools that guard it. */
  const ZeroBox := Box(Finite(0.0), Finite(0.0), Finite(0.0), Finite(0.0))

  /** Python `min(a, x)` for a bound `a` and a coordinate `x`. */
  function Lower(a: Double, x: real): (r: Double)
    ensures a.PosInf? ==> r == Finite(x)
    ensures a.Finite? ==> r.Finite? && r.value <= a.value && r.value <= x && (r.value == a.value || r.value == x)
    ensures a.NegInf? ==> r == NegInf
  {
    match a
    case PosInf => Finite(x)
    case NegInf => NegInf
    case Finite(v) => if x < v then Finite(x) else Finite(v)
  }

  /** Python `max(a, x)` for a bound `a` and a coordinate `x`. */
  function Upper(a: Double, x: real): (r: Double)
    ensures a.NegInf? ==> r == Finite(x)
    ensures a.Finite? ==> r.Finite? && a.value <= r.value && x <= r.value && (r.value == a.value || r.value == x)
    ensures a.PosInf? ==> r == PosInf
  {
    match a
    case NegInf => Finite(x)
    case PosInf => PosInf
    case Finite(v) => if x > v then Finite(x) else Finite(v)
  }

  /** The four running bounds after one more exterior point. */
  function Widen(box: Box, p: Point): Box {
    Box(Lower(box.minLon, p.lon), Lower(box.minLat, p.lat), Upper(box.maxLon, p.lon), Upper(box.maxLat, p.lat))
  }

  /** The bounds loop over a list of points, starting from (+inf, +inf,
      -inf, -inf): the box of the points, or the start when there are none. */
  function Extent(pts: seq<Point>): (box: Box)
    ensures |pts| == 0 ==> box == Unbounded
    ensures |pts| > 0 ==>
              && box.minLon.Finite? && box.minLat.Finite? && box.maxLon.Finite? && box.maxLat.Finite?
              && (forall k :: 0 <= k < |pts| ==> box.minLon.value <= pts[k].lon <= box.maxLon.value)
              && (forall k :: 0 <= k < |pts| ==> box.minLat.value <= pts[k].lat <= box.maxLat.value)
              && (exists k :: 0 <= k < |pts| && box.minLon.value == pts[k].lon)
              && (exists k :: 0 <= k < |pts| && box.minLat.value == pts[k].lat)
              && (exists k :: 0 <= k < |pts| && box.maxLon.value == pts[k].lon)
              && (exists k :: 0 <= k < |pts| && box.maxLat.value == pts[k].lat)
  {
    if |pts| == 0 then Unbounded
    else
      var prev := Extent(pts[..|pts| - 1]);
      var box := Widen(prev, pts[|pts| - 1]);
      ExtentStep(pts, prev, box);
      box
  }

  /** The inductive step of `Extent`: widening by the last point keeps the
      bounds tight. */
  lemma ExtentStep(pts: seq<Point>, prev: Box, box: Box)
    requires |pts| > 0
    requires box == Widen(prev, pts[|pts| - 1])
    requires |pts| == 1 ==> prev == Unbounded
    requires |pts| > 1 ==>
              && prev.minLon.Finite? && prev.minLat.Finite? && prev.maxLon.Finite? && prev.maxLat.Finite?
              && (forall k :: 0 <= k < |pts| - 1 ==> prev.minLon.value <= pts[k].lon <= prev.maxLon.value)
              && (forall k :: 0 <= k < |pts| - 1 ==> prev.minLat.value <= pts[k].lat <= prev.maxLat.value)
              && (exists k :: 0 <= k < |pts| - 1 && prev.minLon.value == pts[k].lon)
              && (exists k :: 0 <= k < |pts| - 1 && prev.minLat.value == pts[k].lat)
              && (exists k :: 0 <= k < |pts| - 1 && prev.maxLon.value == pts[k].lon)
              && (exists k :: 0 <= k < |pts| - 1 && prev.maxLat.value == pts[k].lat)
    ensures && box.minLon.Finite? && box.minLat.Finite? && box.maxLon.Finite? && box.maxLat.Finite?
            && (forall k :: 0 <= k < |pts| ==> box.minLon.value <= pts[k].lon <= box.maxLon.value)
            && (forall k :: 0 <= k < |pts| ==> box.minLat.value <= pts[k].lat <= box.maxLat.value)
            && (exists k :: 0 <= k < |pts| && box.minLon.value == pts[k].lon)
            && (exists k :: 0 <= k < |pts| && box.minLat.value == pts[k].lat)
            && (exists k :: 0 <= k < |pts| && box.maxLon.value == pts[k].lon)
            && (exists k :: 0 <= k < |pts| && box.maxLat.value == pts[k].lat)
  {
    var last := |pts| - 1;
    if |pts| > 1 {
      var a :| 0 <= a < last && prev.minLon.value == pts[a].lon;
      var b :| 0 <= b < last && prev.minLat.value == pts[b].lat;
      var c :| 0 <= c < last && prev.maxLon.value == pts[c].lon;
      var d :| 0 <= d < last && prev.maxLat.value == pts[d].lat;
      assert box.minLon.value == pts[if box.minLon.value == pts[last].lon then last else a].lon;
      assert box.minLat.value == pts[if box.minLat.value == pts[last].lat then last else b].lat;
      assert box.maxLon.value == pts[if box.maxLon.value == pts[last].lon then last else c].lon;
      assert box.maxLat.value == pts[if box.maxLat.value == pts[last].lat then last else d].lat;
    }
  }

  /** The exterior points of all records, in file order: the points the
      bounds loop visits. */
  function ExteriorPoints(records: seq<Record>): (pts: seq<Point>)
    ensures forall k, i :: 0 <= k < |records| && 0 <= i < |records[k].exterior| ==> records[k].exterior[i] in pts
    ensures forall p :: p in pts ==> exists k :: 0 <= k < |records| && p in records[k].exterior
  {
    if |records| == 0 then []
    else
      var pts := ExteriorPoints(records[..|records| - 1]) + records[|records| - 1].exterior;
      assert forall k :: 0 <= k < |records| - 1 ==> records[..|records| - 1][k] == records[k];
      pts
  }

  /** The exterior points of two record lists, one after the other. */
  lemma {:induction false} ExteriorPointsAppend(a: seq<Record>, b: seq<Record>)
    ensures ExteriorPoints(a + b) == ExteriorPoints(a) + ExteriorPoints(b)
  {
    if |b| > 0 {
      var init := b[..|b| - 1];
      ExteriorPointsAppend(a, init);
      assert (a + b)[..|a + b| - 1] == a + init;
    } else {
      assert a + b == a;
    }
  }

  /** The bounds field values. Tools that guard the empty case write zeros
      when no polygon is emitted; without the guard the start values
      (+inf, +inf, -inf, -inf) are written. */
  function Bounds(records: seq<Record>, zeroWhenEmpty: bool): (box: Box)
    ensures |records| == 0 ==> box == if zeroWhenEmpty then ZeroBox else Unbounded
  {
    if zeroWhenEmpty && |records| == 0 then ZeroBox else Extent(ExteriorPoints(records))
  }

  /** Holes never move the bounds: files whose polygons have the same
      exteriors get the same bounds fields. */
  lemma {:induction false} BoundsIgnoreHoles(records: seq<Record>, others: seq<Record>, zeroWhenEmpty: bool)
    requires |records| == |others|
    requires forall k :: 0 <= k < |records| ==> records[k].exterior == others[k].exterior
    ensures Bounds(records, zeroWhenEmpty) == Bounds(others, zeroWhenEmpty)
  {
    SameExteriorPoints(records, others);
  }

  lemma {:induction false} SameExteriorPoints(records: seq<Record>, others: seq<Record>)
    requires |records| == |others|
    requires forall k :: 0 <= k < |records| ==> records[k].exterior == others[k].exterior
    ensures ExteriorPoints(records) == ExteriorPoints(others)
  {
    if |records| > 0 {
      SameExteriorPoints(records[..|records| - 1], others[..|others| - 1]);
    }
  }

  /** The bounds loop only sees which points there are: lists with the same
      points, in any order and with any repetition, give the same bounds. */
  lemma ExtentSamePoints(a: seq<Point>, b: seq<Point>)
    requires forall k :: 0 <= k < |a| ==> a[k] in b
    requires forall k :: 0 <= k < |b| ==> b[k] in a
    ensures Extent(a) == Extent(b)
  {
    if |a| > 0 && |b| > 0 {
      ExtentSameLons(a, b);
      ExtentSameLats(a, b);
    }
  }

  lemma ExtentSameLons(a: seq<Point>, b: seq<Point>)
    requires |a| > 0 && |b| > 0
    requires forall k :: 0 <= k < |a| ==> a[k] in b
    requires forall k :: 0 <= k < |b| ==> b[k] in a
    ensures Extent(a).minLon == Extent(b).minLon && Extent(a).maxLon == Extent(b).maxLon
  {
    ExtentCovers(a, b);
    ExtentCovers(b, a);
  }

  lemma ExtentSameLats(a: seq<Point>, b: seq<Point>)
    requires |a| > 0 && |b| > 0
    requires forall k :: 0 <= k < |a| ==> a[k] in b
    requires forall k :: 0 <= k < |b| ==> b[k] in a
    ensures Extent(a).minLat == Extent(b).minLat && Extent(a).maxLat == Extent(b).maxLat
  {
    ExtentCovers(a, b);
    ExtentCovers(b, a);
  }

  /** The box of `b` holds every point of a list whose points all occur in
      `b`. */
  lemma ExtentCovers(a: seq<Point>, b: seq<Point>)
    requires |b| > 0
    requires forall k :: 0 <= k < |a| ==> a[k] in b
    ensures forall k :: 0 <= k < |a| ==>
              && Extent(b).minLon.value <= a[k].lon <= Extent(b).maxLon.value
              && Extent(b).minLat.value <= a[k].lat <= Extent(b).maxLat.value
  {
    forall k | 0 <= k < |a|
      ensures Extent(b).minLon.value <= a[k].lon <= Extent(b).maxLon.value
      ensures Extent(b).minLat.value <= a[k].lat <= Extent(b).maxLat.value
    {
      var i :| 0 <= i < |b| && b[i] == a[k];
    }
  }

  /** Once some polygon has an exterior point, the bounds are the tight box
      around all exterior points, whatever the empty-case guard. */
  lemma BoundsAreTight(records: seq<Record>, zeroWhenEmpty: bool, k: nat, i: nat)
    requires k < |records| && i < |records[k].exterior|
    ensures var box := Bounds(records, zeroWhenEmpty);
            var p := records[k].exterior[i];
            && box.minLon.Finite? && box.minLat.Finite? && box.maxLon.Finite? && box.maxLat.Finite?
            && box.minLon.value <= p.lon <= box.maxLon.value
            && box.minLat.value <= p.lat <= box.maxLat.value
  {
    var pts := ExteriorPoints(records);
    var p := records[k].exterior[i];
    assert p in pts;
    var j :| 0 <= j < |pts| && pts[j] == p;
  }

  function EncodePoint(p: Point, enc: Float64Encoder): (r: seq<Byte>)
    ensures |r| == 16
  {
    enc(Finite(p.lon)) + enc(Finite(p.lat))
  }

  /** The coordinate pairs of a ring. */
  function EncodePoints(pts: Ring, enc: Float64Encoder): (r: seq<Byte>)
    ensures |r| == 16 * |pts|
  {
    if |pts| == 0 then [] else EncodePoint(pts[0], enc) + EncodePoints(pts[1..], enc)
  }

  /** Bytes of the hole section: a count and the points, per hole. */
  function HolesSize(holes: seq<Ring>): nat {
    if |holes| == 0 then 0 else 4 + 16 * |holes[0]| + HolesSize(holes[1..])
  }

  /** Bytes of one polygon entry: 8 + 16 E + the hole section. */
  function RecordSize(rec: Record): nat {
    8 + 16 * |rec.exterior| + HolesSize(rec.interiors)
  }

  /** Bytes of all polygon entries. */
  function RecordsSize(records: seq<Record>): nat {
    if |records| == 0 then 0 else RecordSize(records[0]) + RecordsSize(records[1..])
  }

  function EncodeHoles(holes: seq<Ring>, enc: Float64Encoder): (r: seq<Byte>)
    requires forall h :: 0 <= h < |holes| ==> |holes[h]| < Two32
    ensures |r| == HolesSize(holes)
  {
    if |holes| == 0 then []
    else U32(|holes[0]|) + EncodePoints(holes[0], enc) + EncodeHoles(holes[1..], enc)
  }

  function EncodeRecord(rec: Record, enc: Float64Encoder): (r: seq<Byte>)
    requires RecordFits(rec)
    ensures |r| == RecordSize(rec)
  {
    U32(|rec.exterior|) + U32(|rec.interiors|) + EncodePoints(rec.exterior, enc) + EncodeHoles(rec.interiors, enc)
  }

  function EncodeRecords(records: seq<Record>, enc: Float64Encoder): (r: seq<Byte>)
    requires forall k :: 0 <= k < |records| ==> RecordFits(records[k])
    ensures |r| == RecordsSize(records)
  {
    if |records| == 0 then [] else EncodeRecord(records[0], enc) + EncodeRecords(records[1..], enc)
  }

  function EncodeHeader(count: nat, box: Box, enc: Float64Encoder): (r: seq<Byte>)
    requires count < Two32
    ensures |r| == HeaderSize
    ensures r[..4] == Magic
  {
    Magic + U16(FormatVersion) + U32(count)
      + enc(box.minLon) + enc(box.minLat) + enc(box.maxLon) + enc(box.maxLat)
  }

  /** The byte string `geojson_to_binary` builds from its `polygons` list,
      or None where `struct.pack('<I', _)` would raise on a count of 2^32 or
      more. */
  function Encode(records: seq<Record>, zeroWhenEmpty: bool, enc: Float64Encoder): (r: Option<seq<Byte>>)
    ensures r.Some? <==> Fits(records)
    ensures r.Some? ==> |r.value| == HeaderSize + RecordsSize(records)
    ensures r.Some? ==> r.value[..4] == Magic
  {
    if !Fits(records) then None
    else
      var header := EncodeHeader(|records|, Bounds(records, zeroWhenEmpty), enc);
      var body := EncodeRecords(records, enc);
      assert (header + body)[..4] == header[..4];
      Some(header + body)
  }

  /** A file without polygons is the header alone, with zero bounds or the
      loop's start values depending on the guard. */
  lemma EmptyFile(records: seq<Record>, zeroWhenEmpty: bool, enc: Float64Encoder)
    requires |records| == 0
    ensures Encode(records, zeroWhenEmpty, enc) == Some(EncodeHeader(0, if zeroWhenEmpty then ZeroBox else Unbounded, enc))
  {
    var header := EncodeHeader(0, Bounds(records, zeroWhenEmpty), enc);
    assert Fits(records);
    assert header + EncodeRecords(records, enc) == header;
  }

  /** The empty-case guard changes nothing once there is a polygon. */
  lemma GuardOnlyForEmpty(records: seq<Record>, enc: Float64Encoder)
    requires |records| > 0
    ensures Encode(records, true, enc) == Encode(records, false, enc)
  {
    assert Bounds(records, true) == Bounds(records, false);
  }

  /** The hole section: a count field and the points, per hole. */
  lemma {:induction false} HolesSizeCount(holes: seq<Ring>)
    ensures HolesSize(holes) == 4 * |holes| + 16 * PointCount(holes)
  {
    if |holes| > 0 {
      HolesSizeCount(holes[1..]);
    }
  }

  /** The entries of two lists of polygons, written one after the other. */
  lemma {:induction false} RecordsSizeAppend(a: seq<Record>, b: seq<Record>)
    ensures RecordsSize(a + b) == RecordsSize(a) + RecordsSize(b)
  {
    if |a| > 0 {
      RecordsSizeAppend(a[1..], b);
      assert (a + b)[1..] == a[1..] + b;
    } else {
      assert a + b == b;
    }
  }

  /** The file size in closed form: 42 bytes of header, then per polygon
      8 + 16 E bytes plus 4 + 16 H bytes per hole. */
  lemma {:induction false} SizeFormula(records: seq<Record>)
    ensures RecordsSize(records) == 8 * |records| + 16 * |ExteriorPoints(records)| + HolesSizeAll(records)
  {
    if |records| > 0 {
      SizeFormula(records[1..]);
      ExteriorPointsCons(records);
    }
  }

  /** The hole sections of all records together. */
  function HolesSizeAll(records: seq<Record>): nat {
    if |records| == 0 then 0 else HolesSize(records[0].interiors) + HolesSizeAll(records[1..])
  }

  /** `ExteriorPoints` read from the front. */
  lemma {:induction false} ExteriorPointsCons(records: seq<Record>)
    requires |records| > 0
    ensures ExteriorPoints(records) == records[0].exterior + ExteriorPoints(records[1..])
    decreases |records|
  {
    if |records| > 1 {
      var init := records[..|records| - 1];
      ExteriorPointsCons(init);
      assert init[1..] == records[1..][..|records[1..]| - 1];
    } else {
      assert records[1..] == [];
    }
  }

  // ---------------------------------------------------------------------
  // A reference reader for the format, used to state that the writer's
  // framing is unambiguous.

  /** A point as read back: its two packed coordinates. */
  datatype PointImage = PointImage(lon: F64, lat: F64)

  datatype RecordImage = RecordImage(exterior: seq<PointImage>, interiors: seq<seq<PointImage>>)

  /** A whole file as read back. */
  datatype Image = Image(count: nat, bounds: seq<F64>, polygons: seq<RecordImage>)

  function ReadU32(s: seq<Byte>): Option<(nat, seq<Byte>)> {
    if |s| < 4 then None else Some((DecodeU32(s[..4]), s[4..]))
  }

  function ReadPoints(s: seq<Byte>, n: nat): Option<(seq<PointImage>, seq<Byte>)> {
    if n == 0 then Some(([], s))
    else if |s| < 16 then None
    else
      match ReadPoints(s[16..], n - 1)
      case None => None
      case Some((pts, rest)) => Some(([PointImage(s[..8], s[8..16])] + pts, rest))
  }

  function ReadHoles(s: seq<Byte>, n: nat): Option<(seq<seq<PointImage>>, seq<Byte>)>
    decreases n
  {
    if n == 0 then Some(([], s))
    else
      match ReadU32(s)
      case None => None
      case Some((len, s1)) =>
        match ReadPoints(s1, len)
        case None => None
        case Some((hole, s2)) =>
          match ReadHoles(s2, n - 1)
          case None => None
          case Some((holes, rest)) => Some(([hole] + holes, rest))
  }

  function ReadRecord(s: seq<Byte>): Option<(RecordImage, seq<Byte>)> {
    match ReadU32(s)
    case None => None
    case Some((e, s1)) =>
      match ReadU32(s1)
      case None => None
      case Some((h, s2)) =>
        match ReadPoints(s2, e)
        case None => None
        case Some((ext, s3)) =>
          match ReadHoles(s3, h)
          case None => None
          case Some((holes, rest)) => Some((RecordImage(ext, holes), rest))
  }

  function ReadRecords(s: seq<Byte>, n: nat): Option<(seq<RecordImage>, seq<Byte>)>
    decreases n
  {
    if n == 0 then Some(([], s))
    else
      match ReadRecord(s)
      case None => None
      case Some((rec, s1)) =>
        match ReadRecords(s1, n - 1)
        case None => None
        case Some((recs, rest)) => Some(([rec] + recs, rest))
  }

  /** Reads a whole file: the header, exactly `count` polygon entries, and
      nothing after them. */
  function Read(s: seq<Byte>): Option<Image> {
    if |s| < HeaderSize || s[..4] != Magic || DecodeU16(s[4..6]) != FormatVersion then None
    else
      var count := DecodeU32(s[6..10]);
      var bounds: seq<F64> := [s[10..18], s[18..26], s[26..34], s[34..42]];
      match ReadRecords(s[42..], count)
      case None => None
      case Some((polygons, rest)) => if |rest| == 0 then Some(Image(count, bounds, polygons)) else None
  }

  /** What the reader should see for a list of points. */
  function PointImages(pts: Ring, enc: Float64Encoder): (r: seq<PointImage>)
    ensures |r| == |pts|
  {
    seq(|pts|, k requires 0 <= k < |pts| => PointImage(enc(Finite(pts[k].lon)), enc(Finite(pts[k].lat))))
  }

  function HoleImages(holes: seq<Ring>, enc: Float64Encoder): (r: seq<seq<PointImage>>)
    ensures |r| == |holes| && forall h :: 0 <= h < |holes| ==> r[h] == PointImages(holes[h], enc)
  {
    if |holes| == 0 then [] else [PointImages(holes[0], enc)] + HoleImages(holes[1..], enc)
  }

  function RecordImageOf(rec: Record, enc: Float64Encoder): RecordImage {
    RecordImage(PointImages(rec.exterior, enc), HoleImages(rec.interiors, enc))
  }

  function RecordImages(records: seq<Record>, enc: Float64Encoder): (r: seq<RecordImage>)
    ensures |r| == |records| && forall k :: 0 <= k < |records| ==> r[k] == RecordImageOf(records[k], enc)
  {
    if |records| == 0 then [] else [RecordImageOf(records[0], enc)] + RecordImages(records[1..], enc)
  }

  /** What the reader should see for a file. */
  function ImageOf(records: seq<Record>, box: Box, enc: Float64Encoder): Image {
    Image(|records|, [enc(box.minLon), enc(box.minLat), enc(box.maxLon), enc(box.maxLat)], RecordImages(records, enc))
  }

  lemma ReadU32RoundTrip(n: nat, rest: seq<Byte>)
    requires n < Two32
    ensures ReadU32(U32(n) + rest) == Some((n, rest))
  {
    var s := U32(n) + rest;
    assert s[..4] == U32(n);
    assert s[4..] == rest;
    U32RoundTrip(n);
  }

  lemma {:induction false} ReadPointsRoundTrip(pts: Ring, rest: seq<Byte>, enc: Float64Encoder)
    ensures ReadPoints(EncodePoints(pts, enc) + rest, |pts|) == Some((PointImages(pts, enc), rest))
  {
    if |pts| > 0 {
      var s := EncodePoints(pts, enc) + rest;
      var tail := EncodePoints(pts[1..], enc) + rest;
      assert s == enc(Finite(pts[0].lon)) + enc(Finite(pts[0].lat)) + tail;
      assert s[..8] == enc(Finite(pts[0].lon));
      assert s[8..16] == enc(Finite(pts[0].lat));
      assert s[16..] == tail;
      ReadPointsRoundTrip(pts[1..], rest, enc);
      assert PointImages(pts, enc) == [PointImage(s[..8], s[8..16])] + PointImages(pts[1..], enc);
    } else {
      assert EncodePoints(pts, enc) + rest == rest;
    }
  }

  lemma {:induction false} ReadHolesRoundTrip(holes: seq<Ring>, rest: seq<Byte>, enc: Float64Encoder)
    requires forall h :: 0 <= h < |holes| ==> |holes[h]| < Two32
    ensures ReadHoles(EncodeHoles(holes, enc) + rest, |holes|) == Some((HoleImages(holes, enc), rest))
  {
    if |holes| > 0 {
      ReadHolesRoundTrip(holes[1..], rest, enc);
      ReadHoleStep(holes, rest, enc);
    } else {
      assert EncodeHoles(holes, enc) + rest == rest;
    }
  }

  /** Reading the first hole back, given that the others read back. */
  lemma ReadHoleStep(holes: seq<Ring>, rest: seq<Byte>, enc: Float64Encoder)
    requires |holes| > 0
    requires forall h :: 0 <= h < |holes| ==> |holes[h]| < Two32
    requires ReadHoles(EncodeHoles(holes[1..], enc) + rest, |holes| - 1) == Some((HoleImages(holes[1..], enc), rest))
    ensures ReadHoles(EncodeHoles(holes, enc) + rest, |holes|) == Some((HoleImages(holes, enc), rest))
  {
    var tail := EncodeHoles(holes[1..], enc) + rest;
    var s1 := EncodePoints(holes[0], enc) + tail;
    HolesFront(holes, rest, enc);
    ReadU32RoundTrip(|holes[0]|, s1);
    ReadPointsRoundTrip(holes[0], tail, enc);
  }

  /** The hole section followed by more bytes, split after the first
      hole's count field. */
  lemma HolesFront(holes: seq<Ring>, rest: seq<Byte>, enc: Float64Encoder)
    requires |holes| > 0
    requires forall h :: 0 <= h < |holes| ==> |holes[h]| < Two32
    ensures EncodeHoles(holes, enc) + rest
            == U32(|holes[0]|) + (EncodePoints(holes[0], enc) + (EncodeHoles(holes[1..], enc) + rest))
  {
  }

  lemma ReadRecordRoundTrip(rec: Record, rest: seq<Byte>, enc: Float64Encoder)
    requires RecordFits(rec)
    ensures ReadRecord(EncodeRecord(rec, enc) + rest) == Some((RecordImageOf(rec, enc), rest))
  {
    var s3 := EncodeHoles(rec.interiors, enc) + rest;
    var s2 := EncodePoints(rec.exterior, enc) + s3;
    var s1 := U32(|rec.interiors|) + s2;
    assert EncodeRecord(rec, enc) + rest == U32(|rec.exterior|) + s1;
    ReadU32RoundTrip(|rec.exterior|, s1);
    ReadU32RoundTrip(|rec.interiors|, s2);
    ReadPointsRoundTrip(rec.exterior, s3, enc);
    ReadHolesRoundTrip(rec.interiors, rest, enc);
  }

  lemma {:induction false} ReadRecordsRoundTrip(records: seq<Record>, rest: seq<Byte>, enc: Float64Encoder)
    requires forall k :: 0 <= k < |records| ==> RecordFits(records[k])
    ensures ReadRecords(EncodeRecords(records, enc) + rest, |records|) == Some((RecordImages(records, enc), rest))
  {
    if |records| > 0 {
      var tail := EncodeRecords(records[1..], enc) + rest;
      assert EncodeRecords(records, enc) + rest == EncodeRecord(records[0], enc) + tail;
      ReadRecordRoundTrip(records[0], tail, enc);
      ReadRecordsRoundTrip(records[1..], rest, enc);
    } else {
      assert EncodeRecords(records, enc) + rest == rest;
    }
  }

  /** The round trip for any file the writer produces. */
  lemma EncodedReadsBack(records: seq<Record>, zeroWhenEmpty: bool, enc: Float64Encoder)
    ensures Encode(records, zeroWhenEmpty, enc).Some? ==>
              Read(Encode(records, zeroWhenEmpty, enc).value) == Some(ImageOf(records, Bounds(records, zeroWhenEmpty), enc))
  {
    if Fits(records) {
      EncodeReadRoundTrip(records, zeroWhenEmpty, enc);
    }
  }

  /** The reader recovers from every encoded file the polygon count, the
      four packed bounds and, polygon by polygon and in order, every ring
      with its packed coordinates: the layout is unambiguous and nothing is
      lost or reordered. */
  lemma EncodeReadRoundTrip(records: seq<Record>, zeroWhenEmpty: bool, enc: Float64Encoder)
    requires Fits(records)
    ensures Read(Encode(records, zeroWhenEmpty, enc).value) == Some(ImageOf(records, Bounds(records, zeroWhenEmpty), enc))
  {
    var box := Bounds(records, zeroWhenEmpty);
    var header := EncodeHeader(|records|, box, enc);
    var body := EncodeRecords(records, enc);
    var s := header + body;
    assert Encode(records, zeroWhenEmpty, enc).value == s;
    HeaderFields(|records|, box, enc);
    PrefixSlice(header, body, 0, 4);
    PrefixSlice(header, body, 4, 6);
    PrefixSlice(header, body, 6, 10);
    PrefixSlice(header, body, 10, 18);
    PrefixSlice(header, body, 18, 26);
    PrefixSlice(header, body, 26, 34);
    PrefixSlice(header, body, 34, 42);
    assert s[42..] == body + [];
    U16RoundTrip(FormatVersion);
    U32RoundTrip(|records|);
    ReadRecordsRoundTrip(records, [], enc);
  }

  /** The fields of the header at their offsets. */
  lemma HeaderFields(count: nat, box: Box, enc: Float64Encoder)
    requires count < Two32
    ensures var h := EncodeHeader(count, box, enc);
            && h[..4] == Magic && h[4..6] == U16(FormatVersion) && h[6..10] == U32(count)
            && h[10..18] == enc(box.minLon) && h[18..26] == enc(box.minLat)
            && h[26..34] == enc(box.maxLon) && h[34..42] == enc(box.maxLat)
  {
  }

  lemma PrefixSlice<T>(a: seq<T>, b: seq<T>, i: nat, j: nat)
    requires i <= j <= |a|
    ensures (a + b)[i..j] == a[i..j]
  {
  }
}

=== FILE: osm.dfy ===
/**
 The geometry steps of the OSM coastline downloader. `shapes_to_geojson`
 gathers the clipped parts of a shape into one Polygon feature per shape;
 `simplify_geojson` simplifies Polygon rings, keeps an over-simplified ring
 as it was, drops empty rings and drops a Polygon left without rings, and
 passes every other feature through; `count_points` totals the Polygon
 points. Its file writer is `Encoders.OsmBinary`.
 */
module Osm {
  import opened Geometry
  import opened RingPolicy
  import opened ShapeImport
  import opened Nvtl
  import opened Encoders
  import Noaa

  /** The feature of one shape: a Polygon holding every clipped part of at
      least three points, with empty properties; none when no part is kept. */
  function ShapeFeature(shape: Shape, region: BBox): (r: Collection)
    ensures |r| <= 1
    ensures |r| == 1 <==> IsPolygonShape(shape) && |ClippedRings(Rings(shape), region)| > 0
    ensures |r| == 1 ==>
              && r[0].properties == EmptyProperties && r[0].geometry.Polygon?
              && 0 < |r[0].geometry.rings| <= |shape.parts|
              && forall i :: 0 <= i < |r[0].geometry.rings| ==> IsClosed(r[0].geometry.rings[i]) && |r[0].geometry.rings[i]| >= 3
  {
    if !IsPolygonShape(shape) then []
    else
      var rings := ClippedRings(Rings(shape), region);
      if |rings| > 0 then [Feature(EmptyProperties, Polygon(rings))] else []
  }

  function ShapeStep(region: BBox): Shape -> Collection {
    shape => ShapeFeature(shape, region)
  }

  /** A polygon shape with a part that survives clipping. */
  function HasKeptPart(region: BBox): Shape -> bool {
    shape => IsPolygonShape(shape) && |ClippedRings(Rings(shape), region)| > 0
  }

  /** `shapes_to_geojson`: one Polygon feature with empty properties for
      each polygon shape that keeps a part, holding its kept parts, in
      reading order. */
  function ShapesToGeojson(shapes: seq<Shape>, region: BBox): (r: Collection)
    ensures |r| <= |shapes|
    ensures var kept := Filter(shapes, HasKeptPart(region));
            && |r| == |kept|
            && forall j :: 0 <= j < |r| ==> r[j] == Feature(EmptyProperties, Polygon(ClippedRings(Rings(kept[j]), region)))
  {
    assert forall k :: 0 <= k < |shapes| ==> ShapeStep(region)(shapes[k]) == ShapeFeature(shapes[k], region);
    FlatMapOfKept(shapes, ShapeStep(region), HasKeptPart(region));
    var r := FlatMap(shapes, ShapeStep(region));
    assert forall j :: 0 <= j < |r| ==> HasKeptPart(region)(Filter(shapes, HasKeptPart(region))[j]);
    r
  }

  /** The rings of a Polygon feature, none for any other. */
  function PolygonRings(f: Feature): seq<Ring> {
    if f.geometry.Polygon? then f.geometry.rings else []
  }

  /** All Polygon rings of a collection, in order. */
  function AllRings(features: Collection): seq<Ring> {
    FlatMap(features, PolygonRings)
  }

  /** The OSM and NOAA importers produce the same rings in the same order:
      they differ only in grouping them into one feature per shape or one
      feature per ring. */
  lemma SameRingsAsNoaa(shapes: seq<Shape>, region: BBox)
    ensures AllRings(ShapesToGeojson(shapes, region)) == AllRings(Noaa.ShapesToGeojson(shapes, region))
  {
    FlatMapFlatten(shapes, ShapeStep(region), PolygonRings);
    FlatMapFlatten(shapes, Noaa.ShapeStep(region), PolygonRings);
    forall k | 0 <= k < |shapes|
      ensures Then(ShapeStep(region), PolygonRings)(shapes[k]) == Then(Noaa.ShapeStep(region), PolygonRings)(shapes[k])
    {
      ShapeRingsAgree(shapes[k], region);
    }
    FlatMapAgree(shapes, Then(ShapeStep(region), PolygonRings), Then(Noaa.ShapeStep(region), PolygonRings));
  }

  /** For one shape, both importers yield its clipped parts. */
  lemma ShapeRingsAgree(shape: Shape, region: BBox)
    ensures Then(ShapeStep(region), PolygonRings)(shape) == Then(Noaa.ShapeStep(region), PolygonRings)(shape)
  {
    var rings := ClippedRings(Rings(shape), region);
    var ours := ShapeFeature(shape, region);
    var theirs := Noaa.ShapeFeatures(shape, region);
    assert Then(ShapeStep(region), PolygonRings)(shape) == FlatMap(ours, PolygonRings);
    assert Then(Noaa.ShapeStep(region), PolygonRings)(shape) == FlatMap(theirs, PolygonRings);
    if IsPolygonShape(shape) {
      FlatMapSingletons(theirs, PolygonRings, rings);
      if |rings| > 0 {
        assert ours[..0] == [];
      }
    }
  }

  /** One ring of the loop: the simplified ring, closed, when it keeps at
      least four points; otherwise the ring as it was, unless it is empty. */
  function KeptRing(ring: Ring, tol: real): (r: seq<Ring>)
    ensures |r| <= 1
    ensures |r| == 1 <==> |ring| > 0
    ensures |r| == 1 && |Simplify(ring, tol)| >= 4 ==> IsClosed(r[0]) && 4 <= |r[0]| <= |ring| + 1
    ensures |r| == 1 && |Simplify(ring, tol)| >= 4 ==>
              |Simplify(ring, tol)| <= |r[0]| <= |Simplify(ring, tol)| + 1 && r[0][..|Simplify(ring, tol)|] == Simplify(ring, tol)
    ensures |r| == 1 && |Simplify(ring, tol)| < 4 ==> r[0] == ring
  {
    var long := ClosedIfLong(ring, tol);
    if long.Some? then [long.value] else if |ring| > 0 then [ring] else []
  }

  function KeptRingStep(tol: real): Ring -> seq<Ring> {
    ring => KeptRing(ring, tol)
  }

  /** The rings of one Polygon after the loop: one for each non-empty input
      ring, in order, as `KeptRing` leaves it; the empty rings are dropped. */
  function KeptRings(rings: seq<Ring>, tol: real): (r: seq<Ring>)
    ensures var kept := Filter(rings, NonEmpty);
            && |r| == |kept|
            && forall j :: 0 <= j < |r| ==> r[j] == KeptRing(kept[j], tol)[0]
    ensures forall j :: 0 <= j < |r| ==> |r[j]| > 0
  {
    FlatMapOfKept(rings, KeptRingStep(tol), NonEmpty);
    FlatMap(rings, KeptRingStep(tol))
  }

  /** Every ring is empty. */
  predicate AllEmpty(rings: seq<Ring>) {
    forall i :: 0 <= i < |rings| ==> |rings[i]| == 0
  }

  /** A Polygon loses all its rings exactly when every ring is empty. */
  lemma KeptRingsEmpty(rings: seq<Ring>, tol: real)
    ensures |KeptRings(rings, tol)| == 0 <==> AllEmpty(rings)
  {
    var kept := Filter(rings, NonEmpty);
    if !AllEmpty(rings) {
      var i :| 0 <= i < |rings| && |rings[i]| > 0;
      assert NonEmpty(rings[i]);
    }
    if |kept| > 0 {
      assert NonEmpty(kept[0]) && kept[0] in rings;
    }
  }

  /** Ring j of a kept Polygon holds only points of the j-th non-empty
      input ring: the loop invents no point. */
  lemma KeptRingsKeepPoints(rings: seq<Ring>, tol: real)
    ensures var r := KeptRings(rings, tol);
            var kept := Filter(rings, NonEmpty);
            forall j, p :: 0 <= j < |r| && 0 <= p < |r[j]| ==> r[j][p] in kept[j]
  {
    var kept := Filter(rings, NonEmpty);
    forall j | 0 <= j < |kept|
      ensures forall p :: 0 <= p < |KeptRing(kept[j], tol)[0]| ==> KeptRing(kept[j], tol)[0][p] in kept[j]
    {
      assert NonEmpty(kept[j]);
      PoliciesKeepPoints(kept[j], tol);
    }
  }

  /** One feature of the loop: a Polygon with its kept rings, nothing for a
      Polygon that keeps none, and every other feature unchanged. */
  function SimplifyFeature(f: Feature, tol: real): (r: Collection)
    ensures |r| <= 1
    ensures !f.geometry.Polygon? ==> r == [f]
    ensures f.geometry.Polygon? ==> (|r| == 0 <==> forall i :: 0 <= i < |f.geometry.rings| ==> |f.geometry.rings[i]| == 0)
    ensures f.geometry.Polygon? && |r| == 1 ==>
              && r[0] == Feature(f.properties, Polygon(KeptRings(f.geometry.rings, tol)))
              && 0 < |r[0].geometry.rings| <= |f.geometry.rings|
              && forall i :: 0 <= i < |r[0].geometry.rings| ==> |r[0].geometry.rings[i]| > 0
  {
    if !f.geometry.Polygon? then [f]
    else
      var rings := KeptRings(f.geometry.rings, tol);
      KeptRingsEmpty(f.geometry.rings, tol);
      if |rings| > 0 then [Feature(f.properties, Polygon(rings))] else []
  }

  function SimplifyStep(tol: real): Feature -> Collection {
    f => SimplifyFeature(f, tol)
  }

  /** A feature the loop emits: anything but a Polygon, and a Polygon with
      a non-empty ring. */
  predicate SurvivesSimplify(f: Feature) {
    !f.geometry.Polygon? || !AllEmpty(f.geometry.rings)
  }

  /** `simplify_geojson`: the input itself for a non-positive tolerance;
      otherwise the loop's features in input order. Output j is the
      simplified form of the j-th surviving input feature: each survivor
      once, in input order. */
  function SimplifyGeojson(features: Collection, tol: real): (r: Collection)
    ensures tol <= 0.0 ==> r == features
    ensures |r| <= |features|
    ensures tol > 0.0 ==>
              var survivors := Filter(features, SurvivesSimplify);
              && |r| == |survivors|
              && forall j :: 0 <= j < |r| ==> SimplifyFeature(survivors[j], tol) == [r[j]]
  {
    if tol <= 0.0 then features
    else
      assert forall k :: 0 <= k < |features| ==> SimplifyStep(tol)(features[k]) == SimplifyFeature(features[k], tol);
      FlatMapOfKept(features, SimplifyStep(tol), SurvivesSimplify);
      FlatMap(features, SimplifyStep(tol))
  }

  /** Features other than Polygons come through the simplifier. */
  lemma OtherFeaturesKept(features: Collection, tol: real, k: nat)
    requires k < |features| && !features[k].geometry.Polygon?
    ensures features[k] in SimplifyGeojson(features, tol)
  {
    if tol > 0.0 {
      assert SimplifyStep(tol)(features[k]) == [features[k]];
      FlatMapIncludes(features, SimplifyStep(tol), k, 0);
    }
  }

  /** A Polygon with a non-empty ring survives the simplifier, with its
      properties and its kept rings. */
  lemma PolygonWithRingKept(features: Collection, tol: real, k: nat)
    requires tol > 0.0 && k < |features| && features[k].geometry.Polygon?
    requires !AllEmpty(features[k].geometry.rings)
    ensures Feature(features[k].properties, Polygon(KeptRings(features[k].geometry.rings, tol)))
            in SimplifyGeojson(features, tol)
  {
    assert SimplifyStep(tol)(features[k]) == SimplifyFeature(features[k], tol);
    FlatMapIncludes(features, SimplifyStep(tol), k, 0);
  }

  /** With a positive tolerance every Polygon that comes out has at least
      one ring and no empty ring, so the writer emits an entry for it. */
  lemma SimplifiedPolygonsHaveRings(features: Collection, tol: real, j: nat)
    requires tol > 0.0 && j < |SimplifyGeojson(features, tol)|
    ensures var g := SimplifyGeojson(features, tol)[j].geometry;
            g.Polygon? ==> |g.rings| > 0 && forall i :: 0 <= i < |g.rings| ==> |g.rings[i]| > 0
  {
    var out := SimplifyGeojson(features, tol);
    FlatMapSource(features, SimplifyStep(tol), j);
    var k :| 0 <= k < |features| && out[j] in SimplifyStep(tol)(features[k]);
    var f := features[k];
    var kept := SimplifyFeature(f, tol);
    assert SimplifyStep(tol)(f) == kept;
    assert |kept| == 1 && out[j] == kept[0];
    if !f.geometry.Polygon? {
      assert out[j] == f;
    }
  }

  /** The point count of one feature: its ring points when it is a
      Polygon. */
  function FeaturePoints(f: Feature): nat {
    if f.geometry.Polygon? then PointCount(f.geometry.rings) else 0
  }

  /** `count_points`: the points of every Polygon ring, all features
      together, which are exactly the points of the rings the writer emits;
      the rings of every other kind of feature are ignored. */
  function CountPoints(features: Collection): (n: nat)
    ensures n == PointCount(AllRings(features))
  {
    if |features| == 0 then 0
    else
      var init := features[..|features| - 1];
      var last := features[|features| - 1];
      assert features == init + [last];
      FlatMapAppend(init, [last], PolygonRings);
      PointCountAppend(AllRings(init), PolygonRings(last));
      CountPoints(init) + FeaturePoints(last)
  }

  function FeatureRings(f: Feature): nat {
    if f.geometry.Polygon? then |f.geometry.rings| else 0
  }

  /** The number of Polygon rings, all features together. */
  function RingCount(features: Collection): nat {
    if |features| == 0 then 0
    else RingCount(features[..|features| - 1]) + FeatureRings(features[|features| - 1])
  }

  /** The size of the OSM file follows from `count_points`: 42 header bytes,
      4 bytes per polygon entry and per ring (its count field), 16 bytes per
      point. */
  lemma FileSize(features: Collection, enc: Float64Encoder)
    requires OsmBinary(features, enc).Some?
    ensures |OsmBinary(features, enc).value|
            == HeaderSize + 4 * |FlatMap(features, OsmRecords)| + 4 * RingCount(features) + 16 * CountPoints(features)
  {
    EntriesSize(features);
  }

  lemma {:induction false} EntriesSize(features: Collection)
    ensures RecordsSize(FlatMap(features, OsmRecords))
            == 4 * |FlatMap(features, OsmRecords)| + 4 * RingCount(features) + 16 * CountPoints(features)
  {
    if |features| > 0 {
      var init := features[..|features| - 1];
      var last := features[|features| - 1];
      EntriesSize(init);
      RecordsSizeAppend(FlatMap(init, OsmRecords), OsmRecords(last));
      if last.geometry.Polygon? {
        PolygonEntrySize(last.geometry.rings);
      }
    }
  }

  /** The entry of one polygon: 4 bytes, plus 4 per ring and 16 per point,
      when it has a ring. */
  lemma PolygonEntrySize(rings: seq<Ring>)
    ensures RecordsSize(PolygonRecord(rings)) == 4 * |PolygonRecord(rings)| + 4 * |rings| + 16 * PointCount(rings)
  {
    if |rings| > 0 {
      HolesSizeCount(rings[1..]);
    }
  }
}

=== FILE: ring_policy.dfy ===
/**
 What the `simplify_geojson` functions do with one ring once it has been
 through `douglas_peucker`: the tools differ only in what they keep when
 fewer than four points survive.

 - `ClosedIfLong`: the simplified ring, closed, when it has at least four
   points, and nothing otherwise (the MultiPolygon branch of the ENC direct
   tool; the first case of the OSM tool).
 - `ClosedOrFallback`: the simplified ring when it has at least four points,
   the original ring otherwise, closed either way (the Polygon branch of the
   ENC direct tool and the NOAA tool). An empty ring makes the closing step
   index an empty list; that IndexError is the None result.
 - `ClosedOrOriginal`: the simplified ring, closed, or else the original ring
   untouched (the ENC data tool).

 Each tool carries its own copy of `douglas_peucker`; the copies differ only
 in a redundant guard (`DouglasPeucker.GuardedAgrees`), so one model serves
 all of them, with `_perpendicular_distance` as the distance.
 */
module RingPolicy {
  import opened Wrappers
  import opened Geometry
  import opened Distance
  import opened DouglasPeucker

  /** `douglas_peucker(ring, tolerance)`. */
  function Simplify(ring: Ring, tol: real): Ring {
    DouglasPeucker.DouglasPeucker(ring, tol, SegmentSqDist)
  }

  function ClosedIfLong(ring: Ring, tol: real): (r: Option<Ring>)
    ensures r.Some? <==> |Simplify(ring, tol)| >= 4
    ensures r.Some? ==> IsClosed(r.value) && 4 <= |r.value| <= |ring| + 1
    ensures r.Some? ==>
              |Simplify(ring, tol)| <= |r.value| <= |Simplify(ring, tol)| + 1 && r.value[..|Simplify(ring, tol)|] == Simplify(ring, tol)
  {
    var simplified := Simplify(ring, tol);
    if |simplified| >= 4 then Some(CloseRing(simplified)) else None
  }

  function ClosedOrFallback(ring: Ring, tol: real): (r: Option<Ring>)
    ensures r.Some? <==> |ring| > 0
    ensures r.Some? ==> IsClosed(r.value) && |r.value| <= |ring| + 1
    ensures r.Some? && |Simplify(ring, tol)| >= 4 ==> |r.value| >= 4
    ensures r.Some? && |Simplify(ring, tol)| >= 4 ==>
              |Simplify(ring, tol)| <= |r.value| <= |Simplify(ring, tol)| + 1 && r.value[..|Simplify(ring, tol)|] == Simplify(ring, tol)
    ensures r.Some? && |Simplify(ring, tol)| < 4 ==> |ring| <= |r.value| && r.value[..|ring|] == ring
  {
    var simplified := Simplify(ring, tol);
    var kept := if |simplified| < 4 then ring else simplified;
    if |kept| == 0 then None else Some(CloseRing(kept))
  }

  function ClosedOrOriginal(ring: Ring, tol: real): (r: Ring)
    ensures |Simplify(ring, tol)| >= 4 ==> IsClosed(r) && 4 <= |r| <= |ring| + 1
    ensures |Simplify(ring, tol)| >= 4 ==>
              |Simplify(ring, tol)| <= |r| <= |Simplify(ring, tol)| + 1 && r[..|Simplify(ring, tol)|] == Simplify(ring, tol)
    ensures |Simplify(ring, tol)| < 4 ==> r == ring
  {
    var simplified := Simplify(ring, tol);
    if |simplified| >= 4 then CloseRing(simplified) else ring
  }

  /** All rings of a Polygon through `ClosedOrFallback`, in order: the loop
      raises (None) as soon as it meets an empty ring. */
  function FallbackRings(rings: seq<Ring>, tol: real): (r: Option<seq<Ring>>)
    ensures r.Some? <==> forall i :: 0 <= i < |rings| ==> |rings[i]| > 0
    ensures r.Some? ==> |r.value| == |rings|
    ensures r.Some? ==> forall i :: 0 <= i < |rings| ==> r.value[i] == ClosedOrFallback(rings[i], tol).value
  {
    if forall i :: 0 <= i < |rings| ==> |rings[i]| > 0 then
      Some(seq(|rings|, i requires 0 <= i < |rings| => ClosedOrFallback(rings[i], tol).value))
    else None
  }

  /** The simplified ring only holds points of the original. */
  lemma SimplifiedPointsFromRing(ring: Ring, tol: real)
    ensures forall k :: 0 <= k < |Simplify(ring, tol)| ==> Simplify(ring, tol)[k] in ring
  {
    DouglasPeuckerIsSubsequence(ring, tol, SegmentSqDist);
    var ix :| IsEmbedding(ix, Simplify(ring, tol), ring);
  }

  /** No policy invents a point: every point of its result is a point of the
      ring it was given. */
  lemma PoliciesKeepPoints(ring: Ring, tol: real)
    ensures var r := ClosedIfLong(ring, tol);
            r.Some? ==> forall k :: 0 <= k < |r.value| ==> r.value[k] in ring
    ensures var r := ClosedOrFallback(ring, tol);
            r.Some? ==> forall k :: 0 <= k < |r.value| ==> r.value[k] in ring
    ensures var r := ClosedOrOriginal(ring, tol);
            forall k :: 0 <= k < |r| ==> r[k] in ring
  {
    var simplified := Simplify(ring, tol);
    SimplifiedPointsFromRing(ring, tol);
    if |simplified| >= 4 {
      ClosingKeepsPoints(simplified);
    } else if |ring| > 0 {
      ClosingKeepsPoints(ring);
    }
  }

  /** A point within `tol2` of an edge of `r` stays so once `r` is closed. */
  lemma NearAfterClosing(p: Point, r: Ring, tol2: real)
    requires NearPolyline(p, r, tol2, SegmentSqDist)
    ensures NearPolyline(p, CloseRing(r), tol2, SegmentSqDist)
  {
    var j: nat :| j + 1 < |r| && SegmentSqDist(p, r[j], r[j + 1]) <= tol2;
    assert CloseRing(r)[j] == r[j] && CloseRing(r)[j + 1] == r[j + 1];
  }

  /** Every vertex of a ring with an edge lies on one of its edges. */
  lemma VertexIsNear(r: Ring, k: nat, tol2: real)
    requires |r| >= 2 && k < |r| && tol2 >= 0.0
    ensures NearPolyline(r[k], r, tol2, SegmentSqDist)
  {
    SegmentSqDistIsSegmentDistance();
    if k + 1 < |r| {
      assert SegmentSqDist(r[k], r[k], r[k + 1]) == 0.0;
    } else {
      assert SegmentSqDist(r[k], r[k - 1], r[k]) == 0.0;
    }
  }

  /** The ring a policy keeps for a ring of at least three points passes
      within the tolerance of every original point. */
  lemma PoliciesStayNear(ring: Ring, tol: real, k: nat)
    requires |ring| > 2 && tol > 0.0 && k < |ring|
    ensures var r := ClosedIfLong(ring, tol);
            r.Some? ==> NearPolyline(ring[k], r.value, Sq(tol), SegmentSqDist)
    ensures var r := ClosedOrFallback(ring, tol);
            r.Some? ==> NearPolyline(ring[k], r.value, Sq(tol), SegmentSqDist)
    ensures NearPolyline(ring[k], ClosedOrOriginal(ring, tol), Sq(tol), SegmentSqDist)
  {
    SquareNonNegative(tol);
    var simplified := Simplify(ring, tol);
    if |simplified| >= 4 {
      SegmentSqDistIsSegmentDistance();
      DouglasPeuckerStaysNear(ring, tol, SegmentSqDist, k);
      NearAfterClosing(ring[k], simplified, Sq(tol));
    } else {
      VertexIsNear(ring, k, Sq(tol));
      var closed := CloseRing(ring);
      assert closed[k] == ring[k];
      VertexIsNear(closed, k, Sq(tol));
    }
  }

  /** What a policy keeps, when at least four points survive, is the
      simplification of the ring: without its closing point it is an
      order-preserving selection of the ring's points, and every point of
      the ring lies within the tolerance of one of its edges. */
  lemma PolicyRingIsSimplification(ring: Ring, tol: real, k: nat)
    requires tol > 0.0 && k < |ring| && |Simplify(ring, tol)| >= 4
    ensures var s := Simplify(ring, tol);
            var r := ClosedOrOriginal(ring, tol);
            IsSubsequence(r[..|s|], ring) && NearPolyline(ring[k], r, Sq(tol), SegmentSqDist)
    ensures var s := Simplify(ring, tol);
            var r := ClosedIfLong(ring, tol).value;
            IsSubsequence(r[..|s|], ring) && NearPolyline(ring[k], r, Sq(tol), SegmentSqDist)
    ensures var s := Simplify(ring, tol);
            var r := ClosedOrFallback(ring, tol).value;
            IsSubsequence(r[..|s|], ring) && NearPolyline(ring[k], r, Sq(tol), SegmentSqDist)
  {
    DouglasPeuckerIsSubsequence(ring, tol, SegmentSqDist);
    PoliciesStayNear(ring, tol, k);
  }

  /** A ring whose interior points all lie within the tolerance of the chord
      from its first to its last working point collapses to that chord, so
      no policy keeps a simplified ring: `ClosedIfLong` drops it and the
      other two fall back to the original ring. */
  lemma NearChordCollapses(ring: Ring, tol: real)
    requires |ring| > 2 && tol > 0.0
    requires forall k :: 0 < k < WorkingEnd(ring) ==> Chord(ring, 0, WorkingEnd(ring), k, SegmentSqDist) <= Sq(tol)
    ensures |Simplify(ring, tol)| <= 3
    ensures ClosedIfLong(ring, tol).None?
    ensures ClosedOrFallback(ring, tol) == Some(CloseRing(ring))
    ensures ClosedOrOriginal(ring, tol) == ring
  {
    SquareNonNegative(tol);
    CollapseIffAllNear(ring, 0, WorkingEnd(ring), Sq(tol), SegmentSqDist);
  }
}

=== FILE: shapes.dfy ===
/**
 The shapefile import helpers of the NOAA, OSM and GSHHG tools: the bounding
 box filter over shapes, clamping rings to a region, and splitting a shape's
 point list into rings at its part offsets.

 A shape is what the shapefile reader hands out: a type code, a bounding box,
 one flat point list and the offsets where its parts (rings) start.
 */
module ShapeImport {
  import opened Geometry

  /** The shapefile type code of a polygon shape. */
  const PolygonShapeType: int := 5

  /** A box as `(min_lon, min_lat, max_lon, max_lat)`: a shape's `bbox` or a
      region's `bounds`. */
  datatype BBox = BBox(minLon: real, minLat: real, maxLon: real, maxLat: real)

  datatype Shape = Shape(shapeType: int, bbox: BBox, points: seq<Point>, parts: seq<nat>)

  predicate IsPolygonShape(shape: Shape) {
    shape.shapeType == PolygonShapeType
  }

  /** The box contains the point (closed intervals). */
  predicate Contains(box: BBox, p: Point) {
    box.minLon <= p.lon <= box.maxLon && box.minLat <= p.lat <= box.maxLat
  }

  /** A box with min <= max on both axes. */
  predicate IsProper(box: BBox) {
    box.minLon <= box.maxLon && box.minLat <= box.maxLat
  }

  /** The intersection test of `filter_shapes_by_bounds`. */
  predicate Intersects(shapeBox: BBox, region: BBox) {
    && shapeBox.minLon <= region.maxLon && shapeBox.maxLon >= region.minLon
    && shapeBox.minLat <= region.maxLat && shapeBox.maxLat >= region.minLat
  }

  /** For proper boxes the test is exact: it passes precisely when some point
      lies in both boxes. */
  lemma IntersectsIffCommonPoint(shapeBox: BBox, region: BBox)
    requires IsProper(shapeBox) && IsProper(region)
    ensures Intersects(shapeBox, region) <==> exists p :: Contains(shapeBox, p) && Contains(region, p)
  {
    if Intersects(shapeBox, region) {
      var lon := if shapeBox.minLon < region.minLon then region.minLon else shapeBox.minLon;
      var lat := if shapeBox.minLat < region.minLat then region.minLat else shapeBox.minLat;
      assert Contains(shapeBox, Point(lon, lat)) && Contains(region, Point(lon, lat));
    }
  }

  /** The shapes `filter_shapes_by_bounds` keeps. */
  predicate Selected(region: BBox, shape: Shape) {
    IsPolygonShape(shape) && Intersects(shape.bbox, region)
  }

  /** `filter_shapes_by_bounds`: the polygon shapes whose box meets the
      region, in reading order. */
  function FilterShapesByBounds(shapes: seq<Shape>, region: BBox): (r: seq<Shape>)
    ensures forall k :: 0 <= k < |r| ==> IsPolygonShape(r[k]) && Intersects(r[k].bbox, region)
    ensures forall k :: 0 <= k < |shapes| && Selected(region, shapes[k]) ==> shapes[k] in r
  {
    Filter(shapes, shape => Selected(region, shape))
  }

  /** The filter keeps exactly the selected shapes, in order and with their
      multiplicity. */
  lemma FilterShapesExact(shapes: seq<Shape>, region: BBox)
    ensures IsSubsequence(FilterShapesByBounds(shapes, region), shapes)
    ensures forall s :: multiset(FilterShapesByBounds(shapes, region))[s]
                        == if Selected(region, s) then multiset(shapes)[s] else 0
  {
    FilterIsSubsequence(shapes, shape => Selected(region, shape));
    FilterCounts(shapes, shape => Selected(region, shape));
  }

  /** `max(lo, min(hi, x))`. */
  function Clamp(lo: real, hi: real, x: real): (r: real)
    ensures lo <= hi ==> lo <= r <= hi
    ensures lo <= x <= hi ==> r == x
    ensures x < lo ==> r == lo
    ensures lo <= hi && hi < x ==> r == hi
  {
    var capped := if hi < x then hi else x;
    if lo < capped then capped else lo
  }

  /** Clamping a clamped value changes nothing. */
  lemma ClampIdempotent(lo: real, hi: real, x: real)
    ensures Clamp(lo, hi, Clamp(lo, hi, x)) == Clamp(lo, hi, x)
  {
  }

  function ClampPoint(p: Point, region: BBox): Point {
    Point(Clamp(region.minLon, region.maxLon, p.lon), Clamp(region.minLat, region.maxLat, p.lat))
  }

  /** `clip_polygon_to_bounds` / `clip_ring_to_bounds`: every point clamped
      into the region, one output point per input point. */
  function ClipRing(ring: Ring, region: BBox): (r: Ring)
    ensures |r| == |ring|
    ensures IsProper(region) ==> forall k :: 0 <= k < |r| ==> Contains(region, r[k])
    ensures forall k :: 0 <= k < |r| && Contains(region, ring[k]) ==> r[k] == ring[k]
  {
    seq(|ring|, k requires 0 <= k < |ring| => ClampPoint(ring[k], region))
  }

  /** Clipping twice is clipping once. */
  lemma ClipIdempotent(ring: Ring, region: BBox)
    ensures ClipRing(ClipRing(ring, region), region) == ClipRing(ring, region)
  {
    var once := ClipRing(ring, region);
    forall k | 0 <= k < |ring|
      ensures ClipRing(once, region)[k] == once[k]
    {
      ClampIdempotent(region.minLon, region.maxLon, ring[k].lon);
      ClampIdempotent(region.minLat, region.maxLat, ring[k].lat);
    }
  }

  /** Python `s[a:b]` for non-negative bounds: both are cut down to `|s|`, and
      the slice is empty when `b <= a`. */
  function PySlice<T>(s: seq<T>, a: nat, b: nat): (r: seq<T>)
    ensures |r| == if a < b && a < |s| then (if b < |s| then b else |s|) - a else 0
    ensures forall k :: 0 <= k < |r| ==> r[k] == s[a + k]
    ensures a <= b <= |s| ==> r == s[a..b]
  {
    var lo := if a < |s| then a else |s|;
    var hi := if b < |s| then b else |s|;
    if hi <= lo then [] else s[lo..hi]
  }

  /** `parts + [len(points)]`: where each ring starts, then the end. */
  function Offsets(shape: Shape): (r: seq<nat>)
    ensures |r| == |shape.parts| + 1
  {
    shape.parts + [|shape.points|]
  }

  /** The rings of a shape: ring i is `points[parts[i]:parts[i+1]]`, the last
      one running to the end of the point list. */
  function Rings(shape: Shape): (r: seq<Ring>)
    ensures |r| == |shape.parts|
    ensures forall i :: 0 <= i < |r| ==> r[i] == PySlice(shape.points, Offsets(shape)[i], Offsets(shape)[i + 1])
  {
    var offsets := Offsets(shape);
    seq(|shape.parts|, i requires 0 <= i < |shape.parts| => PySlice(shape.points, offsets[i], offsets[i + 1]))
  }

  /** A shape as a valid shapefile stores it: the first part starts at 0, the
      offsets never decrease and stay within the point list, and a shape
      with points has at least one part. */
  predicate WellFormed(shape: Shape) {
    && (|shape.parts| == 0 ==> |shape.points| == 0)
    && (|shape.parts| > 0 ==> shape.parts[0] == 0)
    && (forall i :: 0 <= i < |shape.parts| ==> shape.parts[i] <= |shape.points|)
    && (forall i, j :: 0 <= i <= j < |shape.parts| ==> shape.parts[i] <= shape.parts[j])
  }

  /** The concatenation of a list of rings. */
  function Concat(rings: seq<Ring>): (r: Ring)
    ensures |rings| == 0 ==> r == []
  {
    if |rings| == 0 then [] else Concat(rings[..|rings| - 1]) + rings[|rings| - 1]
  }

  /** Splitting a well-formed shape at its parts loses and duplicates no
      point: the rings, put back together, are the shape's point list. */
  lemma RingsConcat(shape: Shape)
    requires WellFormed(shape)
    ensures Concat(Rings(shape)) == shape.points
  {
    OffsetsSorted(shape);
    RingsAreSlices(shape);
    ConcatAll(shape.points, Offsets(shape), Rings(shape));
  }

  /** The offsets of a well-formed shape run from 0 to the end of the point
      list without decreasing. */
  lemma OffsetsSorted(shape: Shape)
    requires WellFormed(shape)
    ensures Offsets(shape)[0] == 0 && Offsets(shape)[|shape.parts|] == |shape.points|
    ensures forall i :: 0 <= i < |Offsets(shape)| ==> Offsets(shape)[i] <= |shape.points|
    ensures forall i, j :: 0 <= i <= j < |Offsets(shape)| ==> Offsets(shape)[i] <= Offsets(shape)[j]
  {
    var offsets := Offsets(shape);
    assert forall i :: 0 <= i < |shape.parts| ==> offsets[i] == shape.parts[i];
  }

  /** Each ring of a well-formed shape is the plain slice between its two
      offsets. */
  lemma RingsAreSlices(shape: Shape)
    requires forall i, j :: 0 <= i <= j < |Offsets(shape)| ==> Offsets(shape)[i] <= Offsets(shape)[j]
    requires forall i :: 0 <= i < |Offsets(shape)| ==> Offsets(shape)[i] <= |shape.points|
    ensures forall i :: 0 <= i < |Rings(shape)| ==>
              Rings(shape)[i] == shape.points[Offsets(shape)[i]..Offsets(shape)[i + 1]]
  {
    var offsets := Offsets(shape);
    forall i | 0 <= i < |shape.parts|
      ensures Rings(shape)[i] == shape.points[offsets[i]..offsets[i + 1]]
    {
      assert offsets[i] <= offsets[i + 1];
    }
  }

  /** All the slices between sorted offsets, put together, are the slice
      from the first offset to the last. */
  lemma ConcatAll(s: seq<Point>, offsets: seq<nat>, rings: seq<Ring>)
    requires |offsets| == |rings| + 1
    requires offsets[0] == 0 && offsets[|rings|] == |s|
    requires forall i :: 0 <= i < |offsets| ==> offsets[i] <= |s|
    requires forall i, j :: 0 <= i <= j < |offsets| ==> offsets[i] <= offsets[j]
    requires forall i :: 0 <= i < |rings| ==> rings[i] == s[offsets[i]..offsets[i + 1]]
    ensures Concat(rings) == s
  {
    ConcatSlices(s, offsets, rings, |rings|);
    assert rings[..|rings|] == rings;
    assert s[0..|s|] == s;
  }

  /** Consecutive slices between sorted offsets, put together, are the slice
      from the first offset to the last. */
  lemma {:induction false} ConcatSlices(s: seq<Point>, offsets: seq<nat>, rings: seq<Ring>, m: nat)
    requires |offsets| == |rings| + 1 && m <= |rings|
    requires forall i :: 0 <= i < |offsets| ==> offsets[i] <= |s|
    requires forall i, j :: 0 <= i <= j < |offsets| ==> offsets[i] <= offsets[j]
    requires forall i :: 0 <= i < |rings| ==> rings[i] == s[offsets[i]..offsets[i + 1]]
    ensures Concat(rings[..m]) == s[offsets[0]..offsets[m]]
  {
    if m > 0 {
      ConcatSlices(s, offsets, rings, m - 1);
      assert rings[..m][..m - 1] == rings[..m - 1];
      assert offsets[0] <= offsets[m - 1] <= offsets[m];
      assert s[offsets[0]..offsets[m - 1]] + s[offsets[m - 1]..offsets[m]] == s[offsets[0]..offsets[m]];
    }
  }

  /** One part after clipping: the clamped part, closed, when it has at
      least three points; dropped otherwise. */
  function ClippedRing(ring: Ring, region: BBox): (r: seq<Ring>)
    ensures |r| <= 1
    ensures |r| == 1 <==> |ring| >= 3
    ensures |r| == 1 ==> IsClosed(r[0]) && |r[0]| >= 3
    ensures |r| == 1 ==> |ring| <= |r[0]| <= |ring| + 1 && r[0][..|ring|] == ClipRing(ring, region)
    ensures |r| == 1 && IsProper(region) ==> forall k :: 0 <= k < |r[0]| ==> Contains(region, r[0][k])
  {
    var clipped := ClipRing(ring, region);
    if |clipped| >= 3 then
      var closed := CloseRing(clipped);
      assert forall k :: 0 <= k < |closed| ==> closed[k] in clipped;
      [closed]
    else []
  }

  function ClippedRingStep(region: BBox): Ring -> seq<Ring> {
    ring => ClippedRing(ring, region)
  }

  /** A part of at least three points: the parts the importers keep. */
  predicate HasThreePoints(ring: Ring) {
    |ring| >= 3
  }

  /** The clipped, closed parts of a shape that keep at least three points,
      in order: part j of the result is the j-th such part, clamped and
      closed. */
  function ClippedRings(rings: seq<Ring>, region: BBox): (r: seq<Ring>)
    ensures var kept := Filter(rings, HasThreePoints);
            && |r| == |kept|
            && forall j :: 0 <= j < |r| ==> r[j] == ClippedRing(kept[j], region)[0]
    ensures |r| <= |rings|
    ensures forall j :: 0 <= j < |r| ==> IsClosed(r[j]) && |r[j]| >= 3
    ensures IsProper(region) ==> forall j, k :: 0 <= j < |r| && 0 <= k < |r[j]| ==> Contains(region, r[j][k])
  {
    FlatMapOfKept(rings, ClippedRingStep(region), HasThreePoints);
    var r := FlatMap(rings, ClippedRingStep(region));
    assert forall j :: 0 <= j < |r| ==> HasThreePoints(Filter(rings, HasThreePoints)[j]);
    r
  }
}

=== FILE: wrappers.dfy ===
/** Failure-carrying result types shared by the coastline pipeline model. */
module Wrappers {

  /** A value that may be absent; `None` also stands for a Python exception
      that aborts the whole call. */
  datatype Option<+T> = None | Some(value: T)

  /** A value or a typed error. */
  datatype Result<+R, +E> = Success(value: R) | Failure(error: E)
}
